=== FILE: README.md ===
# auto-groovydoc-parser, modelled in Dafny

This project models the core of auto-groovydoc-parser. The tool reads
GroovyDoc comments (`/** ... */` blocks before `def` functions) out of a
Groovy source file. It turns each documented function into a block of
Confluence storage-format HTML and writes the blocks into a Confluence page.
It also ships a small Confluence REST client and a page manager that
creates or updates a page from a template.

The model is split into one module per concern:

- `PyTypes`: the Python outcomes used everywhere. `Option`, `Result` and
  the exceptions the code raises (`ValueError`, `TypeError`, `IndexError`,
  `AttributeError`, `AssertionError`, `HttpNotFoundError`, a plain
  `Exception`).
- `Text`: the string builtins the code relies on. These are `str.replace`,
  `str.split`, `str.join`, `str.strip`, `str.lower`, `in` on strings, and
  `int()`/`str()` on decimal integers. White space is the six ASCII
  characters `int()` skips; see "## Left out" for `\s` and `str.strip`.
- `OrderedMaps`: `collections.OrderedDict` as a sequence of pairs. A new key
  goes to the end; an existing key keeps its place and takes the new value.
- `Patterns`: the regular expressions the code compiles. Each is a
  concatenation of single-class repeats (greedy `*`, `+`, `?`, counted runs)
  and literals. `MatchAt` is the backtracking engine of `re.match`.
  `Search`, `FindAll` and `DeleteAll` give `re.search`, `re.findall` and
  `re.sub(..., '')`. Each match is reported as its cut points, one per item
  boundary. `Fits` is a declarative reference: the cut points split the
  text so that every item accepts its piece. The engine's answer is the
  lexicographically greatest fit, which is what greedy backtracking prefers.
- `GroovyDoc` (utils/parser.py): the block scanner and the per-function
  record. The record holds the formatted docstring, description, header,
  name, code definition, parameters and `@return` text. The module also
  holds the parameter parser and the two HTML renderings.
- `GroovyDocFacts`: what the extractor does with concrete inputs. It covers
  which comment lines survive formatting, how a `@param` line splits, the
  `@return` text, the description and header, the `def` line, and the list
  of blocks a file yields.
- `GroovyPage` (groovydoc-parser.py): the logging level names, the function
  section cut out of a template page, the filling of that section once per
  function, the final page text and the next version number.
- `BaseApi` (confluence/base_api.py): URL normalisation, the request URL of
  each HTTP verb, and which status codes become which exception.
- `ConfluenceApi` (confluence/confluence_api.py): a JSON value type, the validation a `Page`
  and a `ContentError` apply to a JSON response, and the JSON bodies and
  query parameters of the create, update and get requests.
- `PageManager` (app/page_manager.py): template variables, credential
  resolution (arguments, configuration, `env.` references to environment
  variables) and the create-or-update decision of `generate_page`.
- `PageManagerFacts`: the URL helpers `is_url`, `is_id_in_url`,
  `get_id_from_url`, `get_space_from_url` and `get_page_title_from_url`,
  including the examples in their docstrings.

The block regex `REGEX_GROOVYDOC_FUNCTION` mixes lazy repeats with a
negative lookahead, so `BlockAt` states the engine's exploration order
directly.

- The group `([^*]|\*(?!/))*?` can cross line breaks but never passes a
  `*/`.
- The `.*?` after it can pass further `*/`s, but never a line break.
- So, starting from `/**`, the engine finds the first `*/`. It then tries
  that one and each later `*/` on the same line, in order, until the
  `\n*def\s+\w*\s*\(.*\)` tail matches.

## Model

| member | source | states |
|---|---|---|
| OrderedMaps.PutKeys | utils/parser.py:51 | Storing under a key that is already present keeps the key order. A new key is appended at the end. |
| OrderedMaps.PutGet | utils/parser.py:51 | After storing `v` under `k`, looking up `k` gives `v` and every other key gives what it gave before. |
| OrderedMaps.PutInPlace | utils/parser.py:101 | Re-storing a key replaces its value at the same position and leaves every other entry untouched. |
| OrderedMaps.FromPairsSpec | utils/parser.py:48-51 | Filling a dictionary from pairs gives the keys in order of first appearance. Each key holds the value of its last pair. |
| OrderedMaps.FirstOccurrencesSpec | utils/parser.py:48-51 | The key order has no duplicates and holds exactly the keys that occur. |
| OrderedMaps.FromPairsDistinct | utils/parser.py:48-51 | A dictionary filled from any pairs never holds a key twice. |
| Patterns.MatchAtPreferred | utils/parser.py:22 | Whenever some split of the text fits the pattern, the engine finds a match. Its match is the greedy-preferred (lexicographically greatest) fit. |
| Patterns.NoMatchNoFit | utils/parser.py:22 | When the engine reports no match at a position, no split of the text fits the pattern there. |
| Patterns.FindAllMatches | utils/parser.py:47 | Every match `re.findall` reports is the engine's match at its start, and it fits the pattern. |
| Patterns.SearchLeftmost | groovydoc-parser.py:163-164 | `re.search` fails exactly when no position matches. Otherwise no position before the reported one matches. |
| Patterns.FindAllFirst | groovydoc-parser.py:164-165 | `re.findall` is empty exactly when `re.search` fails. Its first match is the one `re.search` reports. |
| Patterns.DeleteAllNoMatch | utils/parser.py:114-115 | `re.sub(p, '', s)` leaves a text unchanged when `p` matches nowhere in it. |
| Text.ReplaceIsSplitJoin | groovydoc-parser.py:173-176 | `s.replace(p, r)` equals `r.join(s.split(p))`, so every occurrence is replaced, scanning left to right without overlaps. |
| Text.JoinSplitOn | utils/parser.py:83 | Joining the pieces of `s.split(sep)` with `sep` gives back `s`. |
| Text.ReplaceAbsent | app/page_manager.py:141-152 | Replacing a pattern that does not occur changes nothing. |
| Text.SplitOnFirst | utils/parser.py:118 | The first piece of a split is a prefix free of the separator, followed by the separator or the end of the text. |
| Text.StripSpec | utils/parser.py:114 | `strip()` returns the middle of the text after removing the leading and trailing white space, and nothing more. Its result neither begins nor ends with white space. |
| Text.StripIdempotent | utils/parser.py:114-115 | Stripping twice is stripping once. |
| Text.ParseIntToString | groovydoc-parser.py:224 | `int(str(i)) == i` for every integer. |
| Text.NextVersion | app/page_manager.py:334 | `str(int(v) + 1)` succeeds exactly when `v` is a decimal integer, and then it reads back as that integer plus one. |
| GroovyDoc.ParseParameter | utils/parser.py:146-165 | A parameter's name, type and description are either all set or all missing. They are set exactly when the `@param` format matches somewhere in the body. |
| GroovyDoc.ParameterPairs | utils/parser.py:96-101 | There is one parameter per `@param` match of the raw block, in order, keyed by its parsed name. |
| GroovyDoc.CloseOnLineFirst | utils/parser.py:22 | The `*/` the block stops at is the first on its line that is followed by a `def` tail. With no result, no `*/` on that line is. |
| GroovyDoc.BlockAt | utils/parser.py:22 | A block matches only where `/**` starts. It ends after a `*/` followed by the `def` tail it fits. |
| GroovyDoc.FunctionPairs | utils/parser.py:46-51 | There is one function record per block found, in order. Each record's raw text is exactly its block, keyed by the parsed name. |
| GroovyDocFacts.FindBlocksLeftmost | utils/parser.py:47 | The file yields no block exactly when no block matches anywhere. Otherwise the first block is the leftmost match. |
| GroovyDocFacts.FindBlocksAreBlocks | utils/parser.py:47-49 | Every reported block is a match of the block pattern, ending where the engine settles. |
| GroovyDocFacts.FindBlocksResume | utils/parser.py:47 | After each reported block, `re.findall` resumes its scan where that block ended. |
| GroovyDocFacts.ParseFileWithoutComments | utils/parser.py:46-51 | A text with no comment opener gives an empty dictionary of functions. |
| GroovyDocFacts.DocLineKept | utils/parser.py:81-90 | A line of blanks, at least one star and more blanks keeps what follows them. |
| GroovyDocFacts.DocLineDropped | utils/parser.py:86-89 | A line whose first non-blank character is not a star is dropped from the formatted docstring. |
| GroovyDocFacts.ClosingLineKeepsSlash | utils/parser.py:85-89 | The closing line ` */` survives formatting as `/`. |
| GroovyDocFacts.OpeningLineDropped | utils/parser.py:85-89 | The opening `/**` line is dropped, because it starts with a slash. |
| GroovyDocFacts.ParseParameterOf | utils/parser.py:160-165 | When the parameter format matches the whole body, name, type and description are the text of its three groups. |
| GroovyDocFacts.ParamLineParsed | utils/parser.py:146-165 | `@param name (type) description` is parsed into that name, type and description, with or without the parentheses. |
| GroovyDocFacts.ParamWithoutTypeDropped | utils/parser.py:146-165 | `@param name description` with a one-word description has no type part, so name, type and description all stay `None`. |
| GroovyDocFacts.ReturnMatchIffTag | utils/parser.py:62 | The `@return` pattern matches at a position exactly when `@return` stands there, followed by at least one white-space character. |
| GroovyDocFacts.ReturnsNothingIff | utils/parser.py:105-109 | The returns text is `Nothing.` exactly when no `@return` tag occurs in the block. |
| GroovyDocFacts.ReturnsFirstTag | utils/parser.py:105-107 | The returns text is the first tag's whole match, up to the end of the line the text starts on. |
| GroovyDocFacts.ReturnSpansNewline | utils/parser.py:62 | `@return` alone on its line takes the next line's text, because `\s+` crosses the line break. |
| GroovyDocFacts.DescriptionStripped | utils/parser.py:113-116 | The description has no leading or trailing white space. |
| GroovyDocFacts.DescriptionPlain | utils/parser.py:113-116 | Without `@param` and `@return` tags, the description is the stripped formatted docstring. |
| GroovyDocFacts.HeaderFirstLine | utils/parser.py:118 | The header is the description's first line: a prefix without line breaks, ending where the first break is. It is the whole description exactly when there is no break. |
| GroovyDocFacts.DescriptionHtmlLines | utils/parser.py:133-141 | The description's HTML is one `<code>` paragraph in which every line, the last one included, ends in `<br/>`. |
| GroovyDocFacts.DefinitionOfMatch | utils/parser.py:124-131 | The first `def` match gives the function name, and the code definition `def name( parameters )`. Earlier text is unrestricted as long as the pattern does not match there, so words such as `default` may precede it. |
| GroovyDocFacts.DefinitionOfNone | utils/parser.py:124-131 | Name and code definition are both absent exactly when the pattern matches nowhere in the block, and always when the text `def` does not occur. |
| GroovyDocFacts.DefinitionOfFirstDef | utils/parser.py:120-131 | For the first `def name(` line of a block, the name and the parameters run up to the last `)` of that line. |
| GroovyPage.LogLevelAccepts | groovydoc-parser.py:31-40 | A level name is accepted exactly when it is one of off, debug, info, warning, error, critical. Any other name raises `ValueError` with the name in its message. |
| GroovyPage.LogLevelOrdered | groovydoc-parser.py:28-38 | Later names in that list have strictly higher numeric levels. |
| GroovyPage.LogLevelRoundTrip | groovydoc-parser.py:31-38 | The names and the numbers 0, 10, 20, 30, 40, 50 are in one-to-one correspondence. |
| GroovyPage.FunctionSection | groovydoc-parser.py:163-165 | Cutting the function section fails with `IndexError` exactly when the open and close markers never match. The section never holds a line break. |
| GroovyPage.FunctionSectionOf | groovydoc-parser.py:163-165 | Markers on one line, with no `$` before them or after them on that line, give exactly the text between them. |
| GroovyPage.SectionAt | groovydoc-parser.py:163-165 | Stated on positions: an open marker at the first `$`, a one-line section and a close marker with no later `$` on its line give exactly that section. |
| GroovyPage.FunctionSectionIsFindAll | groovydoc-parser.py:163-165 | The section is the group of the first `re.findall` match, and the cut fails exactly when that list is empty. |
| GroovyPage.SectionOnOneLineOnly | groovydoc-parser.py:163 | Markers separated by a line break do not delimit a section, because `.` does not match a newline. |
| GroovyPage.ParameterListEmpty | groovydoc-parser.py:189-195 | A function without parameters gets an empty `<ul>` list. |
| GroovyPage.ParameterListAppend | groovydoc-parser.py:191-194 | One more parameter adds exactly one `<li>` item, holding its HTML, at the end of the list. |
| GroovyPage.FillFunction | groovydoc-parser.py:171-211 | Filling a section fails with `TypeError` exactly when the function has no name or no code definition. |
| GroovyPage.FillLeavesPlainText | groovydoc-parser.py:171-211 | A section without placeholders comes out unchanged. |
| GroovyPage.FillTitle | groovydoc-parser.py:173-176 | A section that is just the title placeholder becomes the function name. |
| GroovyPage.FillReplacesInsertedText | groovydoc-parser.py:178-205 | Later replacements also act on text inserted earlier: a header that reads `${groovy.returns}` ends up as the returns text. |
| GroovyPage.FillAllAppend | groovydoc-parser.py:171-215 | Filling for two lists of functions concatenates the two results, and succeeds exactly when both do. |
| GroovyPage.FillAllOk | groovydoc-parser.py:171-211 | Filling succeeds exactly when every function has a name and a code definition. |
| GroovyPage.BuildPageTarget | groovydoc-parser.py:213-222 | A target page without placeholders is left as it is. A target that is just `${groovy.target}` becomes the concatenated function blocks. |
| GroovyPage.BuildPageNoFunctions | groovydoc-parser.py:213-222 | With no documented functions, the target placeholder is replaced by the empty text. |
| BaseApi.NormalizeHost | confluence/base_api.py:38-41 | Exactly one trailing slash, if any, is removed from the host URL. |
| BaseApi.NormalizeRest | confluence/base_api.py:44-45 | The REST path starts with `/`, and is unchanged exactly when it already did. |
| BaseApi.NewClient | confluence/base_api.py:21-50 | The API base URL is the normalised host followed by the normalised REST path. |
| BaseApi.StatusErrorClasses | confluence/base_api.py:53-88 | Status 404 raises `HttpNotFoundError`. 400-403, 405-408 and 500 raise a plain exception, and every other status passes. |
| BaseApi.RequestUrlSameForAllMethods | confluence/base_api.py:90-170 | GET, POST, PUT and DELETE build the same URL for the same path. |
| BaseApi.HostSlashOnce | confluence/base_api.py:38-41 | One trailing slash on the host makes no difference; a second one is kept. |
| BaseApi.NormalizeRestIdempotent | confluence/base_api.py:44-45 | Normalising the REST path twice is normalising it once. |
| BaseApi.RequestUrlShape | confluence/base_api.py:38-50 | The request URL is host, `/`, REST path, `/`, path. |
| ConfluenceApi.ResultsOf | confluence/confluence_api.py:324-345 | A response without `results` is the page itself. An empty `results` list raises `IndexError`, and otherwise the first result is the page. |
| ConfluenceApi.ValidateMetadata | confluence/confluence_api.py:383-417 | The id, title, `space.key` and `version.number` read are the response's own. Something is reported missing exactly when one of them is absent. Validation raises only when the data, `space` or `version` is not an object. |
| ConfluenceApi.MetadataLastMissing | confluence/confluence_api.py:383-417 | When several metadata fields are missing, the one reported is the last checked. |
| ConfluenceApi.ValidateLinks | confluence/confluence_api.py:347-362 | The link read is `_links.tinyui`, present exactly when nothing is reported missing. Otherwise `_links` is reported when it is absent, and `_links.tinyui` when only the link is. |
| ConfluenceApi.ValidateBody | confluence/confluence_api.py:364-381 | The content read is `body.storage.value`, present exactly when nothing is reported missing. Otherwise the outermost absent level of `body`, `body.storage` and `body.storage.value` is reported. |
| ConfluenceApi.ParsePage | confluence/confluence_api.py:419-456 | A page is built only when every section validates. Its id, title, space key, version, link and content are the response's values, and its base URL is the outer `_links.base`. |
| ConfluenceApi.NextPageVersion | groovydoc-parser.py:224 | `str(int(str(number)) + 1)` succeeds exactly when `str()` of the stored number is a decimal integer, and then reads back as that integer plus one. Every failure is a `ValueError`. |
| ConfluenceApi.NextPageVersionOfNumber | groovydoc-parser.py:224 | A version whose `str()` is the decimal text of `n`, such as the number `n` or that text, gives `str(n + 1)`. |
| ConfluenceApi.NextPageVersionRefused | confluence/confluence_api.py:409-412 | A boolean or null version is stored as `True`, `False` or `None`, which `int()` refuses with `ValueError`. |
| ConfluenceApi.ParsePageAccepts | confluence/confluence_api.py:347-456 | A response that is a page itself is read exactly when id, title, `space.key`, `version.number`, `_links.tinyui` and `body.storage.value` are all present, whatever other keys it carries. The page then holds those values, and `_links.base` as its base URL when present. |
| ConfluenceApi.ParsePageComplete | confluence/confluence_api.py:419-456 | A response holding exactly these six entries, and no others, yields the page with all its values and no base URL. |
| ConfluenceApi.ParsePageMetadataFirst | confluence/confluence_api.py:443-447 | Missing metadata is reported before links and body are looked at. |
| ConfluenceApi.ParsePageLinksBeforeBody | confluence/confluence_api.py:448-452 | With complete metadata, a missing link is reported before the body is looked at. |
| ConfluenceApi.ParsePageWrapped | confluence/confluence_api.py:434-456 | A response wrapping pages in `results` is read exactly when the first page holds the six entries and the outer `_links`, if present, is an object; other keys are allowed on both. The page holds the first page's values, with the outer object's `_links.base` as its base URL when present. |
| ConfluenceApi.ParsePageInResults | confluence/confluence_api.py:324-345 | A response whose only key is `results` reads as its first page, whenever that page reads on its own, but without a base URL. |
| ConfluenceApi.ParsePageNoResults | confluence/confluence_api.py:324-345 | An empty `results` list raises `IndexError`. |
| ConfluenceApi.ParseContentError | confluence/confluence_api.py:567-589 | An error response is read exactly when it has both `message` and `statusCode`. `message` is checked first and the last missing key wins, so when `statusCode` is missing, it is the one reported. |
| ConfluenceApi.PageFromResponse | confluence/confluence_api.py:167-195 | An error status raises its exception before the body is parsed. Any other status builds the page from the body. |
| ConfluenceApi.NotFoundResponse | confluence/confluence_api.py:188-193 | A 404 answer to a content request raises `HttpNotFoundError`. |
| ConfluenceApi.CreateBodySpec | confluence/confluence_api.py:69-86 | The create body has the title and the storage content. It has an `ancestors` entry exactly when a parent id is given. |
| ConfluenceApi.UpdateBodySpec | confluence/confluence_api.py:121-141 | The update body carries the version number and the content. It has a message exactly when one is given, and ancestors exactly when a parent is given. |
| ConfluenceApi.ExpandParamSpec | confluence/confluence_api.py:183-186 | The `expand` parameter is sent exactly when none was passed, and then it asks for history, space, version and body.storage. |
| ConfluenceApi.CallRequests | confluence/confluence_api.py:49-166 | Creating is a POST to `content` carrying the new-page body. Updating is a PUT, and deleting a DELETE with the status as query, both to `content/<id>`. |
| ConfluenceApi.TitleLookupRequest | confluence/confluence_api.py:267-296 | A title lookup is a GET to `content` whose query holds the title and the space key. It adds the default `expand` exactly when none is given. |
| ConfluenceApi.GetContentUrl | confluence/confluence_api.py:167-191 | Content is fetched from `<host>/rest/api/content/<id>`. |
| PageManager.ReplaceVariablesIsEach | app/page_manager.py:141-152 | Filling the template variables is replacing each variable in turn; the occurrence test in the source changes nothing. |
| PageManager.ReplaceVariablesNoKey | app/page_manager.py:141-152 | A template containing none of the variables is left unchanged. |
| PageManager.CredentialsGivenWin | app/page_manager.py:43-46 | User and password given as arguments are used as they are, without consulting the configuration. |
| PageManager.CredentialsFromConfig | app/page_manager.py:98-128 | When either argument is missing, both credentials come from the configuration. The user is resolved first, so its error wins. |
| PageManager.CredentialPlain | app/page_manager.py:101-111 | A configured value that does not mention `env.` is used verbatim. |
| PageManager.CredentialFromEnv | app/page_manager.py:101-109 | `env.NAME` reads environment variable `NAME`. If that variable is missing, `AssertionError` is raised. |
| PageManager.CredentialUpperCaseEnv | app/page_manager.py:101-109 | `ENV.NAME` is recognised as a reference, case-insensitively, but the prefix is not removed. The variable looked up is `ENV.NAME` itself. |
| PageManager.GeneratePlanSpec | app/page_manager.py:316-347 | A page is created unless it exists and overwriting is asked for. Then, given a text base URL, it is updated with the current version plus one, whether the version came as a number or as text. |
| PageManager.GeneratePlanErrors | app/page_manager.py:316-347 | Only the update path can fail. Building the page link fails first, with `TypeError`, when the base URL is not text. Otherwise a version that `int()` refuses fails with `ValueError`. |
| PageManager.GeneratePlanWithoutBase | app/page_manager.py:326-327 | A page read from a response without `_links` cannot be updated: its link raises `TypeError`. |
| PageManagerFacts.IsUrlIff | app/page_manager.py:211-224 | A text is a URL exactly when it starts with `http://` or `https://`. |
| PageManagerFacts.UrlSearchIff | app/page_manager.py:155-174 | The URL pattern is found somewhere exactly when `http://` or `https://` occurs in the text. |
| PageManagerFacts.UrlDataErrors | app/page_manager.py:155-174 | Without a scheme anywhere, the helper's own exception is raised. A scheme that is not at the start gives `AttributeError`. A URL always succeeds. |
| PageManagerFacts.UrlDataOf | app/page_manager.py:155-174 | For scheme, host, optional port and data, the part after the host and port is the data. |
| PageManagerFacts.IsIdInUrlIff | app/page_manager.py:227-239 | A URL has a page id exactly when `pageId=` followed by digits ends it. |
| PageManagerFacts.IdEndingUnique | app/page_manager.py:227-239 | At most one `pageId=` can end a URL that way. |
| PageManagerFacts.IdOf | app/page_manager.py:242-260 | The id read from `...pageId=<digits>` is those digits. |
| PageManagerFacts.IdMissing | app/page_manager.py:242-260 | A URL without a trailing page id gives `AttributeError`. |
| PageManagerFacts.GetIdFromUrlErrors | app/page_manager.py:242-260 | The "pageId not found" exception is raised exactly when the text holds no scheme, and an id is only read from a URL. |
| PageManagerFacts.DisplayGroupsOf | app/page_manager.py:155-208 | `/display/<key>/<title>` splits into the space key and the title. |
| PageManagerFacts.SpaceAndTitleOf | app/page_manager.py:155-208 | For a display URL, the space is the key. The title is the raw title, or the title with `+` turned into spaces when formatting is asked for. |
| PageManagerFacts.SpaceExample | app/page_manager.py:160-161 | The space of the docstring's example URL is `IIC`. |
| PageManagerFacts.TitleExample | app/page_manager.py:185-190 | The docstring's example title reads `My Page 1` formatted and `My+Page+1` raw. |
| PageManagerFacts.IdExample | app/page_manager.py:246-248 | The docstring's example URL has page id `102948555`. |

## Left out

- File access. The Groovy file is read, and its path checked, by
  `GroovyFile` (utils/parser.py:33-44); the model takes the text as a
  value. A missing file yields `open(None)` in the source, which is not
  modelled.
- HTTP traffic. `requests` calls, authentication headers and
  `response.json()` are left out; responses are given as a status code and
  a JSON value.
- Logging. Handlers, the log directory, `setLevel` and every message are
  left out. `LogLevel` models only which names are accepted and the numbers
  they map to.
- Argument parsing and the hard-coded server, credentials and page ids in
  `main` (groovydoc-parser.py): they are parameters of `BuildPage`.
- `page_exists`, `content_exists`, `delete_page` and the other
  `PageManager` methods that only call the server. `generate_page` is
  modelled by its decision, `GeneratePlan`.
- `authenticate`, `config_utils` and `file_utils` are not part of this
  model. The configuration values reach the model as parameters.
- confluence/exceptions.py: the exception classes are constructors of
  `PyError`. The scripts/ directory is not part of the core.
- Unicode and white space. `Text.IsSpace` holds the six characters that
  `int()` skips: space, tab, newline, carriage return, form feed and
  vertical tab. `\w` and `str.lower` are modelled on ASCII; Python 3 also
  accepts other Unicode letters and digits there.
- Text.Strip: Python's `str.strip()` also removes U+001C to U+001F and the
  Unicode spaces, which the model keeps. The same holds for `\s` in the
  docstring, `@param` and `@return` patterns, so those differ from Python
  on text holding such characters.
- `int()`. Underscores between digits and non-ASCII digits are not
  modelled. `Json` has no floating-point numbers. In the source, a float
  version such as `5.0` is stored as the text `5.0`, which `int()` refuses
  with `ValueError`.
- ConfluenceApi.ParsePage: the page keeps the JSON values of the response.
  The source stores `str()` of each value except the base URL
  (confluence/confluence_api.py:357, 374 and 391-412). That conversion is
  modelled by `ConfluenceApi.PyStr` where a value is read back as text,
  in `NextPageVersion`. `PyStr` gives no text for a list or an object,
  whose Python form depends on key order; `NextPageVersion` refuses them
  with `ValueError`, since that form starts with a bracket.
- Line endings. The Groovy file is opened in text mode with universal
  newlines (utils/parser.py:42), which turns `\r\n` and a lone `\r` into
  `\n`, so the program never sees a `\r`. The model takes that converted
  text as its input and does not model the conversion; a `\r` given to the
  model directly counts as ordinary white space.
- GroovyDoc.ParameterHtml and GroovyDoc.DescriptionHtml have no row of
  their own. They are plain formatting, and their content is stated through
  `GroovyPage.ParameterListAppend` and `GroovyDocFacts.DescriptionHtmlLines`.
- GroovyDoc.ParseFunction: its contract only says the raw text is kept.
  The record's fields are stated field by field by the `GroovyDocFacts`
  lemmas.
- GroovyPage.FunctionSection: the contract states when the cut fails and
  that the section stays on one line. The exact section is stated by
  `FunctionSectionOf` for the marker layouts it names, and by
  `FunctionSectionIsFindAll` in general.
- `page_exists` and `content_exists` in confluence/confluence_api.py
  depend on the network. They catch `ConfluenceNotFoundError`, while the
  base client raises `HttpNotFoundError`, so a missing page would escape
  them as an exception; that interplay is not modelled.
- `Page.__str__`, the `Page` property getters and `get_page_url` only
  format or return stored fields, and are left out.

=== FILE: base_api.dfy ===
/**
 * The HTTP client base: how the API base URL is put together from the host
 * URL and the REST path, the URL of every request, and which response status
 * codes raise which exception. The requests themselves are not modelled; a
 * request is described by its method, URL, query parameters and JSON body.
 */
module BaseApi {
  import opened PyTypes
  import opened Text

  /** The normalised URLs a client keeps. */
  datatype Client = Client(hostUrl: string, apiBaseUrl: string)

  datatype Method = HttpGet | HttpPost | HttpPut | HttpDelete

  /** A request as it is handed to the HTTP library. */
  datatype Request<B> = Request(verb: Method, url: string, params: seq<(string, string)>, body: Option<B>)

  /** The host URL without its trailing slash; only one slash is removed. */
  function NormalizeHost(host: string): (r: string)
    ensures r + (if EndsWith(host, "/") then "/" else "") == host
  {
    if EndsWith(host, "/") then host[..|host| - 1] else host
  }

  /** The REST path with a leading slash added when it has none. */
  function NormalizeRest(rest: string): (r: string)
    ensures StartsWith(r, "/")
    ensures r == rest <==> StartsWith(rest, "/")
    ensures r == rest || r == "/" + rest
  {
    if StartsWith(rest, "/") then rest else "/" + rest
  }

  /** A client for `host` whose REST API lives under `rest`. */
  function NewClient(host: string, rest: string): (c: Client)
    ensures StartsWith(c.apiBaseUrl, c.hostUrl)
    ensures c.apiBaseUrl[|c.hostUrl|..] == NormalizeRest(rest)
  {
    var h := NormalizeHost(host);
    Client(h, h + NormalizeRest(rest))
  }

  /** The request for `path` below the API base, whatever the method. */
  function BuildRequest<B>(c: Client, m: Method, path: string, params: seq<(string, string)>, body: Option<B>): (r: Request<B>)
    ensures r.verb == m && r.params == params && r.body == body
    ensures StartsWith(r.url, c.apiBaseUrl + "/") && r.url[|c.apiBaseUrl| + 1..] == path
  {
    Request(m, c.apiBaseUrl + "/" + path, params, body)
  }

  /** The exception a response status raises, if any. */
  function StatusError(status: int): Option<PyError>
  {
    if status == 404 then Some(HttpNotFoundError)
    else if status == 400 || status == 401 || status == 402 || status == 403 || status == 405
         || status == 406 || status == 407 || status == 408 || status == 500 then
      Some(GenericException("API Error"))
    else None
  }

  // ---------------------------------------------------------------------------
  // Properties
  // ---------------------------------------------------------------------------

  /** Only 404 raises the not-found error; 400 to 408 and 500 otherwise raise
      a generic exception, and every other status raises nothing. */
  lemma StatusErrorClasses(status: int)
    ensures StatusError(status) == Some(HttpNotFoundError) <==> status == 404
    ensures StatusError(status).None? <==> !(400 <= status <= 408 || status == 500)
    ensures StatusError(status).Some? && status != 404 ==> StatusError(status).value.GenericException?
  {
  }

  /** The request URL depends only on the path, never on the method. */
  lemma RequestUrlSameForAllMethods<B>(c: Client, m1: Method, m2: Method, path: string,
                                       p1: seq<(string, string)>, p2: seq<(string, string)>, b1: Option<B>, b2: Option<B>)
    ensures BuildRequest(c, m1, path, p1, b1).url == BuildRequest(c, m2, path, p2, b2).url
  {
  }

  /** A host given with one trailing slash and one without give the same
      client; a second trailing slash survives. */
  lemma HostSlashOnce(host: string, rest: string)
    requires !EndsWith(host, "/")
    ensures NewClient(host + "/", rest) == NewClient(host, rest)
    ensures NormalizeHost(host + "//") == host + "/"
  {
    assert (host + "/")[..|host|] == host;
    assert (host + "//")[..|host| + 1] == host + "/";
  }

  /** The REST path is prefixed at most once: normalising is idempotent. */
  lemma NormalizeRestIdempotent(rest: string)
    ensures NormalizeRest(NormalizeRest(rest)) == NormalizeRest(rest)
  {
  }

  /** The full URL of a request: host without trailing slash, the REST path
      with exactly one leading slash added when missing, a slash, the path. */
  lemma RequestUrlShape<B>(host: string, rest: string, m: Method, path: string,
                           params: seq<(string, string)>, body: Option<B>)
    requires !EndsWith(host, "/") && !StartsWith(rest, "/")
    ensures BuildRequest(NewClient(host + "/", rest), m, path, params, body).url == host + "/" + rest + "/" + path
  {
    HostSlashOnce(host, rest);
  }
}

=== FILE: confluence_api.dfy ===
/**
 * The Confluence REST client: the JSON bodies and query parameters of its
 * requests, and the validation that turns a JSON response into a page
 * record (or an error record), reporting the first section with a missing
 * value. Responses are parameters: a status code and the decoded JSON.
 */
module ConfluenceApi {
  import opened PyTypes
  import opened Text
  import opened BaseApi

  /** A decoded JSON value. */
  datatype Json =
    | JNull
    | JBool(b: bool)
    | JNum(n: int)
    | JStr(s: string)
    | JArr(items: seq<Json>)
    | JObj(fields: map<string, Json>)

  /** `k in d.keys()` and then `d[k]`: the value under `k`, if any. A value
      that is not an object has no `keys()`. */
  function Lookup(j: Json, k: string): Result<Option<Json>>
  {
    if j.JObj? then Ok(Field(j.fields, k)) else Err(AttributeError)
  }

  /** `d.get(k)` */
  function Field(fields: map<string, Json>, k: string): Option<Json>
  {
    if k in fields then Some(fields[k]) else None
  }

  /** Python truthiness of a JSON value. */
  predicate Truthy(j: Json)
  {
    match j
    case JNull => false
    case JBool(b) => b
    case JNum(n) => n != 0
    case JStr(s) => s != []
    case JArr(xs) => xs != []
    case JObj(fs) => fs != map[]
  }

  /** `j[0]` on a truthy value: the first element of a list or the first
      character of a string; an object has no key `0`, and numbers and
      booleans cannot be indexed. */
  function First(j: Json): Result<Json>
    requires Truthy(j)
  {
    match j
    case JArr(xs) => Ok(xs[0])
    case JStr(s) => Ok(JStr([s[0]]))
    case JObj(_) => Err(KeyError)
    case _ => Err(TypeError)
  }

  /** A text given as an optional argument counts only when it is not
      `None` and not empty. */
  predicate Given(x: Option<string>)
  {
    x.Some? && x.value != []
  }

  // ---------------------------------------------------------------------------
  // Page responses
  // ---------------------------------------------------------------------------

  /** The page data of a response: the first of its `results` when it has
      that key, otherwise the response itself. */
  function ResultsOf(top: Json): (r: Result<Json>)
    ensures top.JObj? && Field(top.fields, "results").None? ==> r == Ok(top)
    ensures top.JObj? && Field(top.fields, "results") == Some(JArr([])) ==> r.Err? && r.error.IndexError?
    ensures forall xs :: top.JObj? && Field(top.fields, "results") == Some(JArr(xs)) && xs != [] ==> r == Ok(xs[0])
  {
    var results :- Lookup(top, "results");
    match results
    case None => Ok(top)
    case Some(v) =>
      if Truthy(v) then First(v)
      else Err(IndexError("Page object cannot be instanced because API response 'results' is empty."))
  }

  /** What the metadata section found: id, title, space key and version number. */
  datatype Metadata = Metadata(id: Option<Json>, title: Option<Json>, spaceKey: Option<Json>, version: Option<Json>)

  /** The value under `k` of an optional object; `None` when the object is absent. */
  function LookupIn(j: Option<Json>, k: string): Result<Option<Json>>
  {
    if j.Some? then Lookup(j.value, k) else Ok(None)
  }

  /** The metadata of the page data together with the LAST missing entry, in
      the order id, title, space, space.key, version, version.number. */
  function ValidateMetadata(d: Json): (r: Result<(Metadata, Option<string>)>)
    ensures r.Ok? ==> d.JObj?
    ensures r.Ok? ==> var m := r.value.0;
      m.id == Field(d.fields, "id") && m.title == Field(d.fields, "title") &&
      (m.spaceKey.Some? ==> Field(d.fields, "space").Some?) && (m.version.Some? ==> Field(d.fields, "version").Some?)
    ensures r.Ok? ==> var m := r.value.0; var space := Field(d.fields, "space"); var version := Field(d.fields, "version");
      (space.None? ==> m.spaceKey.None?) && (space.Some? ==> Lookup(space.value, "key") == Ok(m.spaceKey)) &&
      (version.None? ==> m.version.None?) && (version.Some? ==> Lookup(version.value, "number") == Ok(m.version))
    ensures r.Ok? ==> (r.value.1.None? <==>
      r.value.0.id.Some? && r.value.0.title.Some? && r.value.0.spaceKey.Some? && r.value.0.version.Some?)
    ensures r.Err? <==> (!d.JObj? ||
      (Field(d.fields, "space").Some? && !Field(d.fields, "space").value.JObj?) ||
      (Field(d.fields, "version").Some? && !Field(d.fields, "version").value.JObj?))
  {
    if !d.JObj? then Err(AttributeError)
    else
    var id := Field(d.fields, "id");
    var title := Field(d.fields, "title");
    var space := Field(d.fields, "space");
    var key :- LookupIn(space, "key");
    var version := Field(d.fields, "version");
    var number :- LookupIn(version, "number");
    var m1: Option<string> := if id.None? then Some("id") else None;
    var m2 := if title.None? then Some("title") else m1;
    var m3 := if space.None? then Some("space") else if key.None? then Some("space.key") else m2;
    var m4 := if version.None? then Some("version") else if number.None? then Some("version.number") else m3;
    Ok((Metadata(id, title, key, number), m4))
  }

  /** The names of the missing metadata entries, in checking order. */
  function MissingMetadata(m: Metadata, spacePresent: bool, versionPresent: bool): seq<string>
  {
    (if m.id.None? then ["id"] else []) +
    (if m.title.None? then ["title"] else []) +
    (if !spacePresent then ["space"] else if m.spaceKey.None? then ["space.key"] else []) +
    (if !versionPresent then ["version"] else if m.version.None? then ["version.number"] else [])
  }

  /** The permanent link (`_links.tinyui`), or the missing entry. */
  function ValidateLinks(d: Json): (r: Result<(Option<Json>, Option<string>)>)
    ensures r.Ok? ==> (r.value.0.Some? <==> r.value.1.None?)
    ensures r.Ok? ==> d.JObj? && var links := Field(d.fields, "_links");
      (links.Some? ==> Lookup(links.value, "tinyui") == Ok(r.value.0)) &&
      (r.value.1.Some? ==> r.value.1.value == if links.None? then "_links" else "_links.tinyui")
  {
    var links :- Lookup(d, "_links");
    match links
    case None => Ok((None, Some("_links")))
    case Some(l) =>
      var tiny :- Lookup(l, "tinyui");
      if tiny.Some? then Ok((tiny, None)) else Ok((None, Some("_links.tinyui")))
  }

  /** The HTML content (`body.storage.value`), or the outermost missing level. */
  function ValidateBody(d: Json): (r: Result<(Option<Json>, Option<string>)>)
    ensures r.Ok? ==> (r.value.0.Some? <==> r.value.1.None?)
    ensures r.Ok? && r.value.0.Some? ==> (d.JObj? && Field(d.fields, "body").Some? &&
      var b := Field(d.fields, "body").value;
      b.JObj? && Field(b.fields, "storage").Some? &&
      Lookup(Field(b.fields, "storage").value, "value") == Ok(r.value.0))
    ensures r.Ok? && r.value.1.Some? ==> d.JObj? && var b := Field(d.fields, "body");
      r.value.1.value ==
        if b.None? then "body"
        else if Lookup(b.value, "storage") == Ok(None) then "body.storage"
        else "body.storage.value"
  {
    var body :- Lookup(d, "body");
    match body
    case None => Ok((None, Some("body")))
    case Some(b) =>
      var storage :- Lookup(b, "storage");
      match storage
      case None => Ok((None, Some("body.storage")))
      case Some(st) =>
        var value :- Lookup(st, "value");
        if value.Some? then Ok((value, None)) else Ok((None, Some("body.storage.value")))
  }

  /** A page record; every entry is present once the record exists. */
  datatype Page = Page(
    id: Json,
    title: Json,
    spaceKey: Json,
    version: Json,
    permanentLink: Json,
    content: Json,
    baseUrl: Option<Json>)

  /** `str(v)` of a JSON scalar: a number in decimal, a string as it is,
      `True`/`False` and `None`. A list or an object has no text here: its
      Python form starts with `[` or `{` and otherwise depends on the order
      of keys, which a JSON object does not keep. */
  function PyStr(v: Json): Option<string>
  {
    match v
    case JNull => Some("None")
    case JBool(b) => Some(if b then "True" else "False")
    case JNum(n) => Some(IntToString(n))
    case JStr(s) => Some(s)
    case _ => None
  }

  /** `str(int(page.version) + 1)`: the version a page gets when it is
      updated. The page keeps `str()` of `version.number`, and `int()` reads
      that text back, so only a number or a decimal text succeeds; the text
      of a list or an object starts with a bracket and is refused too. */
  function NextPageVersion(version: Json): (r: Result<string>)
    ensures r.Ok? <==> PyStr(version).Some? && ParseInt(PyStr(version).value).Some?
    ensures r.Ok? ==> ParseInt(r.value) == Some(ParseInt(PyStr(version).value).value + 1)
    ensures r.Err? ==> r.error.ValueError?
  {
    var t := PyStr(version);
    if t.None? || ParseInt(t.value).None? then Err(ValueError("invalid literal for int() with base 10"))
    else NextVersion(t.value)
  }

  /** `_links.base` of the whole response, read before the results are unwrapped. */
  function BaseUrlOf(top: Json): Result<Option<Json>>
  {
    var links :- Lookup(top, "_links");
    LookupIn(links, "base")
  }

  function PageMissing(what: string): PyError
  {
    GenericException("Page object cannot be instanced because there is a missing value in json data: \"" + what + "\"")
  }

  /** `Page(json)`: the metadata is checked first, the links only when it is
      complete, the body only when the links are; the first section with a
      missing entry decides the error. */
  function ParsePage(top: Json): (r: Result<Page>)
    ensures r.Ok? ==> BaseUrlOf(top) == Ok(r.value.baseUrl) && ResultsOf(top).Ok?
    ensures r.Ok? ==> var d := ResultsOf(top).value;
      d.JObj? && Field(d.fields, "id") == Some(r.value.id) && Field(d.fields, "title") == Some(r.value.title) &&
      ValidateLinks(d) == Ok((Some(r.value.permanentLink), None)) &&
      ValidateBody(d) == Ok((Some(r.value.content), None))
    ensures r.Ok? ==> var d := ResultsOf(top).value;
      Field(d.fields, "space").Some? && Lookup(Field(d.fields, "space").value, "key") == Ok(Some(r.value.spaceKey)) &&
      Field(d.fields, "version").Some? && Lookup(Field(d.fields, "version").value, "number") == Ok(Some(r.value.version))
  {
    var base :- BaseUrlOf(top);
    var d :- ResultsOf(top);
    var meta :- ValidateMetadata(d);
    var links :- if meta.1.None? then ValidateLinks(d) else Ok((None, meta.1));
    var body :- if links.1.None? then ValidateBody(d) else Ok((None, links.1));
    if body.1.Some? then Err(PageMissing(body.1.value))
    else
      var m := meta.0;
      Ok(Page(m.id.value, m.title.value, m.spaceKey.value, m.version.value, links.0.value, body.0.value, base))
  }

  /** An error response: its message and status code. */
  datatype ContentError = ContentError(message: Json, statusCode: Json)

  /** The start of the message raised for a missing entry. */
  const ErrorMissingPrefix := "ContentError object cannot be instance because there is a missing value in json data: \""

  function ErrorMissing(what: string): PyError
  {
    GenericException(ErrorMissingPrefix + what + "\"")
  }

  /** `ContentError(json)`: both entries are required; the last missing one is reported. */
  function ParseContentError(top: Json): (r: Result<ContentError>)
    ensures r.Ok? <==> top.JObj? && Field(top.fields, "message").Some? && Field(top.fields, "statusCode").Some?
    ensures r.Ok? ==> Field(top.fields, "message") == Some(r.value.message) &&
                      Field(top.fields, "statusCode") == Some(r.value.statusCode)
    ensures top.JObj? && r.Err? ==>
      r.error == ErrorMissing(if Field(top.fields, "statusCode").None? then "statusCode" else "message")
  {
    if !top.JObj? then Err(AttributeError)
    else
      match (Field(top.fields, "message"), Field(top.fields, "statusCode"))
      case (_, None) => Err(ErrorMissing("statusCode"))
      case (None, Some(_)) => Err(ErrorMissing("message"))
      case (Some(message), Some(status)) => Ok(ContentError(message, status))
  }

  // ---------------------------------------------------------------------------
  // Requests
  // ---------------------------------------------------------------------------

  /** The client every Confluence call goes through: REST API under `/rest/api`. */
  function ConfluenceClient(url: string): Client
  {
    NewClient(url, "/rest/api")
  }

  /** `{'storage': {'value': content, 'representation': 'storage'}}` */
  function StorageBody(content: string): Json
  {
    JObj(map["storage" := JObj(map["value" := JStr(content), "representation" := JStr("storage")])])
  }

  /** The JSON of a new page; `ancestors` names the parent when one is given. */
  function CreateBody(title: string, spaceKey: string, content: string, parentId: Option<string>, contentType: string): Json
  {
    var base := map["type" := JStr(contentType), "title" := JStr(title),
                     "space" := JObj(map["key" := JStr(spaceKey)]), "body" := StorageBody(content)];
    if Given(parentId) then
      JObj(base["ancestors" := JArr([JObj(map["type" := JStr(contentType), "id" := JStr(parentId.value)])])])
    else JObj(base)
  }

  /** The JSON of a page update; the version carries the edit message and
      `ancestors` the new parent when they are given. */
  function UpdateBody(title: string, content: string, version: string, parent: Option<string>, message: Option<string>): Json
  {
    var number := map["number" := JStr(version)];
    var versionObj := JObj(if Given(message) then number["message" := JStr(message.value)] else number);
    var base := map["type" := JStr("page"), "title" := JStr(title), "body" := StorageBody(content), "version" := versionObj];
    if Given(parent) then JObj(base["ancestors" := JArr([JObj(map["id" := JStr(parent.value)])])])
    else JObj(base)
  }

  /** The properties a page is fetched with when the caller names none. */
  const DefaultExpand: seq<string> := ["history", "space", "version", "body.storage"]

  /** The `expand` parameter: sent only when the caller passes `None`. */
  function ExpandParam(expand: Option<seq<string>>): seq<(string, string)>
  {
    if expand.None? then [("expand", Join(DefaultExpand, ","))] else []
  }

  function CreatePageRequest(c: Client, title: string, spaceKey: string, content: string,
                             parentId: Option<string>, contentType: string): Request<Json>
  {
    BuildRequest(c, HttpPost, "content", [], Some(CreateBody(title, spaceKey, content, parentId, contentType)))
  }

  function UpdatePageRequest(c: Client, pageId: string, content: string, title: string, version: string,
                             parent: Option<string>, message: Option<string>): Request<Json>
  {
    BuildRequest(c, HttpPut, "content/" + pageId, [], Some(UpdateBody(title, content, version, parent, message)))
  }

  function DeleteContentRequest(c: Client, contentId: string, status: string): Request<Json>
  {
    BuildRequest(c, HttpDelete, "content/" + contentId, [("status", status)], None)
  }

  function GetContentRequest(c: Client, contentId: string, status: string, expand: Option<seq<string>>): Request<Json>
  {
    BuildRequest(c, HttpGet, "content/" + contentId, [("status", status)] + ExpandParam(expand), None)
  }

  function PageFromTitleRequest(c: Client, title: string, spaceKey: string, expand: Option<seq<string>>): Request<Json>
  {
    BuildRequest(c, HttpGet, "content", [("title", title), ("spaceKey", spaceKey)] + ExpandParam(expand), None)
  }

  /** The page a call returns, given the response status and decoded body. */
  function PageFromResponse(status: int, body: Json): (r: Result<Page>)
    ensures StatusError(status).Some? ==> r == Err(StatusError(status).value)
    ensures StatusError(status).None? ==> r == ParsePage(body)
  {
    match StatusError(status)
    case Some(e) => Err(e)
    case None => ParsePage(body)
  }

  // ---------------------------------------------------------------------------
  // Properties of the response validation
  // ---------------------------------------------------------------------------

  /** The metadata check reports the last of the missing entries, in the
      order they are checked. */
  lemma MetadataLastMissing(d: Json)
    requires ValidateMetadata(d).Ok?
    ensures var (m, missing) := ValidateMetadata(d).value;
      var names := MissingMetadata(m, Field(d.fields, "space").Some?, Field(d.fields, "version").Some?);
      missing == if names == [] then None else Some(names[|names| - 1])
  {
  }

  /** The JSON of a complete page, as the server returns it. */
  function PageJson(id: Json, title: Json, key: Json, version: Json, tinyui: Json, content: Json): Json
  {
    JObj(map["id" := id, "title" := title, "space" := JObj(map["key" := key]),
             "version" := JObj(map["number" := version]), "_links" := JObj(map["tinyui" := tinyui]),
             "body" := JObj(map["storage" := JObj(map["value" := content])])])
  }

  /** A complete page response is read back into exactly its entries. */
  lemma ParsePageComplete(id: Json, title: Json, key: Json, version: Json, tinyui: Json, content: Json)
    ensures ParsePage(PageJson(id, title, key, version, tinyui, content)) ==
      Ok(Page(id, title, key, version, tinyui, content, None))
  {
    var top := PageJson(id, title, key, version, tinyui, content);
    assert ResultsOf(top) == Ok(top);
    assert BaseUrlOf(top) == Ok(None);
    assert ValidateMetadata(top) == Ok((Metadata(Some(id), Some(title), Some(key), Some(version)), None));
    assert ValidateLinks(top) == Ok((Some(tinyui), None));
    assert ValidateBody(top) == Ok((Some(content), None));
  }

  /** `j` is an object holding the key `k`. */
  predicate HasEntry(j: Json, k: string)
  {
    j.JObj? && k in j.fields
  }

  /** The page data holds every entry a page needs, each nested section
      being an object; any other keys may be present as well. */
  predicate PageEntries(d: Json)
  {
    HasEntry(d, "id") && HasEntry(d, "title") &&
    HasEntry(d, "space") && HasEntry(d.fields["space"], "key") &&
    HasEntry(d, "version") && HasEntry(d.fields["version"], "number") &&
    HasEntry(d, "_links") && HasEntry(d.fields["_links"], "tinyui") &&
    HasEntry(d, "body") && HasEntry(d.fields["body"], "storage") &&
    HasEntry(d.fields["body"].fields["storage"], "value")
  }

  /** `_links.base` of a response whose `_links`, when present, is an object. */
  function OuterBase(top: Json): Option<Json>
    requires top.JObj?
  {
    if HasEntry(top, "_links") && HasEntry(top.fields["_links"], "base")
    then Some(top.fields["_links"].fields["base"]) else None
  }

  /** The page holding the entries of `d`, with the base URL `base`. */
  function PageOf(d: Json, base: Option<Json>): Page
    requires PageEntries(d)
  {
    Page(d.fields["id"], d.fields["title"], d.fields["space"].fields["key"],
         d.fields["version"].fields["number"], d.fields["_links"].fields["tinyui"],
         d.fields["body"].fields["storage"].fields["value"], base)
  }

  /** A response that is a page itself (no `results`) is accepted exactly
      when every entry is there, whatever other keys it carries, and the
      page holds those entries, with `_links.base` as its base URL when
      present. */
  lemma ParsePageAccepts(d: Json)
    requires d.JObj? && "results" !in d.fields
    ensures ParsePage(d).Ok? <==> PageEntries(d)
    ensures PageEntries(d) ==> ParsePage(d) == Ok(PageOf(d, OuterBase(d)))
  {
    assert ResultsOf(d) == Ok(d);
  }

  /** A search response wrapping pages in `results` is accepted exactly when
      the first page holds every entry and the outer `_links`, if any, is an
      object, whatever other keys either carries. The page holds the first
      page's entries, with the base URL of the OUTER object. */
  lemma ParsePageWrapped(top: Json, p: Json, rest: seq<Json>)
    requires top.JObj? && "results" in top.fields && top.fields["results"] == JArr([p] + rest)
    ensures ParsePage(top).Ok? <==>
      PageEntries(p) && (HasEntry(top, "_links") ==> top.fields["_links"].JObj?)
    ensures PageEntries(p) && (HasEntry(top, "_links") ==> top.fields["_links"].JObj?) ==>
      ParsePage(top) == Ok(PageOf(p, OuterBase(top)))
  {
    assert ([p] + rest)[0] == p;
    assert ResultsOf(top) == Ok(p);
  }

  /** Missing metadata is reported as such, whatever the links and body hold:
      they are not even looked at. */
  lemma ParsePageMetadataFirst(top: Json, d: Json, m: Metadata, what: string)
    requires BaseUrlOf(top).Ok? && ResultsOf(top) == Ok(d)
    requires ValidateMetadata(d) == Ok((m, Some(what)))
    ensures ParsePage(top) == Err(PageMissing(what))
  {
  }

  /** With the metadata complete, missing links are reported before the body is looked at. */
  lemma ParsePageLinksBeforeBody(top: Json, d: Json, m: Metadata, what: string)
    requires BaseUrlOf(top).Ok? && ResultsOf(top) == Ok(d)
    requires ValidateMetadata(d) == Ok((m, None)) && ValidateLinks(d) == Ok((None, Some(what)))
    ensures ParsePage(top) == Err(PageMissing(what))
  {
  }

  /** A search response wrapping a page in `results` reads as the page itself,
      except that the base URL comes from the outer object (here: none). */
  lemma ParsePageInResults(p: Json, rest: seq<Json>, pg: Page)
    requires p.JObj? && Field(p.fields, "results").None? && ParsePage(p) == Ok(pg)
    ensures ParsePage(JObj(map["results" := JArr([p] + rest)])) == Ok(pg.(baseUrl := None))
  {
    var top := JObj(map["results" := JArr([p] + rest)]);
    assert ([p] + rest)[0] == p;
    assert ResultsOf(top) == Ok(p);
    assert BaseUrlOf(top) == Ok(None);
    assert ResultsOf(p) == Ok(p);
  }

  /** An empty `results` list raises `IndexError`, which is how a search
      that found nothing shows. */
  lemma ParsePageNoResults()
    ensures var r := ParsePage(JObj(map["results" := JArr([])])); r.Err? && r.error.IndexError?
  {
    var top := JObj(map["results" := JArr([])]);
    assert BaseUrlOf(top) == Ok(None);
  }

  // ---------------------------------------------------------------------------
  // Properties of the requests
  // ---------------------------------------------------------------------------

  /** A new page's JSON names a parent exactly when one is given, and carries
      the content exactly where a page response is read from. */
  lemma CreateBodySpec(title: string, spaceKey: string, content: string, parentId: Option<string>, contentType: string)
    ensures var body := CreateBody(title, spaceKey, content, parentId, contentType);
      (Field(body.fields, "ancestors").Some? <==> Given(parentId)) &&
      Field(body.fields, "title") == Some(JStr(title)) &&
      ValidateBody(body) == Ok((Some(JStr(content)), None))
  {
  }

  /** An update's JSON carries an edit message exactly when one is given, a
      parent exactly when one is given, the version number as given, and the
      content where a page response is read from. */
  lemma UpdateBodySpec(title: string, content: string, version: string, parent: Option<string>, message: Option<string>)
    ensures var body := UpdateBody(title, content, version, parent, message);
      var v := Field(body.fields, "version");
      v.Some? && v.value.JObj? && Field(v.value.fields, "number") == Some(JStr(version)) &&
      (Field(v.value.fields, "message").Some? <==> Given(message)) &&
      (Field(body.fields, "ancestors").Some? <==> Given(parent)) &&
      ValidateBody(body) == Ok((Some(JStr(content)), None))
  {
  }

  /** The `expand` parameter is sent exactly when the caller passes `None`,
      and then lists the default properties separated by commas. */
  lemma ExpandParamSpec(expand: Option<seq<string>>)
    ensures (exists v :: ("expand", v) in ExpandParam(expand)) <==> expand.None?
    ensures expand.None? ==> ExpandParam(expand) == [("expand", "history,space,version,body.storage")]
  {
    if expand.None? {
      DefaultExpandJoined();
      DefaultExpandText();
      assert ExpandParam(expand)[0] == ("expand", "history,space,version,body.storage");
    }
  }

  /** The default properties, joined with commas. */
  lemma DefaultExpandJoined()
    ensures Join(DefaultExpand, ",") == "history" + "," + ("space" + "," + ("version" + "," + "body.storage"))
  {
    var t1, t2, t3 := ["body.storage"], ["version", "body.storage"], ["space", "version", "body.storage"];
    assert t2 == ["version"] + t1 && t3 == ["space"] + t2 && DefaultExpand == ["history"] + t3;
    JoinStep("version", t1, ",");
    JoinStep("space", t2, ",");
    JoinStep("history", t3, ",");
  }

  /** The same text, written out. */
  lemma DefaultExpandText()
    ensures "history" + "," + ("space" + "," + ("version" + "," + "body.storage")) == "history,space,version,body.storage"
  {
  }

  /** Where a page is fetched from: the host without its trailing slash,
      `/rest/api/content/` and the id. */
  lemma GetContentUrl(host: string, contentId: string, status: string, expand: Option<seq<string>>)
    requires !EndsWith(host, "/")
    ensures GetContentRequest(ConfluenceClient(host + "/"), contentId, status, expand).url ==
      host + "/rest/api/content/" + contentId
  {
    HostSlashOnce(host, "/rest/api");
    assert NormalizeHost(host) == host;
    assert NormalizeRest("/rest/api") == "/rest/api" by {
      assert StartsWith("/rest/api", "/");
    }
    var c := ConfluenceClient(host + "/");
    assert c.apiBaseUrl == host + "/rest/api";
    assert "/rest/api" + "/" + "content/" == "/rest/api/content/";
    assert (host + "/rest/api") + "/" + ("content/" + contentId) == host + ("/rest/api" + "/" + "content/") + contentId;
  }

  /** The verb, address, query and body of each call: pages are created
      with a POST to `content`, updated with a PUT and deleted with a DELETE
      to `content/<id>`. */
  lemma CallRequests(c: Client, id: string, title: string, spaceKey: string, content: string,
                     parent: Option<string>, contentType: string, version: string,
                     message: Option<string>, status: string)
    ensures var r := CreatePageRequest(c, title, spaceKey, content, parent, contentType);
      r.verb == HttpPost && r.url == c.apiBaseUrl + "/content" && r.params == [] &&
      r.body == Some(CreateBody(title, spaceKey, content, parent, contentType))
    ensures var r := UpdatePageRequest(c, id, content, title, version, parent, message);
      r.verb == HttpPut && r.url == c.apiBaseUrl + "/content/" + id && r.params == [] &&
      r.body == Some(UpdateBody(title, content, version, parent, message))
    ensures var r := DeleteContentRequest(c, id, status);
      r.verb == HttpDelete && r.url == c.apiBaseUrl + "/content/" + id &&
      r.params == [("status", status)] && r.body.None?
  {
    var base := c.apiBaseUrl + "/";
    assert base + ("content/" + id) == c.apiBaseUrl + "/content/" + id;
  }

  /** A page is looked up by title with a GET to `content` whose query names
      the title and the space, plus the default `expand` when none is given. */
  lemma TitleLookupRequest(c: Client, title: string, spaceKey: string, expand: Option<seq<string>>)
    ensures var r := PageFromTitleRequest(c, title, spaceKey, expand);
      r.verb == HttpGet && r.url == c.apiBaseUrl + "/content" && r.body.None? &&
      r.params[..2] == [("title", title), ("spaceKey", spaceKey)] &&
      (|r.params| == 3 <==> expand.None?) &&
      (expand.None? ==> r.params[2] == ("expand", "history,space,version,body.storage"))
  {
    ExpandParamSpec(expand);
  }

  /** A 404 response is the not-found error whatever its body. */
  lemma NotFoundResponse(body: Json)
    ensures PageFromResponse(404, body) == Err(HttpNotFoundError)
  {
  }

  /** `int(str(n))` is `n`: a version whose text is the decimal text of
      `n`, such as the number `n` itself or that text, gives the text of
      its successor. */
  lemma NextPageVersionOfNumber(v: Json, n: int)
    requires PyStr(v) == Some(IntToString(n))
    ensures NextPageVersion(v) == Ok(IntToString(n + 1))
  {
    NextVersionOf(n);
  }

  /** `int("True")`, `int("False")` and `int("None")` raise `ValueError`:
      a boolean or null version is refused even though `int(True)` is 1. */
  lemma NextPageVersionRefused(b: bool)
    ensures NextPageVersion(JBool(b)).Err? && NextPageVersion(JBool(b)).error.ValueError?
    ensures NextPageVersion(JNull).Err? && NextPageVersion(JNull).error.ValueError?
  {
    ParseIntRefusesWord(if b then "True" else "False");
    ParseIntRefusesWord("None");
  }
}

=== FILE: groovy_page.dfy ===
/**
 * The page generator script: the logging level names it accepts, the
 * function section it cuts out of the template page, how it fills that
 * section once per documented Groovy function, and how the result is put
 * into the target page together with the next version number. Fetching and
 * updating the pages, reading the Groovy file and configuring the logger's
 * handlers are left to the caller.
 */
module GroovyPage {
  import opened PyTypes
  import opened Text
  import opened OrderedMaps
  import opened Patterns
  import opened GroovyDoc
  import opened ConfluenceApi

  // ---------------------------------------------------------------------------
  // Logging levels
  // ---------------------------------------------------------------------------

  /** The level names, from the least to the most severe. */
  const LevelNames: seq<string> := ["off", "debug", "info", "warning", "error", "critical"]

  /** The numeric level of a level name; any other name is refused. */
  function LogLevel(name: string): (r: Result<nat>)
  {
    if name == "off" then Ok(0)
    else if name == "debug" then Ok(10)
    else if name == "info" then Ok(20)
    else if name == "warning" then Ok(30)
    else if name == "error" then Ok(40)
    else if name == "critical" then Ok(50)
    else Err(ValueError("Logging level not valid: '" + name + "'"))
  }

  /** The name of a numeric level, when it has one. */
  function LevelName(n: nat): (r: Option<string>)
    ensures r.Some? ==> r.value in LevelNames
  {
    if n % 10 == 0 && n / 10 < |LevelNames| then Some(LevelNames[n / 10]) else None
  }

  // ---------------------------------------------------------------------------
  // The function section of the template
  // ---------------------------------------------------------------------------

  /** The marker text as the script writes it into its pattern: every `.` in
      it is the regular-expression dot, any character but a newline. */
  function Dotted(text: string): (r: seq<Item>)
    ensures |r| == |text|
    ensures forall i :: 0 <= i < |text| ==>
      r[i] == if text[i] == '.' then Run(NotNewline, 1, AtMost(1)) else Lit(text[i])
  {
    seq(|text|, i requires 0 <= i < |text| => if text[i] == '.' then Run(NotNewline, 1, AtMost(1)) else Lit(text[i]))
  }

  const OpenMarker := "${groovy.function_block.open}"
  const CloseMarker := "${groovy.function_block.close}"

  /** The open marker, the captured section `(.*)`, the close marker. */
  const SectionPattern: seq<Item> := Dotted(OpenMarker) + ([Star(NotNewline)] + Dotted(CloseMarker))

  /** The first section `findall` reports, which is the leftmost match
      (`FunctionSectionIsFindAll`); the script indexes the list, so a template
      without a section raises `IndexError`. */
  function FunctionSection(template: string): (r: Result<string>)
    ensures r.Err? <==> forall q :: 0 <= q <= |template| ==> MatchAt(template, q, SectionPattern).None?
    ensures r.Err? ==> r.error.IndexError?
    ensures r.Ok? ==> '\n' !in r.value
  {
    SearchNone(template, SectionPattern, 0);
    match Search(template, SectionPattern, 0)
    case None => Err(IndexError("list index out of range"))
    case Some(b) =>
      MatchAtFits(template, b[0], SectionPattern);
      SectionFitShape(template, b);
      Ok(template[b[29]..b[30]])
  }

  // ---------------------------------------------------------------------------
  // Filling the section for one function
  // ---------------------------------------------------------------------------

  const TitleKey := "${groovy.title}"
  const HeaderKey := "${groovy.header}"
  const DescriptionKey := "${groovy.description}"
  const ParametersKey := "${groovy.parameters}"
  const ReturnsKey := "${groovy.returns}"
  const CodeKey := "${groovy.function_code}"

  /** Each text as an item of an HTML list. */
  function ListItems(xs: seq<string>): string
  {
    if xs == [] then "" else "<li>\n" + xs[0] + "</li>\n" + ListItems(xs[1..])
  }

  /** The HTML of each parameter, in the order they were documented. */
  function ParameterHtmls(params: seq<(Option<string>, GroovyParameter)>): (hs: seq<string>)
    ensures |hs| == |params| && forall i :: 0 <= i < |params| ==> hs[i] == ParameterHtml(params[i].1)
  {
    seq(|params|, i requires 0 <= i < |params| => ParameterHtml(params[i].1))
  }

  /** The parameter section: an unordered list of the parameters. */
  function ParameterList(params: seq<(Option<string>, GroovyParameter)>): string
  {
    "<ul>\n" + ListItems(ParameterHtmls(params)) + "</ul>\n"
  }

  /** The section for one function: each placeholder replaced in turn, every
      replacement acting on the text the ones before it produced. A function
      without a name or without a definition line has `None` there, which
      `str.replace` refuses. */
  function FillFunction(section: string, f: GroovyFunction): (r: Result<string>)
    ensures r.Err? <==> f.name.None? || f.codeDefinition.None?
    ensures r.Err? ==> r.error.TypeError?
  {
    if f.name.None? then Err(TypeError)
    else
      var t1 := Replace(section, TitleKey, f.name.value);
      var t2 := Replace(t1, HeaderKey, f.header);
      var t3 := Replace(t2, DescriptionKey, DescriptionHtml(f.description));
      var t4 := Replace(t3, ParametersKey, ParameterList(f.parameters));
      var t5 := Replace(t4, ReturnsKey, f.returnText);
      if f.codeDefinition.None? then Err(TypeError)
      else Ok(Replace(t5, CodeKey, f.codeDefinition.value))
  }

  /** The sections of all functions, in order, glued together; the first
      function that cannot be filled stops the script. */
  function FillAll(section: string, fs: seq<GroovyFunction>): (r: Result<string>)
  {
    if fs == [] then Ok("")
    else
      var x :- FillFunction(section, fs[0]);
      var rest :- FillAll(section, fs[1..]);
      Ok(x + rest)
  }

  const TargetKey := "${groovy.target}"

  /** The new content of the target page from the template page's content,
      the Groovy file's text and the target page's current content. */
  function BuildPage(template: string, groovyText: string, target: string): (r: Result<string>)
  {
    var section :- FunctionSection(template);
    var body :- FillAll(section, Values(ParseFile(groovyText)));
    Ok(Replace(target, TargetKey, body))
  }

  // ---------------------------------------------------------------------------
  // Properties: logging levels
  // ---------------------------------------------------------------------------

  /** Exactly the six level names are accepted; any other name is refused
      with a message quoting it. */
  lemma LogLevelAccepts(name: string)
    ensures LogLevel(name).Ok? <==> name in LevelNames
    ensures name !in LevelNames ==> LogLevel(name) == Err(ValueError("Logging level not valid: '" + name + "'"))
  {
  }

  /** The levels grow with severity: off < debug < info < warning < error < critical. */
  lemma LogLevelOrdered(i: nat, j: nat)
    requires i < j < |LevelNames|
    ensures LogLevel(LevelNames[i]).Ok? && LogLevel(LevelNames[j]).Ok?
    ensures LogLevel(LevelNames[i]).value < LogLevel(LevelNames[j]).value
  {
  }

  /** A name and its level determine each other. */
  lemma LogLevelRoundTrip(name: string, n: nat)
    ensures LogLevel(name) == Ok(n) <==> LevelName(n) == Some(name)
  {
  }

  // ---------------------------------------------------------------------------
  // Properties: the function section
  // ---------------------------------------------------------------------------

  /** The dotted marker fits wherever its own text occurs, one character per item. */
  lemma {:induction false} DottedFits(s: string, text: string, p: nat)
    requires OccursAt(s, text, p)
    ensures Fits(s, Dotted(text), Range(p, |text| + 1))
    decreases |text|
  {
    if text != [] {
      assert Dotted(text)[1..] == Dotted(text[1..]);
      assert s[p + 1..p + 1 + |text[1..]|] == text[1..];
      DottedFits(s, text[1..], p + 1);
      assert Range(p, |text| + 1)[1..] == Range(p + 1, |text|);
    }
  }

  /** Every item of a dotted marker takes exactly one character. */
  lemma {:induction false} DottedWidth(s: string, text: string, b: seq<nat>)
    requires Fits(s, Dotted(text), b)
    ensures forall i :: 0 <= i < |b| ==> b[i] == b[0] + i
    decreases |text|
  {
    if text != [] {
      assert Dotted(text)[1..] == Dotted(text[1..]);
      DottedWidth(s, text[1..], b[1..]);
      forall i | 1 <= i < |b|
        ensures b[i] == b[0] + i
      {
        assert b[i] == b[1..][i - 1];
      }
    }
  }

  /** A fit of the section pattern: the open marker takes 29 characters,
      the section runs to a `$` without crossing a line break, and the close
      marker starts at that `$`. */
  lemma SectionFitShape(s: string, b: seq<nat>)
    requires Fits(s, SectionPattern, b)
    ensures forall i :: 0 <= i < 30 ==> b[i] == b[0] + i
    ensures b[29] <= b[30] < |s| && s[b[30]] == '$'
    ensures forall k :: b[29] <= k < b[30] ==> s[k] != '\n'
    ensures forall k :: 0 <= k < |s[b[29]..b[30]]| ==> s[b[29]..b[30]][k] != '\n'
  {
    var a, c := Dotted(OpenMarker), [Star(NotNewline)] + Dotted(CloseMarker);
    FitsAppend(s, a, c, b);
    DottedWidth(s, OpenMarker, b[..30]);
    assert Fits(s, c, b[29..]);
    assert Fits(s, Dotted(CloseMarker), b[29..][1..]);
    assert Dotted(CloseMarker)[0] == Lit('$');
    assert b[29..][1..][0] == b[30];
  }

  /** A `$` begins every fit of the section pattern. */
  lemma SectionStartsWithDollar(s: string, b: seq<nat>)
    requires Fits(s, SectionPattern, b)
    ensures b[0] < |s| && s[b[0]] == '$'
  {
    assert SectionPattern[0] == Lit('$');
  }

  /** The close marker has its only `$` in front. */
  lemma CloseDollarFirst(k: nat)
    requires 0 < k < |CloseMarker|
    ensures CloseMarker[k] != '$'
  {
    assert forall i :: 1 <= i < |CloseMarker| ==> CloseMarker[i] != '$';
  }

  /** The open marker has its only `$` in front. */
  lemma OpenDollarFirst(k: nat)
    requires 0 < k < |OpenMarker|
    ensures OpenMarker[k] != '$'
  {
    assert forall i :: 1 <= i < |OpenMarker| ==> OpenMarker[i] != '$';
  }

  /** The texts of the markers fit the section pattern with the section between them. */
  lemma SectionFits(s: string, q: nat, mid: string)
    requires OccursAt(s, OpenMarker, q) && OccursAt(s, mid, q + 29) && OccursAt(s, CloseMarker, q + 29 + |mid|)
    requires '\n' !in mid
    ensures Fits(s, SectionPattern, SectionCuts(q, q + 29 + |mid|))
  {
    var c := q + 29 + |mid|;
    DottedFits(s, CloseMarker, c);
    ClassSlice(s, q + 29, c, mid, NotNewline);
    FitsCons(s, Star(NotNewline), Dotted(CloseMarker), q + 29, Range(c, 31));
    DottedFits(s, OpenMarker, q);
    FitsJoin(s, Dotted(OpenMarker), [Star(NotNewline)] + Dotted(CloseMarker), Range(q, 30), [q + 29] + Range(c, 31));
    assert Range(q, 30)[..29] == Range(q, 29);
  }

  /** The cut points of a section match at `q` whose close marker is at `c`. */
  function SectionCuts(q: nat, c: nat): (b: seq<nat>)
    ensures |b| == 61 && b[0] == q && b[30] == c
    ensures forall i :: 0 <= i < 30 ==> b[i] == q + i
  {
    Range(q, 29) + ([q + 29] + Range(c, 31))
  }

  /** No `$` before the first line break of `post`. */
  predicate DollarFreeLine(post: string)
  {
    forall k :: 0 <= k < |post| && post[k] == '$' ==> '\n' in post[..k]
  }

  /** Where a section that starts at `lo` ends when the close marker is at
      `c` and no `$` follows on that line: at `c` at the latest, since the
      `$` that ends it lies on the same line. */
  lemma SectionEndBound(s: string, lo: nat, c: nat, p: nat)
    requires lo <= c && c + 30 <= |s| && OccursAt(s, CloseMarker, c)
    requires p < |s| && s[p] == '$' && forall k :: lo <= k < p ==> s[k] != '\n'
    requires DollarFreeLine(s[c + 30..])
    ensures p <= c
  {
    if p > c {
      if p < c + 30 {
        assert s[p] == CloseMarker[p - c];
        CloseDollarFirst(p - c);
        assert false;
      } else {
        assert false;
      }
    }
  }

  /** The match at an open marker whose close marker follows on the same
      line, with no further `$` after it on that line: the section is all
      that lies between the markers. */
  lemma SectionMatchAt(s: string, q: nat, mid: string)
    requires OccursAt(s, OpenMarker, q) && OccursAt(s, mid, q + 29) && OccursAt(s, CloseMarker, q + 29 + |mid|)
    requires '\n' !in mid && DollarFreeLine(s[q + 59 + |mid|..])
    ensures MatchAt(s, q, SectionPattern).Some?
    ensures MatchAt(s, q, SectionPattern).value[29] == q + 29
    ensures MatchAt(s, q, SectionPattern).value[30] == q + 29 + |mid|
  {
    var c := q + 29 + |mid|;
    var bs := SectionCuts(q, c);
    SectionFits(s, q, mid);
    MatchAtPreferred(s, q, SectionPattern, bs);
    MatchAtFits(s, q, SectionPattern);
    ClassSlice(s, q + 29, c, mid, NotNewline);
    SectionFitShape(s, MatchAt(s, q, SectionPattern).value);
    SectionPinned(s, q, c, MatchAt(s, q, SectionPattern).value);
  }

  /** Cuts of the section's shape at `q`, preferred to the cuts that end the
      section at `c`, end it exactly there when the `$` at `c` is the last
      one on its line. */
  lemma SectionPinned(s: string, q: nat, c: nat, r: seq<nat>)
    requires |r| == 61 && forall i :: 0 <= i < 30 ==> r[i] == q + i
    requires r[30] < |s| && s[r[30]] == '$' && forall k :: r[29] <= k < r[30] ==> s[k] != '\n'
    requires q + 29 <= c && c + 30 <= |s| && OccursAt(s, CloseMarker, c)
    requires DollarFreeLine(s[c + 30..])
    requires LexGe(r, SectionCuts(q, c))
    ensures r[29] == q + 29 && r[30] == c
  {
    var bs := SectionCuts(q, c);
    SectionEndBound(s, r[29], c, r[30]);
    LexGeAt(r, bs, 30);
  }

  /** The section of a template whose first `$` opens the block, with the
      block's close marker followed by no further `$` on its line. */
  lemma FunctionSectionOf(pre: string, mid: string, post: string)
    requires '$' !in pre && '\n' !in mid && DollarFreeLine(post)
    ensures FunctionSection(pre + OpenMarker + mid + CloseMarker + post) == Ok(mid)
  {
    var s := pre + OpenMarker + mid + CloseMarker + post;
    Pieces(pre, OpenMarker, mid, CloseMarker, post);
    assert forall k :: 0 <= k < |pre| ==> s[k] == pre[k];
    SectionAt(s, |pre|, mid);
  }

  /** The same, stated on positions: the first `$` of `s` is at `q`, where
      the open marker starts. */
  lemma SectionAt(s: string, q: nat, mid: string)
    requires OccursAt(s, OpenMarker, q) && OccursAt(s, mid, q + 29) && OccursAt(s, CloseMarker, q + 29 + |mid|)
    requires '\n' !in mid && DollarFreeLine(s[q + 59 + |mid|..])
    requires forall k :: 0 <= k < q ==> s[k] != '$'
    ensures FunctionSection(s) == Ok(mid)
  {
    SectionMatchAt(s, q, mid);
    NoSectionBefore(s, q);
    SearchFinds(s, SectionPattern, 0, q);
    SectionOfSearch(s);
    assert s[q + 29..q + 29 + |mid|] == mid;
  }

  /** The section is the capture of the match `re.search` reports. */
  lemma SectionOfSearch(t: string)
    ensures Search(t, SectionPattern, 0).Some? ==>
      var b := Search(t, SectionPattern, 0).value;
      b[29] <= b[30] <= |t| && FunctionSection(t) == Ok(t[b[29]..b[30]])
  {
    match Search(t, SectionPattern, 0)
    case None =>
    case Some(b) =>
      MatchAtFits(t, b[0], SectionPattern);
      SectionFitShape(t, b);
      assert FunctionSection(t) == Ok(t[b[29]..b[30]]);
  }

  /** No section starts before the first `$`. */
  lemma NoSectionBefore(s: string, q: nat)
    requires q <= |s| && forall k :: 0 <= k < q ==> s[k] != '$'
    ensures forall q' :: 0 <= q' < q ==> MatchAt(s, q', SectionPattern).None?
  {
    forall q' | 0 <= q' < q
      ensures MatchAt(s, q', SectionPattern).None?
    {
      if MatchAt(s, q', SectionPattern).Some? {
        MatchAtFits(s, q', SectionPattern);
        SectionStartsWithDollar(s, MatchAt(s, q', SectionPattern).value);
        assert false;
      }
    }
  }

  /** The section is the capture of the first match `findall` lists, and
      there is none exactly when `findall` finds nothing. */
  lemma FunctionSectionIsFindAll(t: string)
    ensures StartsWithLit(SectionPattern)
    ensures FunctionSection(t).Err? <==> FindAll(t, SectionPattern, 0) == []
    ensures FunctionSection(t).Ok? ==>
      var m := FindAll(t, SectionPattern, 0)[0];
      m[29] <= m[30] <= |t| && FunctionSection(t).value == t[m[29]..m[30]]
  {
    assert SectionPattern[0] == Lit('$');
    FindAllFirst(t, SectionPattern, 0);
    match Search(t, SectionPattern, 0)
    case None =>
      assert FunctionSection(t).Err?;
    case Some(b) =>
      MatchAtFits(t, b[0], SectionPattern);
      SectionFitShape(t, b);
      assert FunctionSection(t) == Ok(t[b[29]..b[30]]);
  }


  /** A block written over several lines is not found: the script stops
      with `IndexError`. */
  lemma {:induction false} SectionOnOneLineOnly(mid: string)
    requires '\n' in mid && '$' !in mid
    ensures FunctionSection(OpenMarker + mid + CloseMarker).Err?
  {
    var s := OpenMarker + mid + CloseMarker;
    var c := 29 + |mid|;
    Pieces(OpenMarker, mid, CloseMarker, "", "");
    assert s == OpenMarker + mid + CloseMarker + "" + "";
    forall q | 0 <= q <= |s|
      ensures MatchAt(s, q, SectionPattern).None?
    {
      if MatchAt(s, q, SectionPattern).Some? {
        var b := MatchAt(s, q, SectionPattern).value;
        MatchAtFits(s, q, SectionPattern);
        SectionFitShape(s, b);
        SectionStartsWithDollar(s, b);
        DollarAt(s, mid, q);
        DollarAt(s, mid, b[30]);
        assert false;
      }
    }
  }

  /** In the open marker, the section and the close marker glued together,
      the only `$` are the two markers' first characters. */
  lemma DollarAt(s: string, mid: string, k: nat)
    requires s == OpenMarker + mid + CloseMarker && '$' !in mid
    requires k < |s| && s[k] == '$'
    ensures k == 0 || k == 29 + |mid|
  {
    Pieces(OpenMarker, mid, CloseMarker, "", "");
    assert s == OpenMarker + mid + CloseMarker + "" + "";
    if 0 < k < 29 {
      OpenDollarFirst(k);
    } else if k > 29 + |mid| {
      CloseDollarFirst(k - 29 - |mid|);
    }
  }

  // ---------------------------------------------------------------------------
  // Properties: filling
  // ---------------------------------------------------------------------------

  /** The items of two lists one after the other are the items of the joined list. */
  lemma {:induction false} ListItemsAppend(a: seq<string>, b: seq<string>)
    ensures ListItems(a + b) == ListItems(a) + ListItems(b)
    decreases |a|
  {
    if a != [] {
      assert (a + b)[1..] == a[1..] + b;
      ListItemsAppend(a[1..], b);
    } else {
      assert a + b == b;
    }
  }

  /** A function without parameters gets an empty list. */
  lemma ParameterListEmpty()
    ensures ParameterList([]) == "<ul>\n</ul>\n"
  {
    assert ParameterHtmls([]) == [];
  }

  /** One more text adds its own item at the end. */
  lemma ListItemsSnoc(xs: seq<string>, x: string)
    ensures ListItems(xs + [x]) == ListItems(xs) + "<li>\n" + x + "</li>\n"
  {
    ListItemsAppend(xs, [x]);
    assert ListItems([x]) == "<li>\n" + x + "</li>\n" + ListItems([]);
  }

  /** Each parameter adds its own item at the end of the list. */
  lemma ParameterListAppend(params: seq<(Option<string>, GroovyParameter)>, k: Option<string>, p: GroovyParameter)
    ensures ListItems(ParameterHtmls(params + [(k, p)])) ==
      ListItems(ParameterHtmls(params)) + "<li>\n" + ParameterHtml(p) + "</li>\n"
  {
    assert ParameterHtmls(params + [(k, p)]) == ParameterHtmls(params) + [ParameterHtml(p)];
    ListItemsSnoc(ParameterHtmls(params), ParameterHtml(p));
  }

  /** Every placeholder holds a `$`. */
  lemma KeysHoldDollar()
    ensures '$' in TitleKey && '$' in HeaderKey && '$' in DescriptionKey
    ensures '$' in ParametersKey && '$' in ReturnsKey && '$' in CodeKey
  {
    assert TitleKey[0] == '$' && HeaderKey[0] == '$' && DescriptionKey[0] == '$';
    assert ParametersKey[0] == '$' && ReturnsKey[0] == '$' && CodeKey[0] == '$';
  }

  /** Text lacking a character of the placeholder has no placeholder: a
      replacement leaves it alone. */
  lemma KeepsWhenAbsent(t: string, key: string, rep: string, c: char)
    requires c in key && c !in t
    ensures Replace(t, key, rep) == t
  {
    AbsentByChar(t, key, c);
    ReplaceAbsent(t, key, rep);
  }

  /** Text without a `$` has no placeholder: a replacement leaves it alone. */
  lemma KeepsDollarFree(t: string, key: string, rep: string)
    requires '$' in key && '$' !in t
    ensures Replace(t, key, rep) == t
  {
    KeepsWhenAbsent(t, key, rep, '$');
  }

  /** A section without placeholders is copied once per function unchanged. */
  lemma FillLeavesPlainText(section: string, f: GroovyFunction)
    requires '$' !in section && f.name.Some? && f.codeDefinition.Some?
    ensures FillFunction(section, f) == Ok(section)
  {
    KeysHoldDollar();
    KeepsDollarFree(section, TitleKey, f.name.value);
    KeepsDollarFree(section, HeaderKey, f.header);
    KeepsDollarFree(section, DescriptionKey, DescriptionHtml(f.description));
    KeepsDollarFree(section, ParametersKey, ParameterList(f.parameters));
    KeepsDollarFree(section, ReturnsKey, f.returnText);
    KeepsDollarFree(section, CodeKey, f.codeDefinition.value);
  }

  /** The title placeholder alone becomes the function's name. */
  lemma FillTitle(f: GroovyFunction)
    requires f.name.Some? && f.codeDefinition.Some? && '$' !in f.name.value
    ensures FillFunction(TitleKey, f) == Ok(f.name.value)
  {
    var n := f.name.value;
    ReplaceWhole(TitleKey, n);
    KeysHoldDollar();
    KeepsDollarFree(n, HeaderKey, f.header);
    KeepsDollarFree(n, DescriptionKey, DescriptionHtml(f.description));
    KeepsDollarFree(n, ParametersKey, ParameterList(f.parameters));
    KeepsDollarFree(n, ReturnsKey, f.returnText);
    KeepsDollarFree(n, CodeKey, f.codeDefinition.value);
  }

  /** The header placeholder holds none of the title placeholder. */
  lemma HeaderKeyKeeps(x: string)
    ensures Replace(HeaderKey, TitleKey, x) == HeaderKey
  {
    assert TitleKey[10] == 'i';
    assert forall i :: 0 <= i < |HeaderKey| ==> HeaderKey[i] != 'i';
    KeepsWhenAbsent(HeaderKey, TitleKey, x, 'i');
  }

  /** The returns placeholder holds neither the description nor the
      parameters placeholder. */
  lemma ReturnsKeyKeeps(x: string, y: string)
    ensures Replace(ReturnsKey, DescriptionKey, x) == ReturnsKey
    ensures Replace(ReturnsKey, ParametersKey, y) == ReturnsKey
  {
    assert DescriptionKey[9] == 'd' && ParametersKey[9] == 'p';
    assert forall i :: 0 <= i < |ReturnsKey| ==> ReturnsKey[i] != 'd' && ReturnsKey[i] != 'p';
    KeepsWhenAbsent(ReturnsKey, DescriptionKey, x, 'd');
    KeepsWhenAbsent(ReturnsKey, ParametersKey, y, 'p');
  }

  /** The replacements are made one after the other on the growing text: a
      header that itself reads `${groovy.returns}` ends up as the return text. */
  lemma FillReplacesInsertedText(f: GroovyFunction)
    requires f.name.Some? && f.codeDefinition.Some?
    requires f.header == ReturnsKey && '$' !in f.returnText
    ensures FillFunction(HeaderKey, f) == Ok(f.returnText)
  {
    HeaderKeyKeeps(f.name.value);
    ReplaceWhole(HeaderKey, ReturnsKey);
    ReturnsKeyKeeps(DescriptionHtml(f.description), ParameterList(f.parameters));
    ReplaceWhole(ReturnsKey, f.returnText);
    KeysHoldDollar();
    KeepsDollarFree(f.returnText, CodeKey, f.codeDefinition.value);
  }

  /** The page body is the functions' sections in order: filling a joined
      list is joining the filled lists, and it succeeds exactly when every
      function has a name and a definition. */
  lemma {:induction false} FillAllAppend(section: string, a: seq<GroovyFunction>, b: seq<GroovyFunction>)
    ensures FillAll(section, a + b).Ok? <==> FillAll(section, a).Ok? && FillAll(section, b).Ok?
    ensures FillAll(section, a + b).Ok? ==>
      FillAll(section, a + b).value == FillAll(section, a).value + FillAll(section, b).value
    decreases |a|
  {
    if a != [] {
      assert (a + b)[1..] == a[1..] + b;
      assert (a + b)[0] == a[0];
      FillAllStep(section, a + b);
      FillAllStep(section, a);
      FillAllAppend(section, a[1..], b);
    } else {
      assert a + b == b;
    }
  }

  /** One step of `FillAll`: the first function's section, then the rest. */
  lemma FillAllStep(section: string, fs: seq<GroovyFunction>)
    requires fs != []
    ensures FillAll(section, fs).Ok? <==> FillFunction(section, fs[0]).Ok? && FillAll(section, fs[1..]).Ok?
    ensures FillAll(section, fs).Ok? ==>
      FillAll(section, fs).value == FillFunction(section, fs[0]).value + FillAll(section, fs[1..]).value
  {
  }

  /** Filling succeeds exactly when every function has a name and a definition line. */
  lemma {:induction false} FillAllOk(section: string, fs: seq<GroovyFunction>)
    ensures FillAll(section, fs).Ok? <==>
      forall i :: 0 <= i < |fs| ==> fs[i].name.Some? && fs[i].codeDefinition.Some?
    decreases |fs|
  {
    if fs != [] {
      FillAllStep(section, fs);
      FillAllOk(section, fs[1..]);
      FillableSplit(fs);
    }
  }

  /** Every function of a non-empty list can be filled exactly when the
      first one and all the others can. */
  lemma FillableSplit(fs: seq<GroovyFunction>)
    requires fs != []
    ensures (forall i :: 0 <= i < |fs| ==> fs[i].name.Some? && fs[i].codeDefinition.Some?) <==>
      (fs[0].name.Some? && fs[0].codeDefinition.Some? &&
       forall i :: 0 <= i < |fs[1..]| ==> fs[1..][i].name.Some? && fs[1..][i].codeDefinition.Some?)
  {
    if forall i :: 0 <= i < |fs[1..]| ==> fs[1..][i].name.Some? && fs[1..][i].codeDefinition.Some? {
      forall i | 0 < i < |fs|
        ensures fs[i].name.Some? && fs[i].codeDefinition.Some?
      {
        assert fs[i] == fs[1..][i - 1];
      }
    }
  }

  /** A target page without the placeholder keeps its content; one that is
      just the placeholder becomes the generated body. */
  lemma BuildPageTarget(template: string, groovyText: string, target: string)
    requires BuildPage(template, groovyText, "").Ok?
    ensures '$' !in target ==> BuildPage(template, groovyText, target) == Ok(target)
    ensures BuildPage(template, groovyText, TargetKey) ==
      Ok(FillAll(FunctionSection(template).value, Values(ParseFile(groovyText))).value)
  {
    var body := FillAll(FunctionSection(template).value, Values(ParseFile(groovyText))).value;
    assert TargetKey[0] == '$';
    if '$' !in target {
      KeepsDollarFree(target, TargetKey, body);
    }
    ReplaceWhole(TargetKey, body);
  }

  /** A Groovy file without documented functions gives an empty body. */
  lemma BuildPageNoFunctions(template: string, target: string)
    requires FunctionSection(template).Ok?
    ensures BuildPage(template, "", target) == Ok(Replace(target, TargetKey, ""))
  {
    assert |FindBlocks("", 0)| == 0;
    assert |Values(ParseFile(""))| == 0;
  }
}

=== FILE: groovydoc.dfy ===
/**
 * The GroovyDoc extractor: a Groovy source text is scanned for doc comments
 * (opened by slash-star-star, closed by star-slash) that are directly
 * followed by a `def` line; each such block becomes a function record holding the comment text without its leading
 * asterisks, a description and its first line, the `@param` records, the
 * `@return` text and the function's name and signature.
 *
 * Every pattern is the program's own regular expression, written as a list of
 * `Patterns.Item`s; the comment on each constant shows the expression.
 */
module GroovyDoc {
  import opened PyTypes
  import opened Text
  import opened Patterns
  import opened OrderedMaps

  // ---------------------------------------------------------------------------
  // The patterns
  // ---------------------------------------------------------------------------

  /** `\s*\*+\s*(.*)`: one comment line; group 1 is items 3..3. */
  const DocLinePattern: seq<Item> :=
    [Star(Space), Plus(Exactly('*')), Star(Space), Star(NotNewline)]

  /** `(@param\s+(\w*)\s+(.*))`: a parameter line, taken as a whole. */
  const ParamPattern: seq<Item> :=
    Chars("@param") + [Plus(Space), Star(Word), Plus(Space), Star(NotNewline)]

  /** `(@param\s+(\w*)\s+\(?(\w*)\)?\s+(.*))`: name is items 7..7, type
      items 10..10, description items 13..13. */
  const ParamFormatPattern: seq<Item> :=
    Chars("@param") + [Plus(Space), Star(Word), Plus(Space), Opt('('), Star(Word), Opt(')'),
                       Plus(Space), Star(NotNewline)]

  /** `(@return\s+(.*))` */
  const ReturnPattern: seq<Item> :=
    Chars("@return") + [Plus(Space), Star(NotNewline)]

  /** `(def\s+(\w*)\((.*)\))`: name is items 4..4, parameters items 6..6. */
  const DefPattern: seq<Item> :=
    Chars("def") + [Plus(Space), Star(Word), Lit('('), Star(NotNewline), Lit(')')]

  /** What follows the closing star-slash of a block: `\n*def\s+(\w*)\s*\((.*)\)`. */
  const BlockTail: seq<Item> :=
    [Star(Exactly('\n'))] + Chars("def") +
    [Plus(Space), Star(Word), Star(Space), Lit('('), Star(NotNewline), Lit(')')]

  // ---------------------------------------------------------------------------
  // Records
  // ---------------------------------------------------------------------------

  /** A `@param` line: its text and, when the finer pattern matches, the
      name, type and description it captured. */
  datatype GroovyParameter = GroovyParameter(
    body: string,
    name: Option<string>,
    typ: Option<string>,
    description: Option<string>)

  /** One documented function. `name` and `codeDefinition` stay `None` when no
      `def name(...)` is found in the block. */
  datatype GroovyFunction = GroovyFunction(
    raw: string,
    formatted: string,
    header: string,
    description: string,
    name: Option<string>,
    codeDefinition: Option<string>,
    parameters: seq<(Option<string>, GroovyParameter)>,
    returnText: string)

  // ---------------------------------------------------------------------------
  // Parameters
  // ---------------------------------------------------------------------------

  /** A parameter record: the groups of the LAST match of the finer pattern
      in the line win; without a match every field stays `None`. */
  function ParseParameter(body: string): (p: GroovyParameter)
    ensures p.body == body
    ensures p.name.Some? <==> p.typ.Some?
    ensures p.name.Some? <==> p.description.Some?
    ensures p.name.Some? <==> exists q :: 0 <= q <= |body| && MatchAt(body, q, ParamFormatPattern).Some?
  {
    assert ParamFormatPattern[0] == Lit('@');
    var ms := FindAll(body, ParamFormatPattern, 0);
    FindAllFirst(body, ParamFormatPattern, 0);
    SearchLeftmost(body, ParamFormatPattern, 0);
    if ms == [] then GroovyParameter(body, None, None, None)
    else
      var b := ms[|ms| - 1];
      FindAllMatches(body, ParamFormatPattern, 0, |ms| - 1);
      FitsMonotone(body, ParamFormatPattern, b);
      GroovyParameter(body, Some(Group(body, b, 7, 8)), Some(Group(body, b, 10, 11)),
                      Some(Group(body, b, 13, 14)))
  }

  /** The parameter records of a block, keyed by name in an ordered
      dictionary: a later record with the same name replaces the earlier one
      in place. */
  function ParseParameters(raw: string): seq<(Option<string>, GroovyParameter)>
  {
    FromPairs(ParameterPairs(raw))
  }

  /** One (name, record) pair per match of the coarse pattern, in order. */
  function ParameterPairs(raw: string): (ps: seq<(Option<string>, GroovyParameter)>)
    ensures |ps| == |ParameterLines(raw)|
    ensures forall i :: 0 <= i < |ps| ==>
      ps[i].1 == ParseParameter(ParameterLines(raw)[i]) && ps[i].0 == ps[i].1.name
  {
    var ls := ParameterLines(raw);
    seq(|ls|, i requires 0 <= i < |ls| => var p := ParseParameter(ls[i]); (p.name, p))
  }

  /** The whole text of each match of the coarse pattern. */
  function ParameterLines(raw: string): (ls: seq<string>)
    ensures |ls| == |FindAll(raw, ParamPattern, 0)|
  {
    assert ParamPattern[0] == Lit('@');
    var ms := FindAll(raw, ParamPattern, 0);
    seq(|ms|, i requires 0 <= i < |ms| => raw[ms[i][0]..Last(ms[i])])
  }

  // ---------------------------------------------------------------------------
  // Docstring body
  // ---------------------------------------------------------------------------

  /** The text after the leading asterisks of a comment line, if it has any. */
  function DocLineText(line: string): Option<string>
  {
    match MatchAt(line, 0, DocLinePattern)
    case None => None
    case Some(b) =>
      MatchAtFits(line, 0, DocLinePattern);
      FitsMonotone(line, DocLinePattern, b);
      Some(Group(line, b, 3, 4))
  }

  /** Each kept comment line followed by a newline. */
  function FormatLines(lines: seq<string>): string
  {
    if lines == [] then []
    else
      (match DocLineText(lines[0]) case Some(t) => t + "\n" case None => "") + FormatLines(lines[1..])
  }

  /** The block with every line that starts with asterisks reduced to the
      text after them; other lines are dropped. */
  function FormatDocstring(raw: string): string
  {
    FormatLines(SplitOn(raw, "\n"))
  }

  /** The `@return` text: the whole first match, `@return` included, or
      `Nothing.` when there is none. */
  function ReturnsOf(raw: string): string
  {
    assert ReturnPattern[0] == Lit('@');
    var ms := FindAll(raw, ReturnPattern, 0);
    if ms == [] then "Nothing." else raw[ms[0][0]..Last(ms[0])]
  }

  /** The formatted docstring without parameter and return lines, stripped. */
  function DescriptionOf(formatted: string): string
  {
    assert ParamPattern[0] == Lit('@') && ReturnPattern[0] == Lit('@');
    var d := Strip(DeleteAll(formatted, ParamPattern, 0));
    Strip(DeleteAll(d, ReturnPattern, 0))
  }

  /** The first line of the description. */
  function HeaderOf(description: string): string
  {
    SplitOn(description, "\n")[0]
  }

  /** The name and the normalised signature `def name( params )` of the first
      `def name(params)` in the block. */
  function DefinitionOf(raw: string): (Option<string>, Option<string>)
  {
    assert DefPattern[0] == Lit('d');
    var ms := FindAll(raw, DefPattern, 0);
    if ms == [] then (None, None)
    else
      var b := ms[0];
      FindAllMatches(raw, DefPattern, 0, 0);
      FitsMonotone(raw, DefPattern, b);
      var name := Group(raw, b, 4, 5);
      (Some(name), Some("def " + name + "( " + Group(raw, b, 6, 7) + " )"))
  }

  /** A function record built from one block. */
  function ParseFunction(raw: string): (f: GroovyFunction)
    ensures f.raw == raw
  {
    var formatted := FormatDocstring(raw);
    var description := DescriptionOf(formatted);
    var (name, code) := DefinitionOf(raw);
    GroovyFunction(raw, formatted, HeaderOf(description), description, name, code,
                   ParseParameters(raw), ReturnsOf(raw))
  }

  // ---------------------------------------------------------------------------
  // Finding the blocks in a file
  // ---------------------------------------------------------------------------

  /** No line break in `s[i..j]`. */
  predicate OnOneLine(s: string, i: nat, j: nat)
    requires i <= j <= |s|
  {
    forall k :: i <= k < j ==> s[k] != '\n'
  }

  /** How far `([^*]|\*(?!/))*?` can reach from `i`: the first star-slash at
      or after `i`, or the end of the text. */
  function FirstClose(s: string, i: nat): (r: nat)
    requires i <= |s|
    ensures i <= r <= |s|
    ensures r < |s| ==> OccursAt(s, "*/", r)
    ensures forall j :: i <= j < r ==> !OccursAt(s, "*/", j)
    decreases |s| - i
  {
    if i + 2 > |s| then |s|
    else if s[i..i + 2] == "*/" then i
    else FirstClose(s, i + 1)
  }

  /** The closing star-slash the engine settles on, searching from `c` to the end
      of that line: the first one after which the `def` tail matches. The
      result is the tail's cut points; the star-slash sits just before the first. */
  function CloseOnLine(s: string, c: nat): (r: Option<seq<nat>>)
    requires c <= |s|
    ensures r.Some? ==> |r.value| == |BlockTail| + 1 && Fits(s, BlockTail, r.value)
    ensures r.Some? ==> c + 2 <= r.value[0] && OccursAt(s, "*/", r.value[0] - 2)
    decreases |s| - c
  {
    if c + 2 > |s| || s[c] == '\n' then None
    else if s[c..c + 2] == "*/" && MatchAt(s, c + 2, BlockTail).Some? then
      MatchAtFits(s, c + 2, BlockTail);
      MatchAt(s, c + 2, BlockTail)
    else CloseOnLine(s, c + 1)
  }

  /** The star-slash settled on is the first one on the line after which the
      tail matches; with no result, no star-slash on the line is followed by it. */
  lemma {:induction false} CloseOnLineFirst(s: string, c: nat)
    requires c <= |s|
    ensures var r := CloseOnLine(s, c);
      r.Some? ==> (OnOneLine(s, c, r.value[0] - 2) &&
        forall d :: c <= d < r.value[0] - 2 && OccursAt(s, "*/", d) ==> MatchAt(s, d + 2, BlockTail).None?)
    ensures CloseOnLine(s, c).None? ==>
      forall d :: c <= d && OccursAt(s, "*/", d) && OnOneLine(s, c, d) ==> MatchAt(s, d + 2, BlockTail).None?
    decreases |s| - c
  {
    if c + 2 > |s| || s[c] == '\n' {
    } else if OccursAt(s, "*/", c) && MatchAt(s, c + 2, BlockTail).Some? {
      assert CloseOnLine(s, c) == MatchAt(s, c + 2, BlockTail);
    } else {
      CloseSkip(s, c);
      CloseOnLineFirst(s, c + 1);
      var r := CloseOnLine(s, c + 1);
      if r.Some? {
        forall d | c <= d < r.value[0] - 2 && OccursAt(s, "*/", d)
          ensures MatchAt(s, d + 2, BlockTail).None?
        {
          if d > c {
            assert c + 1 <= d < r.value[0] - 2;
          }
        }
      } else {
        forall d | c <= d && OccursAt(s, "*/", d) && OnOneLine(s, c, d)
          ensures MatchAt(s, d + 2, BlockTail).None?
        {
          if d > c {
            assert OnOneLine(s, c + 1, d);
          }
        }
      }
    }
  }

  /** A star-slash not followed by the tail, or no star-slash at all, on the
      line: the search moves on to the next character. */
  lemma CloseSkip(s: string, c: nat)
    requires c + 2 <= |s| && s[c] != '\n'
    requires !(OccursAt(s, "*/", c) && MatchAt(s, c + 2, BlockTail).Some?)
    ensures CloseOnLine(s, c) == CloseOnLine(s, c + 1)
  {
  }

  /** The block matching at `p`, as the cut points of its tail; the block is
      `s[p..Last(t)]`. */
  function BlockAt(s: string, p: nat): (r: Option<seq<nat>>)
    requires p <= |s|
    ensures r.Some? ==> OccursAt(s, "/**", p) && |r.value| == |BlockTail| + 1
    ensures r.Some? ==> Fits(s, BlockTail, r.value) && p + 5 <= r.value[0]
    ensures r.Some? ==> OccursAt(s, "*/", r.value[0] - 2)
  {
    if OccursAt(s, "/**", p) then CloseOnLine(s, FirstClose(s, p + 3)) else None
  }

  /** The (start, end) of each block `re.findall` reports from `pos`. */
  function FindBlocks(s: string, pos: nat): (bs: seq<(nat, nat)>)
    requires pos <= |s|
    ensures forall i :: 0 <= i < |bs| ==> pos <= bs[i].0 < bs[i].1 <= |s|
    ensures forall i :: 0 <= i < |bs| - 1 ==> bs[i].1 <= bs[i + 1].0
    decreases |s| - pos
  {
    if pos == |s| then []
    else
      match BlockAt(s, pos)
      case Some(t) =>
        FitsMonotone(s, BlockTail, t);
        [(pos, Last(t))] + FindBlocks(s, Last(t))
      case None => FindBlocks(s, pos + 1)
  }

  /** The function records of a file, keyed by name in an ordered
      dictionary; a later function with the same name replaces the earlier
      one in place. */
  function ParseFile(text: string): seq<(Option<string>, GroovyFunction)>
  {
    FromPairs(FunctionPairs(text))
  }

  /** One (name, record) pair per block, in order. */
  function FunctionPairs(text: string): (ps: seq<(Option<string>, GroovyFunction)>)
    ensures |ps| == |FindBlocks(text, 0)|
    ensures forall i :: 0 <= i < |ps| ==>
      ps[i].1.raw == text[FindBlocks(text, 0)[i].0..FindBlocks(text, 0)[i].1] && ps[i].0 == ps[i].1.name
  {
    var bs := FindBlocks(text, 0);
    seq(|bs|, i requires 0 <= i < |bs| => var f := ParseFunction(text[bs[i].0..bs[i].1]); (f.name, f))
  }

  // ---------------------------------------------------------------------------
  // Confluence HTML
  // ---------------------------------------------------------------------------

  /** `str(x)` of an optional text: `None` prints as `None`. */
  function Show(x: Option<string>): string
  {
    match x case Some(t) => t case None => "None"
  }

  /** The description as one `<code>` paragraph, every line ended by `<br/>`. */
  function DescriptionHtml(description: string): string
  {
    "<p><code>\n" + ConcatEach(SplitOn(description, "\n"), "<br/>") + "</code></p>\n"
  }

  /** A parameter as a blue bold name, its type in `<code>` and its
      description in `<em>`. */
  function ParameterHtml(p: GroovyParameter): string
  {
    "\n        <span style=\"color: rgb(0,0,255);\">\n            <strong>" + Show(p.name)
    + "</strong>\n        </span>\n        <code>" + Show(p.typ) + "</code> - <em>"
    + Show(p.description) + "</em>\n        "
  }
}

=== FILE: groovydoc_facts.dfy ===
/**
 * What the GroovyDoc extractor does with the texts it meets: which comment
 * lines it keeps and what it keeps of them, how a `@param` line is split,
 * what the `@return` text is, and what the file-level dictionary holds.
 */
module GroovyDocFacts {
  import opened PyTypes
  import opened Text
  import opened Patterns
  import opened OrderedMaps
  import opened GroovyDoc

  predicate NoNewline(s: string)
  {
    forall i :: 0 <= i < |s| ==> s[i] != '\n'
  }

  predicate AllWord(s: string)
  {
    forall i :: 0 <= i < |s| ==> IsWord(s[i])
  }

  // ---------------------------------------------------------------------------
  // Comment lines
  // ---------------------------------------------------------------------------

  /** What a matching comment line keeps is its group. */
  lemma {:induction false} DocLineTextOf(line: string, b: seq<nat>, p: nat)
    requires MatchAt(line, 0, DocLinePattern) == Some(b) && |b| == 5 && b[3] == p && b[4] == |line|
    ensures p <= |line| && DocLineText(line) == Some(line[p..])
  {
    MatchAtFits(line, 0, DocLinePattern);
    FitsMonotone(line, DocLinePattern, b);
    assert line[b[3]..b[4]] == line[p..];
  }

  /** A matching comment line has an asterisk after its leading blanks. */
  lemma {:induction false} DocLineMatchShape(line: string)
    requires MatchAt(line, 0, DocLinePattern).Some?
    ensures var b := MatchAt(line, 0, DocLinePattern).value;
      b[1] < |line| && line[b[1]] == '*' && forall k :: 0 <= k < b[1] ==> IsSpace(line[k])
  {
    var items := DocLinePattern;
    var b := MatchAt(line, 0, items).value;
    MatchAtFits(line, 0, items);
    FitsIffEach(line, items, b);
    assert items[0] == Star(Space) && items[1] == Plus(Exactly('*'));
    assert ItemFits(line, items[0], b[0], b[1]);
    assert ItemFits(line, items[1], b[1], b[2]);
  }

  /** A comment line made of blanks (`a` of them), asterisks (`n`), blanks
      (`w`) and then any text is kept, and what is kept is that text. */
  lemma {:induction false} DocLineKept(line: string, a: nat, n: nat, w: nat)
    requires NoNewline(line) && n >= 1 && a + n + w <= |line|
    requires forall k :: 0 <= k < a ==> IsSpace(line[k])
    requires forall k :: a <= k < a + n ==> line[k] == '*'
    requires a + n == |line| || line[a + n] != '*'
    requires forall k :: a + n <= k < a + n + w ==> IsSpace(line[k])
    requires a + n + w == |line| || !IsSpace(line[a + n + w])
    ensures DocLineText(line) == Some(line[a + n + w..])
  {
    var b: seq<nat> := [0, a, a + n, a + n + w, |line|];
    DocLineGreedy(line, a, n, w);
    GreedyMatch(line, 0, DocLinePattern, b);
    DocLineTextOf(line, b, a + n + w);
  }

  /** The same line, cut where each part of the pattern takes as much as it can. */
  lemma {:induction false} DocLineGreedy(line: string, a: nat, n: nat, w: nat)
    requires NoNewline(line) && n >= 1 && a + n + w <= |line|
    requires forall k :: 0 <= k < a ==> IsSpace(line[k])
    requires forall k :: a <= k < a + n ==> line[k] == '*'
    requires a + n == |line| || line[a + n] != '*'
    requires forall k :: a + n <= k < a + n + w ==> IsSpace(line[k])
    requires a + n + w == |line| || !IsSpace(line[a + n + w])
    ensures GreedyFits(line, DocLinePattern, [0, a, a + n, a + n + w, |line|])
  {
    var items := DocLinePattern;
    var b: seq<nat> := [0, a, a + n, a + n + w, |line|];
    assert items == [Star(Space), Plus(Exactly('*')), Star(Space), Star(NotNewline)];
    GreedyEnd(line, items[4..], b[4..]);
    GreedyStep(line, items[3..], b[3..]);
    GreedyStep(line, items[2..], b[2..]);
    GreedyStep(line, items[1..], b[1..]);
    GreedyStep(line, items, b);
  }

  /** A line whose first non-blank character is not an asterisk, or that is
      blank, is dropped. */
  lemma {:induction false} DocLineDropped(line: string, a: nat)
    requires a <= |line| && forall k :: 0 <= k < a ==> IsSpace(line[k])
    requires a == |line| || (!IsSpace(line[a]) && line[a] != '*')
    ensures DocLineText(line) == None
  {
    if MatchAt(line, 0, DocLinePattern).Some? {
      DocLineMatchShape(line);
    }
  }

  /** The closing line of a comment (blank, star, slash) leaves a lone slash behind. */
  lemma {:induction false} ClosingLineKeepsSlash()
    ensures DocLineText(" */") == Some("/")
  {
    DocLineKept(" */", 1, 1, 0);
  }

  /** The opening line of a comment is dropped. */
  lemma {:induction false} OpeningLineDropped(rest: string)
    ensures DocLineText("/**" + rest) == None
  {
    DocLineDropped("/**" + rest, 0);
  }

  // ---------------------------------------------------------------------------
  // Parameter lines
  // ---------------------------------------------------------------------------

  /** The characters of a well-formed `@param` line: `@param`, a blank, a name
      of `n` word characters, a blank, an optional `(`, a type of `t` word
      characters, an optional `)`, a blank, and a description that starts
      with no blank and runs to the end of the text. */
  predicate ParamChars(body: string, n: nat, l: nat, t: nat, r: nat)
  {
    var e4 := 8 + n + l + t;
    n >= 1 && t >= 1 && l <= 1 && r <= 1 && e4 + r + 1 <= |body| &&
    OccursAt(body, "@param", 0) && body[6] == ' ' &&
    (forall k :: 7 <= k < 7 + n ==> IsWord(body[k])) && body[7 + n] == ' ' &&
    (l == 1 ==> body[8 + n] == '(') &&
    (forall k :: 8 + n + l <= k < e4 ==> IsWord(body[k])) &&
    (r == 1 ==> body[e4] == ')') && body[e4 + r] == ' ' &&
    (forall k :: e4 + r + 1 <= k < |body| ==> body[k] != '\n') &&
    (e4 + r + 1 == |body| || !IsSpace(body[e4 + r + 1]))
  }

  /** The cut points of the finer parameter pattern on such a line. */
  function ParamCuts(body: string, n: nat, l: nat, t: nat, r: nat): seq<nat>
  {
    Range(0, 6) + [6, 7, 7 + n, 8 + n, 8 + n + l, 8 + n + l + t, 8 + n + l + t + r, 9 + n + l + t + r, |body|]
  }

  /** Blank, name, blank and optional opening parenthesis, each as long as it goes. */
  lemma {:induction false} ParamNameFits(body: string, n: nat, l: nat, t: nat, r: nat)
    requires ParamChars(body, n, l, t, r)
    ensures GreedyFits(body, [Plus(Space), Star(Word), Plus(Space), Opt('(')], [6, 7, 7 + n, 8 + n, 8 + n + l])
  {
    var items := [Plus(Space), Star(Word), Plus(Space), Opt('(')];
    var b: seq<nat> := [6, 7, 7 + n, 8 + n, 8 + n + l];
    assert IsWord(body[7]) && IsWord(body[8 + n + l]);
    forall i | 0 <= i < 4
      ensures ItemFits(body, items[i], b[i], b[i + 1])
      ensures items[i].Run? ==> Maximal(body, items[i], b[i], b[i + 1])
    {
    }
    assert GreedyEach(body, items, b);
    GreedyIffEach(body, items, b);
  }

  /** Type, optional closing parenthesis, blank and description, each as
      long as it goes. */
  lemma {:induction false} ParamTypeFits(body: string, n: nat, l: nat, t: nat, r: nat)
    requires ParamChars(body, n, l, t, r)
    ensures GreedyFits(body, [Star(Word), Opt(')'), Plus(Space), Star(NotNewline)],
                       [8 + n + l, 8 + n + l + t, 8 + n + l + t + r, 9 + n + l + t + r, |body|])
  {
    var items := [Star(Word), Opt(')'), Plus(Space), Star(NotNewline)];
    var b: seq<nat> := [8 + n + l, 8 + n + l + t, 8 + n + l + t + r, 9 + n + l + t + r, |body|];
    forall i | 0 <= i < 4
      ensures ItemFits(body, items[i], b[i], b[i + 1])
      ensures items[i].Run? ==> Maximal(body, items[i], b[i], b[i + 1])
    {
    }
    assert GreedyEach(body, items, b);
    GreedyIffEach(body, items, b);
  }

  /** The finer parameter pattern as the literal `@param` and its two halves. */
  lemma ParamPatternSplit()
    ensures ParamFormatPattern == Chars("@param") + ([Plus(Space), Star(Word), Plus(Space), Opt('(')]
                                                  + [Star(Word), Opt(')'), Plus(Space), Star(NotNewline)])
  {
  }

  /** The cut points split the same way. */
  lemma ParamCutsSplit(body: string, n: nat, l: nat, t: nat, r: nat)
    ensures ParamCuts(body, n, l, t, r) == Range(0, 6) + ([6, 7, 7 + n, 8 + n, 8 + n + l][..4]
                                           + [8 + n + l, 8 + n + l + t, 8 + n + l + t + r, 9 + n + l + t + r, |body|])
  {
    var b1: seq<nat> := [6, 7, 7 + n, 8 + n, 8 + n + l];
    assert b1[..4] == [6, 7, 7 + n, 8 + n];
  }

  /** A well-formed parameter line matches the finer pattern at the cut points above. */
  lemma {:induction false} ParamLineMatch(body: string, n: nat, l: nat, t: nat, r: nat)
    requires ParamChars(body, n, l, t, r)
    ensures MatchAt(body, 0, ParamFormatPattern) == Some(ParamCuts(body, n, l, t, r))
  {
    var head := [Plus(Space), Star(Word), Plus(Space), Opt('(')];
    var tail := [Star(Word), Opt(')'), Plus(Space), Star(NotNewline)];
    var b1: seq<nat> := [6, 7, 7 + n, 8 + n, 8 + n + l];
    var b2: seq<nat> := [8 + n + l, 8 + n + l + t, 8 + n + l + t + r, 9 + n + l + t + r, |body|];
    ParamNameFits(body, n, l, t, r);
    ParamTypeFits(body, n, l, t, r);
    GreedyAppend(body, head, tail, b1, b2);
    GreedyFitsChars(body, "@param", head + tail, b1[..4] + b2);
    ParamPatternSplit();
    ParamCutsSplit(body, n, l, t, r);
    GreedyMatch(body, 0, ParamFormatPattern, ParamCuts(body, n, l, t, r));
  }

  /** When the finer pattern matches once, up to the end of the line, the
      record holds its three groups. */
  lemma {:induction false} ParseParameterOf(body: string, b: seq<nat>)
    requires MatchAt(body, 0, ParamFormatPattern) == Some(b) && Last(b) == |body|
    ensures var p := ParseParameter(body);
      |b| == 15 && b[7] <= b[8] <= b[10] <= b[11] <= b[13] <= b[14] <= |body| &&
      p == GroovyParameter(body, Some(body[b[7]..b[8]]), Some(body[b[10]..b[11]]), Some(body[b[13]..b[14]]))
  {
    MatchAtFits(body, 0, ParamFormatPattern);
    FitsMonotone(body, ParamFormatPattern, b);
    assert ParamFormatPattern[0] == Lit('@');
    assert MatchAt(body, |body|, ParamFormatPattern).None?;
    assert FindAll(body, ParamFormatPattern, |body|) == [];
    assert FindAll(body, ParamFormatPattern, 0) == [b];
  }

  /** A line whose characters have the parameter shape is split into the
      name, type and description it carries. */
  lemma {:induction false} ParamCharsParsed(body: string, n: nat, l: nat, t: nat, r: nat,
                                            name: string, typ: string, desc: string)
    requires ParamChars(body, n, l, t, r)
    requires body[7..7 + n] == name && body[8 + n + l..8 + n + l + t] == typ && body[9 + n + l + t + r..] == desc
    ensures ParseParameter(body) == GroovyParameter(body, Some(name), Some(typ), Some(desc))
  {
    var b := ParamCuts(body, n, l, t, r);
    ParamLineMatch(body, n, l, t, r);
    assert |Range(0, 6)| == 6;
    assert b[7] == 7 && b[8] == 7 + n && b[10] == 8 + n + l && b[11] == 8 + n + l + t;
    assert b[13] == 9 + n + l + t + r && b[14] == |body| && Last(b) == |body|;
    ParseParameterOf(body, b);
    assert body[b[7]..b[8]] == body[7..7 + n];
    assert body[b[10]..b[11]] == body[8 + n + l..8 + n + l + t];
    assert body[b[13]..b[14]] == body[9 + n + l + t + r..];
  }

  /** The parameter shape, piece by piece. */
  lemma ParamCharsIntro(body: string, n: nat, l: nat, t: nat, r: nat)
    requires n >= 1 && t >= 1 && l <= 1 && r <= 1 && 9 + n + l + t + r <= |body|
    requires body[..6] == "@param" && body[6] == ' '
    requires AllWord(body[7..7 + n]) && body[7 + n] == ' ' && (l == 1 ==> body[8 + n] == '(')
    requires AllWord(body[8 + n + l..8 + n + l + t])
    requires (r == 1 ==> body[8 + n + l + t] == ')') && body[8 + n + l + t + r] == ' '
    requires NoNewline(body[9 + n + l + t + r..])
    requires 9 + n + l + t + r == |body| || !IsSpace(body[9 + n + l + t + r])
    ensures ParamChars(body, n, l, t, r)
  {
    assert OccursAt(body, "@param", 0);
    forall k | 7 <= k < 7 + n
      ensures IsWord(body[k])
    {
      assert body[k] == body[7..7 + n][k - 7];
    }
    forall k | 8 + n + l <= k < 8 + n + l + t
      ensures IsWord(body[k])
    {
      assert body[k] == body[8 + n + l..8 + n + l + t][k - (8 + n + l)];
    }
    forall k | 9 + n + l + t + r <= k < |body|
      ensures body[k] != '\n'
    {
      assert body[k] == body[9 + n + l + t + r..][k - (9 + n + l + t + r)];
    }
  }

  /** The text of a parameter line `@param name (type) description`, where
      `lp` and `rp` are the parentheses or nothing. */
  function ParamLine(name: string, lp: string, typ: string, rp: string, desc: string): string
  {
    "@param " + name + (" " + lp) + typ + (rp + " " + desc)
  }

  /** Where the tag, the name and the opening parenthesis sit in a `@param` line. */
  lemma ParamLineHead(name: string, lp: string, typ: string, rp: string, desc: string)
    requires lp == "" || lp == "("
    ensures var body := ParamLine(name, lp, typ, rp, desc);
      var n, l := |name|, |lp|;
      8 + n + l <= |body| && body[..6] == "@param" && body[6] == ' ' && body[7..7 + n] == name &&
      body[7 + n] == ' ' && (l == 1 ==> body[8 + n] == '(')
  {
    var n := |name|;
    var c := " " + lp;
    var body := ParamLine(name, lp, typ, rp, desc);
    Pieces("@param ", name, c, typ, rp + " " + desc);
    assert body[..6] == body[..7][..6];
    assert body[6] == body[..7][6];
    assert body[7 + n] == c[0];
    assert |lp| == 1 ==> body[8 + n] == c[1];
  }

  /** Where the type, the closing parenthesis and the description sit in a `@param` line. */
  lemma ParamLineTail(name: string, lp: string, typ: string, rp: string, desc: string)
    requires rp == "" || rp == ")"
    ensures var body := ParamLine(name, lp, typ, rp, desc);
      var m := 8 + |name| + |lp| + |typ|;
      var r := |rp|;
      m + r < |body| && body[m - |typ|..m] == typ && (r == 1 ==> body[m] == ')') &&
      body[m + r] == ' ' && body[m + r + 1..] == desc
  {
    var e := rp + " " + desc;
    var body := ParamLine(name, lp, typ, rp, desc);
    var m := 8 + |name| + |lp| + |typ|;
    Pieces("@param ", name, " " + lp, typ, e);
    assert |rp| == 1 ==> body[m] == e[0];
    assert body[m + |rp|] == e[|rp|];
    assert e[|rp| + 1..] == desc;
  }

  /** The pieces of a `@param` line written out give it the parameter shape. */
  lemma {:induction false} ParamLineChars(name: string, lp: string, typ: string, rp: string, desc: string)
    requires name != [] && AllWord(name) && typ != [] && AllWord(typ)
    requires lp == "" || lp == "("
    requires rp == "" || rp == ")"
    requires NoNewline(desc) && (desc == [] || !IsSpace(desc[0]))
    ensures var body := ParamLine(name, lp, typ, rp, desc);
      var n, l, t, r := |name|, |lp|, |typ|, |rp|;
      ParamChars(body, n, l, t, r) && body[7..7 + n] == name &&
      body[8 + n + l..8 + n + l + t] == typ && body[9 + n + l + t + r..] == desc
  {
    var body := ParamLine(name, lp, typ, rp, desc);
    ParamLineHead(name, lp, typ, rp, desc);
    ParamLineTail(name, lp, typ, rp, desc);
    ParamCharsIntro(body, |name|, |lp|, |typ|, |rp|);
  }

  /** A parameter line `@param name (type) description`, with or without the
      parentheses, yields its name, type and description. */
  lemma {:induction false} ParamLineParsed(name: string, lp: string, typ: string, rp: string, desc: string)
    requires name != [] && AllWord(name) && typ != [] && AllWord(typ)
    requires lp == "" || lp == "("
    requires rp == "" || rp == ")"
    requires NoNewline(desc) && (desc == [] || !IsSpace(desc[0]))
    ensures var body := ParamLine(name, lp, typ, rp, desc);
      ParseParameter(body) == GroovyParameter(body, Some(name), Some(typ), Some(desc))
  {
    var body := ParamLine(name, lp, typ, rp, desc);
    ParamLineChars(name, lp, typ, rp, desc);
    ParamCharsParsed(body, |name|, |lp|, |typ|, |rp|, name, typ, desc);
  }

  predicate NoSpace(s: string)
  {
    forall i :: 0 <= i < |s| ==> !IsSpace(s[i])
  }

  /** Any fit of the finer parameter pattern crosses three separate blanks. */
  lemma {:induction false} ParamFitSpaces(s: string, b: seq<nat>)
    requires Fits(s, ParamFormatPattern, b)
    ensures b[6] < b[8] < b[12] < |s|
    ensures IsSpace(s[b[6]]) && IsSpace(s[b[8]]) && IsSpace(s[b[12]])
  {
    var items := ParamFormatPattern;
    FitsIffEach(s, items, b);
    assert items[6] == Plus(Space) && items[7] == Star(Word) && items[8] == Plus(Space);
    assert items[9] == Opt('(') && items[10] == Star(Word) && items[11] == Opt(')') && items[12] == Plus(Space);
    assert ItemFits(s, items[6], b[6], b[7]) && ItemFits(s, items[7], b[7], b[8]);
    assert ItemFits(s, items[8], b[8], b[9]) && ItemFits(s, items[9], b[9], b[10]);
    assert ItemFits(s, items[10], b[10], b[11]) && ItemFits(s, items[11], b[11], b[12]);
    assert ItemFits(s, items[12], b[12], b[13]);
  }

  /** A parameter line without a type, `@param name description` with a
      one-word description, defeats the finer pattern: the record has no
      name, no type and no description. */
  lemma {:induction false} ParamWithoutTypeDropped(name: string, desc: string)
    requires name != [] && AllWord(name) && NoSpace(desc)
    ensures var body := "@param " + name + " " + desc;
      ParseParameter(body) == GroovyParameter(body, None, None, None)
  {
    var n := |name|;
    var body := "@param " + name + " " + desc;
    Pieces("@param ", name, " ", desc, "");
    assert body == "@param " + name + " " + desc + "";
    forall k | 0 <= k < |body| && k != 6 && k != 7 + n
      ensures !IsSpace(body[k])
    {
      if k < 7 {
        assert body[k] == body[..7][k];
      } else if k < 7 + n {
        assert body[k] == body[7..7 + n][k - 7];
      } else {
        assert body[k] == body[8 + n..8 + n + |desc|][k - (8 + n)];
      }
    }
    forall q | 0 <= q <= |body|
      ensures MatchAt(body, q, ParamFormatPattern).None?
    {
      if MatchAt(body, q, ParamFormatPattern).Some? {
        MatchAtFits(body, q, ParamFormatPattern);
        ParamFitSpaces(body, MatchAt(body, q, ParamFormatPattern).value);
        assert false;
      }
    }
  }

  // ---------------------------------------------------------------------------
  // The return text
  // ---------------------------------------------------------------------------

  /** `@return` at `q`, followed by a blank (a newline counts). */
  predicate ReturnTagAt(raw: string, q: int)
  {
    OccursAt(raw, "@return", q) && q + 7 < |raw| && IsSpace(raw[q + 7])
  }

  /** Where the return pattern matches, a tag followed by a blank starts. */
  lemma {:induction false} ReturnMatchTag(raw: string, q: nat)
    requires q <= |raw| && MatchAt(raw, q, ReturnPattern).Some?
    ensures ReturnTagAt(raw, q)
  {
    var rest := [Plus(Space), Star(NotNewline)];
    assert ReturnPattern == Chars("@return") + rest;
    var b := MatchAt(raw, q, ReturnPattern).value;
    MatchAtFits(raw, q, ReturnPattern);
    FitsCharsSplit(raw, "@return", rest, b);
    assert ItemFits(raw, rest[0], b[7..][0], b[7..][1]);
  }

  /** Where a tag followed by a blank starts, the return pattern matches. */
  lemma {:induction false} ReturnTagMatch(raw: string, q: nat)
    requires ReturnTagAt(raw, q)
    ensures MatchAt(raw, q, ReturnPattern).Some?
  {
    var b := Range(q, 7) + [q + 7, q + 8, q + 8];
    ReturnTagFits(raw, q);
    MatchAtPreferred(raw, q, ReturnPattern, b);
  }

  /** The tag and one blank fit the return pattern, with an empty text after them. */
  lemma ReturnTagFits(raw: string, q: nat)
    requires ReturnTagAt(raw, q)
    ensures var b := Range(q, 7) + [q + 7, q + 8, q + 8];
      q <= |raw| && b[0] == q && Fits(raw, ReturnPattern, b)
  {
    var rest := [Plus(Space), Star(NotNewline)];
    var t: seq<nat> := [q + 7, q + 8, q + 8];
    ReturnRestFits(raw, q);
    FitsCharsThen(raw, "@return", rest, t);
  }

  /** One blank and an empty text fit the pattern's tail behind the tag. */
  lemma ReturnRestFits(raw: string, q: nat)
    requires q + 7 < |raw| && IsSpace(raw[q + 7])
    ensures Fits(raw, [Plus(Space), Star(NotNewline)], [q + 7, q + 8, q + 8])
  {
  }

  /** The return pattern matches exactly where a tag followed by a blank starts. */
  lemma ReturnMatchIffTag(raw: string, q: nat)
    requires q <= |raw|
    ensures MatchAt(raw, q, ReturnPattern).Some? <==> ReturnTagAt(raw, q)
  {
    if MatchAt(raw, q, ReturnPattern).Some? {
      ReturnMatchTag(raw, q);
    }
    if ReturnTagAt(raw, q) {
      ReturnTagMatch(raw, q);
    }
  }

  /** The return text is `Nothing.` exactly when no tag followed by a blank
      occurs anywhere in the block. */
  lemma {:induction false} ReturnsNothingIff(raw: string)
    ensures ReturnsOf(raw) == "Nothing." <==> forall q :: 0 <= q <= |raw| ==> !ReturnTagAt(raw, q)
  {
    assert ReturnPattern[0] == Lit('@');
    FindAllFirst(raw, ReturnPattern, 0);
    SearchNone(raw, ReturnPattern, 0);
    forall q | 0 <= q <= |raw|
      ensures MatchAt(raw, q, ReturnPattern).Some? <==> ReturnTagAt(raw, q)
    {
      ReturnMatchIffTag(raw, q);
    }
    var ms := FindAll(raw, ReturnPattern, 0);
    if ms != [] {
      var b := ms[0];
      FindAllMatches(raw, ReturnPattern, 0, 0);
      assert ReturnPattern == Chars("@return") + [Plus(Space), Star(NotNewline)];
      FitsCharsSplit(raw, "@return", [Plus(Space), Star(NotNewline)], b);
      assert ReturnsOf(raw)[0] == raw[b[0]] == '@';
      var q: int := b[0];
      assert 0 <= q <= |raw| && ReturnTagAt(raw, q);
    } else {
      assert Search(raw, ReturnPattern, 0).None?;
      forall q | 0 <= q <= |raw|
        ensures !ReturnTagAt(raw, q)
      {
        assert MatchAt(raw, q, ReturnPattern).None?;
      }
    }
  }

  /** The return text is the whole first match: the tag, every blank after
      it (newlines included), and the rest of the line those blanks end on. */
  lemma {:induction false} ReturnsFirstTag(raw: string, q: nat, w: nat, t: nat)
    requires ReturnTagAt(raw, q) && forall q' :: 0 <= q' < q ==> !ReturnTagAt(raw, q')
    requires w >= 1 && q + 7 + w + t <= |raw|
    requires forall k :: q + 7 <= k < q + 7 + w ==> IsSpace(raw[k])
    requires q + 7 + w == |raw| || !IsSpace(raw[q + 7 + w])
    requires forall k :: q + 7 + w <= k < q + 7 + w + t ==> raw[k] != '\n'
    requires q + 7 + w + t == |raw| || raw[q + 7 + w + t] == '\n'
    ensures ReturnsOf(raw) == raw[q..q + 7 + w + t]
  {
    var rest := [Plus(Space), Star(NotNewline)];
    var e: seq<nat> := [q + 7, q + 7 + w, q + 7 + w + t];
    GreedyEnd(raw, rest[2..], e[2..]);
    GreedyStep(raw, rest[1..], e[1..]);
    GreedyStep(raw, rest, e);
    GreedyFitsChars(raw, "@return", rest, e);
    assert ReturnPattern == Chars("@return") + rest;
    var b := Range(q, 7) + e;
    GreedyMatch(raw, q, ReturnPattern, b);
    forall q' | 0 <= q' < q
      ensures MatchAt(raw, q', ReturnPattern).None?
    {
      ReturnMatchIffTag(raw, q');
    }
    SearchFinds(raw, ReturnPattern, 0, q);
    assert ReturnPattern[0] == Lit('@');
    FindAllFirst(raw, ReturnPattern, 0);
    assert Last(b) == q + 7 + w + t;
  }

  /** A tag at the end of its line takes the next line as its text. */
  lemma {:induction false} ReturnSpansNewline(text: string)
    requires NoNewline(text) && (text == [] || !IsSpace(text[0]))
    ensures ReturnsOf("@return\n" + text) == "@return\n" + text
  {
    var raw := "@return\n" + text;
    assert raw[..7] == "@return" && raw[7] == '\n';
    assert ReturnTagAt(raw, 0);
    forall k | 8 <= k < |raw|
      ensures raw[k] != '\n'
    {
      assert raw[k] == text[k - 8];
    }
    assert 8 == |raw| || !IsSpace(raw[8]);
    ReturnsFirstTag(raw, 0, 1, |text|);
    assert raw[0..|raw|] == raw;
  }

  // ---------------------------------------------------------------------------
  // Description and header
  // ---------------------------------------------------------------------------

  /** The description has no blank at either end. */
  lemma DescriptionStripped(formatted: string)
    ensures var d := DescriptionOf(formatted);
      Strip(d) == d && (d == [] || (!IsSpace(d[0]) && !IsSpace(d[|d| - 1])))
  {
    assert ParamPattern[0] == Lit('@') && ReturnPattern[0] == Lit('@');
    var d0 := Strip(DeleteAll(formatted, ParamPattern, 0));
    StripIdempotent(DeleteAll(d0, ReturnPattern, 0));
    StripSpec(DeleteAll(d0, ReturnPattern, 0));
  }

  /** Deleting parameter lines from a text without `@param` changes nothing. */
  lemma DeleteParamsAbsent(s: string)
    requires !Contains(s, "@param")
    ensures StartsWithLit(ParamPattern) && DeleteAll(s, ParamPattern, 0) == s
  {
    var rest := [Plus(Space), Star(Word), Plus(Space), Star(NotNewline)];
    assert ParamPattern == Chars("@param") + rest;
    NoOccurrenceNoMatch(s, "@param", rest, 0);
    assert s[0..] == s;
  }

  /** Deleting return lines from a text without `@return` changes nothing. */
  lemma DeleteReturnsAbsent(s: string)
    requires !Contains(s, "@return")
    ensures StartsWithLit(ReturnPattern) && DeleteAll(s, ReturnPattern, 0) == s
  {
    var rest := [Plus(Space), Star(NotNewline)];
    assert ReturnPattern == Chars("@return") + rest;
    NoOccurrenceNoMatch(s, "@return", rest, 0);
    assert s[0..] == s;
  }

  /** Without parameter or return tags the description is the formatted text, stripped. */
  lemma {:induction false} DescriptionPlain(formatted: string)
    requires !Contains(formatted, "@param") && !Contains(formatted, "@return")
    ensures DescriptionOf(formatted) == Strip(formatted)
  {
    DeleteParamsAbsent(formatted);
    var d := Strip(formatted);
    StripKeepsAbsent(formatted, "@return");
    DeleteReturnsAbsent(d);
    StripIdempotent(formatted);
  }

  /** Stripping cannot create an occurrence. */
  lemma StripKeepsAbsent(s: string, sub: string)
    requires !Contains(s, sub)
    ensures !Contains(Strip(s), sub)
  {
    var d := Strip(s);
    StripSpec(s);
    var i := |s| - |StripLeft(s)|;
    assert s[i..i + |d|] == d;
    AbsentFromSlice(s, i, i + |d|, sub);
  }

  /** The header is the description up to its first line break, or all of
      it when it has none. */
  lemma HeaderFirstLine(description: string)
    ensures var h := HeaderOf(description);
      StartsWith(description, h) && !Contains(h, "\n") &&
      (h == description || OccursAt(description, "\n", |h|)) &&
      (h == description <==> !Contains(description, "\n"))
  {
    var h := HeaderOf(description);
    SplitOnFirst(description, "\n");
    ContainsIffOccurs(description, "\n");
  }

  /** The description paragraph is every line break replaced by `<br/>`, with
      one more `<br/>` after the last line. */
  lemma DescriptionHtmlLines(description: string)
    ensures DescriptionHtml(description) ==
      "<p><code>\n" + Replace(description, "\n", "<br/>") + "<br/></code></p>\n"
  {
    ConcatEachIsJoin(SplitOn(description, "\n"), "<br/>");
    ReplaceIsSplitJoin(description, "\n", "<br/>");
  }

  // ---------------------------------------------------------------------------
  // The function definition
  // ---------------------------------------------------------------------------

  /** `.*\)` from `x`: the repeat runs to the end of the line and gives back
      characters until a closing parenthesis, so it stops at the last one on
      the line; this is what trying `k` characters and fewer yields. */
  lemma {:induction false} LastCloseTry(s: string, x: nat, e: nat, l: nat, k: nat)
    requires x <= e < l <= |s| && s[e] == ')'
    requires forall i :: x <= i < l ==> s[i] != '\n'
    requires forall i :: e < i < l ==> s[i] != ')'
    requires l == |s| || s[l] == '\n'
    requires e - x <= k <= l - x
    ensures TryRun(s, x, [Star(NotNewline), Lit(')')], k) == Some([x, e, e + 1])
    decreases k
  {
    var items := [Star(NotNewline), Lit(')')];
    var close := [Lit(')')];
    assert items[1..] == close && close[1..] == [];
    if x + k == e {
      assert MatchAt(s, e + 1, close[1..]) == Some([e + 1]);
      assert [e] + [e + 1] == [e, e + 1];
      assert MatchAt(s, e, close) == Some([e, e + 1]);
      assert [x] + [e, e + 1] == [x, e, e + 1];
      assert TryRun(s, x, items, k) == Some([x] + [e, e + 1]);
    } else {
      assert MatchAt(s, x + k, close).None?;
      LastCloseTry(s, x, e, l, k - 1);
    }
  }

  /** `.*\)` from `x` ends just after the last closing parenthesis of the line. */
  lemma LastClose(s: string, x: nat, e: nat, l: nat)
    requires x <= e < l <= |s| && s[e] == ')'
    requires forall i :: x <= i < l ==> s[i] != '\n'
    requires forall i :: e < i < l ==> s[i] != ')'
    requires l == |s| || s[l] == '\n'
    ensures MatchAt(s, x, [Star(NotNewline), Lit(')')]) == Some([x, e, e + 1])
  {
    RunLengthIsLongest(s, x, NotNewline, l - x);
    assert RunLength(s, x, NotNewline) == l - x;
    LastCloseTry(s, x, e, l, l - x);
  }

  /** Where the definition pattern matches, `def` occurs. */
  lemma DefMatchAtDef(raw: string, q: nat)
    requires q <= |raw| && MatchAt(raw, q, DefPattern).Some?
    ensures OccursAt(raw, "def", q)
  {
    MatchAtFits(raw, q, DefPattern);
    assert DefPattern == Chars("def") + [Plus(Space), Star(Word), Lit('('), Star(NotNewline), Lit(')')];
    FitsCharsPrefix(raw, "def", [Plus(Space), Star(Word), Lit('('), Star(NotNewline), Lit(')')],
                    MatchAt(raw, q, DefPattern).value);
  }

  /** `def`, blanks, a name of word characters and `(` starting at `q`, each
      piece as long as it goes. */
  lemma {:induction false} DefHeadFits(raw: string, q: nat, w: nat, n: nat)
    requires OccursAt(raw, "def", q) && w >= 1 && q + 4 + w + n <= |raw|
    requires forall k :: q + 3 <= k < q + 3 + w ==> IsSpace(raw[k])
    requires !IsSpace(raw[q + 3 + w])
    requires forall k :: q + 3 + w <= k < q + 3 + w + n ==> IsWord(raw[k])
    requires raw[q + 3 + w + n] == '('
    ensures GreedyFits(raw, Chars("def") + [Plus(Space), Star(Word), Lit('(')],
                       Range(q, 3) + [q + 3, q + 3 + w, q + 3 + w + n, q + 4 + w + n])
  {
    var items := [Plus(Space), Star(Word), Lit('(')];
    var e: seq<nat> := [q + 3, q + 3 + w, q + 3 + w + n, q + 4 + w + n];
    GreedyEnd(raw, items[3..], e[3..]);
    GreedyStep(raw, items[2..], e[2..]);
    GreedyStep(raw, items[1..], e[1..]);
    GreedyStep(raw, items, e);
    GreedyFitsChars(raw, "def", items, e);
  }

  /** The definition record comes from the first match of the pattern. */
  lemma {:induction false} DefinitionOfMatch(raw: string, q: nat, b: seq<nat>)
    requires q <= |raw| && MatchAt(raw, q, DefPattern) == Some(b)
    requires forall q' :: 0 <= q' < q ==> MatchAt(raw, q', DefPattern).None?
    ensures |b| == 9 && b[4] <= b[5] <= b[6] <= b[7] <= |raw|
    ensures var name := raw[b[4]..b[5]];
      DefinitionOf(raw) == (Some(name), Some("def " + name + "( " + raw[b[6]..b[7]] + " )"))
  {
    MatchAtFits(raw, q, DefPattern);
    FitsMonotone(raw, DefPattern, b);
    SearchFinds(raw, DefPattern, 0, q);
    assert DefPattern[0] == Lit('d');
    FindAllFirst(raw, DefPattern, 0);
  }

  /** No name and no code definition exactly when the definition pattern
      matches nowhere in the block; in particular a block without the text
      `def` has neither. */
  lemma DefinitionOfNone(raw: string)
    ensures DefinitionOf(raw).0.None? <==> DefinitionOf(raw).1.None?
    ensures DefinitionOf(raw).0.None? <==> forall q :: 0 <= q <= |raw| ==> MatchAt(raw, q, DefPattern).None?
    ensures (forall q :: 0 <= q <= |raw| ==> !OccursAt(raw, "def", q)) ==> DefinitionOf(raw) == (None, None)
  {
    assert DefPattern[0] == Lit('d');
    FindAllFirst(raw, DefPattern, 0);
    SearchLeftmost(raw, DefPattern, 0);
    if forall q :: 0 <= q <= |raw| ==> !OccursAt(raw, "def", q) {
      forall q | 0 <= q <= |raw|
        ensures MatchAt(raw, q, DefPattern).None?
      {
        if MatchAt(raw, q, DefPattern).Some? {
          DefMatchAtDef(raw, q);
          assert false;
        }
      }
    }
  }

  predicate DefLineAt(raw: string, q: nat, w: nat, n: nat, e: nat, l: nat)
  {
    OccursAt(raw, "def", q) && w >= 1 && q + 4 + w + n <= e < l <= |raw| &&
    (forall k :: q + 3 <= k < q + 3 + w ==> IsSpace(raw[k])) &&
    !IsSpace(raw[q + 3 + w]) &&
    (forall k :: q + 3 + w <= k < q + 3 + w + n ==> IsWord(raw[k])) &&
    raw[q + 3 + w + n] == '(' && raw[e] == ')' &&
    (forall k :: q + 4 + w + n <= k < l ==> raw[k] != '\n') &&
    (forall k :: e < k < l ==> raw[k] != ')') &&
    (l == |raw| || raw[l] == '\n')
  }

  /** The cut points the definition pattern settles on for such a line. */
  lemma {:induction false} DefLineMatch(raw: string, q: nat, w: nat, n: nat, e: nat, l: nat)
    requires DefLineAt(raw, q, w, n, e, l)
    ensures MatchAt(raw, q, DefPattern) == Some(Range(q, 3) + [q + 3, q + 3 + w, q + 3 + w + n, q + 4 + w + n, e, e + 1])
  {
    var x := q + 4 + w + n;
    var head := Chars("def") + [Plus(Space), Star(Word), Lit('(')];
    var tail := [Star(NotNewline), Lit(')')];
    var b1 := Range(q, 3) + [q + 3, q + 3 + w, q + 3 + w + n, x];
    DefHeadFits(raw, q, w, n);
    LastClose(raw, x, e, l);
    assert b1[|head|] == x;
    GreedyPrefix(raw, head, tail, b1, [x, e, e + 1]);
    assert head + tail == DefPattern;
    assert b1[..|head|] + [x, e, e + 1] == Range(q, 3) + [q + 3, q + 3 + w, q + 3 + w + n, x, e, e + 1];
  }

  /** The first `def` of the block, followed by blanks, a name, `(` and the
      rest of the line up to its last `)`, gives the name and the signature
      `def name( parameters )`. */
  lemma {:induction false} DefinitionOfFirstDef(raw: string, q: nat, w: nat, n: nat, e: nat, l: nat)
    requires DefLineAt(raw, q, w, n, e, l)
    requires forall q' :: 0 <= q' < q ==> MatchAt(raw, q', DefPattern).None?
    ensures var name := raw[q + 3 + w..q + 3 + w + n];
      DefinitionOf(raw) == (Some(name), Some("def " + name + "( " + raw[q + 4 + w + n..e] + " )"))
  {
    var b := Range(q, 3) + [q + 3, q + 3 + w, q + 3 + w + n, q + 4 + w + n, e, e + 1];
    DefLineMatch(raw, q, w, n, e, l);
    assert b[4] == q + 3 + w && b[5] == q + 3 + w + n && b[6] == q + 4 + w + n && b[7] == e;
    DefinitionOfMatch(raw, q, b);
  }

  // ---------------------------------------------------------------------------
  // The blocks of a file
  // ---------------------------------------------------------------------------

  /** A block at `pos` is reported, and the scan resumes at its end. */
  lemma BlockStep(s: string, pos: nat)
    requires pos <= |s| && BlockAt(s, pos).Some?
    ensures var e := Last(BlockAt(s, pos).value);
      pos < e <= |s| && FindBlocks(s, pos) == [(pos, e)] + FindBlocks(s, e)
  {
    var t := BlockAt(s, pos).value;
    FitsMonotone(s, BlockTail, t);
  }

  /** Without a block at `pos`, the scan moves on by one character. */
  lemma NoBlockStep(s: string, pos: nat)
    requires pos < |s| && BlockAt(s, pos).None?
    ensures FindBlocks(s, pos) == FindBlocks(s, pos + 1)
  {
  }

  /** `re.findall` scans left to right: it reports nothing exactly when no
      block matches at any position from `pos` on, and otherwise its first
      report is the leftmost block, with the end the engine settles on. */
  lemma {:induction false} FindBlocksLeftmost(s: string, pos: nat)
    requires pos <= |s|
    ensures var bs := FindBlocks(s, pos);
      bs == [] <==> forall q :: pos <= q < |s| ==> BlockAt(s, q).None?
    ensures var bs := FindBlocks(s, pos);
      bs != [] ==> (BlockAt(s, bs[0].0).Some? && bs[0].1 == Last(BlockAt(s, bs[0].0).value) &&
        forall q :: pos <= q < bs[0].0 ==> BlockAt(s, q).None?)
    decreases |s| - pos
  {
    if pos == |s| {
      assert FindBlocks(s, pos) == [];
    } else if BlockAt(s, pos).Some? {
      BlockStep(s, pos);
    } else {
      NoBlockStep(s, pos);
      FindBlocksLeftmost(s, pos + 1);
      var bs := FindBlocks(s, pos);
      if bs != [] {
        forall q | pos <= q < bs[0].0
          ensures BlockAt(s, q).None?
        {
          if q > pos {
            assert pos + 1 <= q < bs[0].0;
          }
        }
      } else {
        forall q | pos <= q < |s|
          ensures BlockAt(s, q).None?
        {
          if q > pos {
            assert pos + 1 <= q < |s|;
          }
        }
      }
    }
  }

  /** Every report is a block the engine matches, with the end it settles on. */
  lemma {:induction false} FindBlocksAreBlocks(s: string, pos: nat, i: nat)
    requires pos <= |s| && i < |FindBlocks(s, pos)|
    ensures var (a, e) := FindBlocks(s, pos)[i];
      BlockAt(s, a).Some? && e == Last(BlockAt(s, a).value)
    decreases |s| - pos
  {
    if BlockAt(s, pos).Some? {
      BlockStep(s, pos);
      var e := Last(BlockAt(s, pos).value);
      if i > 0 {
        FindBlocksAreBlocks(s, e, i - 1);
        DropCons((pos, e), FindBlocks(s, e), i - 1);
      }
    } else {
      NoBlockStep(s, pos);
      FindBlocksAreBlocks(s, pos + 1, i);
    }
  }

  /** After each report the scan resumes where that block ended. */
  lemma {:induction false} FindBlocksResume(s: string, pos: nat, i: nat)
    requires pos <= |s| && i + 1 < |FindBlocks(s, pos)|
    ensures FindBlocks(s, pos)[i].1 <= |s|
    ensures FindBlocks(s, pos)[i + 1..] == FindBlocks(s, FindBlocks(s, pos)[i].1)
    decreases |s| - pos
  {
    if BlockAt(s, pos).Some? {
      BlockStep(s, pos);
      var e := Last(BlockAt(s, pos).value);
      DropCons((pos, e), FindBlocks(s, e), i);
      if i > 0 {
        FindBlocksResume(s, e, i - 1);
      }
    } else {
      NoBlockStep(s, pos);
      FindBlocksResume(s, pos + 1, i);
    }
  }

  /** Indexing and dropping past the head of `[x] + rest`. */
  lemma DropCons<T>(x: T, rest: seq<T>, i: nat)
    requires i <= |rest|
    ensures ([x] + rest)[i + 1..] == rest[i..]
    ensures i < |rest| ==> ([x] + rest)[i + 1] == rest[i]
  {
  }

  /** A text in which no comment opener (slash, two stars) occurs holds no function, so its dictionary is empty. */
  lemma ParseFileWithoutComments(text: string)
    requires forall q :: 0 <= q < |text| ==> !OccursAt(text, "/**", q)
    ensures ParseFile(text) == []
  {
    FindBlocksLeftmost(text, 0);
  }
}

=== FILE: ordered_maps.dfy ===
/**
 * Python's insertion-ordered dictionary (`collections.OrderedDict`, and the
 * ordering every `dict` keeps), as a sequence of (key, value) entries.
 * Assigning `d[k] = v` keeps an existing key where it is and replaces its
 * value; a new key goes to the end.
 */
module OrderedMaps {
  import opened PyTypes

  function Keys<K, V>(m: seq<(K, V)>): (ks: seq<K>)
    ensures |ks| == |m|
    ensures forall i :: 0 <= i < |m| ==> ks[i] == m[i].0
  {
    seq(|m|, i requires 0 <= i < |m| => m[i].0)
  }

  /** `list(d.values())` */
  function Values<K, V>(m: seq<(K, V)>): (vs: seq<V>)
    ensures |vs| == |m|
    ensures forall i :: 0 <= i < |m| ==> vs[i] == m[i].1
  {
    seq(|m|, i requires 0 <= i < |m| => m[i].1)
  }

  predicate Distinct<K(==)>(ks: seq<K>)
  {
    forall i, j :: 0 <= i < j < |ks| ==> ks[i] != ks[j]
  }

  /** `d.get(k)` */
  function Get<K(==), V>(m: seq<(K, V)>, k: K): Option<V>
  {
    if m == [] then None
    else if m[0].0 == k then Some(m[0].1)
    else Get(m[1..], k)
  }

  /** `d[k] = v` */
  function Put<K(==), V>(m: seq<(K, V)>, k: K, v: V): seq<(K, V)>
  {
    if m == [] then [(k, v)]
    else if m[0].0 == k then [(k, v)] + m[1..]
    else [m[0]] + Put(m[1..], k, v)
  }

  /** Build a dictionary by assigning the pairs one after the other. */
  function FromPairs<K(==), V>(ps: seq<(K, V)>): seq<(K, V)>
  {
    if ps == [] then [] else Put(FromPairs(ps[..|ps| - 1]), ps[|ps| - 1].0, ps[|ps| - 1].1)
  }

  // ---------------------------------------------------------------------------
  // Reference definitions
  // ---------------------------------------------------------------------------

  /** The keys in the order of their first occurrence, each once. */
  function FirstOccurrences<K(==)>(ks: seq<K>): seq<K>
  {
    if ks == [] then []
    else
      var d := FirstOccurrences(ks[..|ks| - 1]);
      if ks[|ks| - 1] in d then d else d + [ks[|ks| - 1]]
  }

  /** The value of the last pair with key `k`, if any. */
  function LastValue<K(==), V>(ps: seq<(K, V)>, k: K): Option<V>
  {
    if ps == [] then None
    else if ps[|ps| - 1].0 == k then Some(ps[|ps| - 1].1)
    else LastValue(ps[..|ps| - 1], k)
  }

  // ---------------------------------------------------------------------------
  // Put
  // ---------------------------------------------------------------------------

  /** An assignment keeps the key order, appending the key only if it is new. */
  lemma {:induction false} PutKeys<K, V>(m: seq<(K, V)>, k: K, v: V)
    ensures Keys(Put(m, k, v)) == if k in Keys(m) then Keys(m) else Keys(m) + [k]
  {
    if m != [] && m[0].0 != k {
      PutKeys(m[1..], k, v);
      assert Keys(m) == [m[0].0] + Keys(m[1..]);
      assert Keys(Put(m, k, v)) == [m[0].0] + Keys(Put(m[1..], k, v));
    } else if m != [] {
      assert Keys(Put(m, k, v)) == [k] + Keys(m[1..]);
      assert Keys(m) == [k] + Keys(m[1..]);
    }
  }

  /** After `d[k] = v`, `d[k]` is `v` and every other key is unaffected. */
  lemma {:induction false} PutGet<K, V>(m: seq<(K, V)>, k: K, v: V, k': K)
    ensures Get(Put(m, k, v), k') == if k' == k then Some(v) else Get(m, k')
  {
    if m != [] && m[0].0 != k {
      PutGet(m[1..], k, v, k');
    }
  }

  /** An existing key keeps its position; only its value changes. */
  lemma {:induction false} PutInPlace<K, V>(m: seq<(K, V)>, k: K, v: V, i: nat)
    requires i < |m| && m[i].0 == k && k !in Keys(m[..i])
    ensures var r := Put(m, k, v);
      |r| == |m| && r[i] == (k, v) && forall j :: 0 <= j < |m| && j != i ==> r[j] == m[j]
  {
    if i > 0 {
      assert m[0].0 == Keys(m[..i])[0];
      assert Keys(m[1..][..i - 1]) == Keys(m[..i])[1..];
      PutInPlace(m[1..], k, v, i - 1);
    }
  }

  // ---------------------------------------------------------------------------
  // FromPairs
  // ---------------------------------------------------------------------------

  /** Assigning pairs one by one yields each key once, in order of first
      assignment, holding the value of the last assignment. */
  lemma {:induction false} FromPairsSpec<K, V>(ps: seq<(K, V)>)
    ensures Keys(FromPairs(ps)) == FirstOccurrences(Keys(ps))
    ensures forall k :: Get(FromPairs(ps), k) == LastValue(ps, k)
  {
    if ps != [] {
      var init := ps[..|ps| - 1];
      var last := ps[|ps| - 1];
      FromPairsSpec(init);
      assert Keys(ps)[..|ps| - 1] == Keys(init);
      PutKeys(FromPairs(init), last.0, last.1);
      forall k
        ensures Get(FromPairs(ps), k) == LastValue(ps, k)
      {
        PutGet(FromPairs(init), last.0, last.1, k);
      }
    }
  }

  /** The first-occurrence list holds every key exactly once. */
  lemma {:induction false} FirstOccurrencesSpec<K>(ks: seq<K>)
    ensures Distinct(FirstOccurrences(ks))
    ensures forall k :: k in FirstOccurrences(ks) <==> k in ks
  {
    if ks != [] {
      var init := ks[..|ks| - 1];
      FirstOccurrencesSpec(init);
      assert ks == init + [ks[|ks| - 1]];
    }
  }

  /** Keys of a dictionary built by assignment are distinct. */
  lemma FromPairsDistinct<K, V>(ps: seq<(K, V)>)
    ensures Distinct(Keys(FromPairs(ps)))
  {
    FromPairsSpec(ps);
    FirstOccurrencesSpec(Keys(ps));
  }
}

=== FILE: page_manager.dfy ===
/**
 * The page manager's pure decisions: recognising and taking apart Confluence
 * page URLs, filling the configured template variables into the HTML
 * template, choosing the credentials, and choosing between creating a page
 * and updating an existing one. The configuration file, the environment and
 * the server's answers are parameters.
 */
module PageManager {
  import opened PyTypes
  import opened Text
  import opened Patterns
  import ConfluenceApi

  // ---------------------------------------------------------------------------
  // URL patterns
  // ---------------------------------------------------------------------------

  /** The host, port and path part of a page URL:
      `[-\w_.]*:?\d{0,5}(.*)`, items 8..11. */
  const UrlTail: seq<Item> :=
    [Star(UrlHostChar), Opt(':'), Run(Digit, 0, AtMost(5)), Star(NotNewline)]

  /** `https?://[-\w_.]*:?\d{0,5}(.*)`: the path is items 11..11. */
  const UrlPattern: seq<Item> :=
    Chars("http") + ([Opt('s')] + (Chars("://") + UrlTail))

  /** After `/display/`: `([-\w_?~]*)/(.*)`. */
  const DisplayTail: seq<Item> :=
    [Star(SpaceKeyChar), Lit('/'), Star(NotNewline)]

  /** `/display/([-\w_?~]*)/(.*)`: the space is items 9..9, the title items 11..11. */
  const DisplayPattern: seq<Item> := Chars("/display/") + DisplayTail

  /** `.*pageId=(\d+)$`: the id is items 8..8. */
  const IdPattern: seq<Item> :=
    [Star(NotNewline)] + (Chars("pageId=") + [Plus(Digit), EndAnchor])

  // ---------------------------------------------------------------------------
  // URL helpers
  // ---------------------------------------------------------------------------

  /** `is_url`: the URL pattern matches at the start. */
  predicate IsUrl(url: string)
  {
    MatchAt(url, 0, UrlPattern).Some?
  }

  /** `is_id_in_url`: the page-id pattern matches at the start. */
  predicate IsIdInUrl(url: string)
  {
    MatchAt(url, 0, IdPattern).Some?
  }

  /** The path part of a URL (group 1 of the URL pattern matched at the
      start). `error` is raised when the pattern occurs nowhere; when it
      occurs only later in the text, `re.match` gives `None` and taking its
      group raises `AttributeError`. */
  function UrlData(url: string, error: PyError): Result<string>
  {
    if Search(url, UrlPattern, 0).None? then Err(error)
    else
      match MatchAt(url, 0, UrlPattern)
      case None => Err(AttributeError)
      case Some(b) =>
        MatchAtFits(url, 0, UrlPattern);
        FitsMonotone(url, UrlPattern, b);
        Ok(Group(url, b, 11, 12))
  }

  /** `get_id_from_url`: the digits after `pageId=` at the end of the path. */
  function GetIdFromUrl(url: string): Result<string>
  {
    var data :- UrlData(url, GenericException("pageId not found in URL: \"" + url + "\""));
    match MatchAt(data, 0, IdPattern)
    case None => Err(AttributeError)
    case Some(b) =>
      MatchAtFits(data, 0, IdPattern);
      FitsMonotone(data, IdPattern, b);
      Ok(Group(data, b, 8, 9))
  }

  /** The two groups of the display pattern matched at the start of the path. */
  function DisplayGroups(data: string): Result<(string, string)>
  {
    match MatchAt(data, 0, DisplayPattern)
    case None => Err(AttributeError)
    case Some(b) =>
      MatchAtFits(data, 0, DisplayPattern);
      FitsMonotone(data, DisplayPattern, b);
      Ok((Group(data, b, 9, 10), Group(data, b, 11, 12)))
  }

  /** `get_space_from_url`: the segment after `/display/`. */
  function GetSpaceFromUrl(url: string): Result<string>
  {
    var data :- UrlData(url, GenericException("Confluence space not found in URL: \"" + url + "\""));
    var groups :- DisplayGroups(data);
    Ok(groups.0)
  }

  /** `get_page_title_from_url`: the rest after `/display/<space>/`, with
      every `+` turned into a space when `formatted` is set. */
  function GetPageTitleFromUrl(url: string, formatted: bool): Result<string>
  {
    var data :- UrlData(url, GenericException("Confluence page title not found in URL: \"" + url + "\""));
    var groups :- DisplayGroups(data);
    Ok(if formatted then Replace(groups.1, "+", " ") else groups.1)
  }

  // ---------------------------------------------------------------------------
  // Template variables
  // ---------------------------------------------------------------------------

  /** `_replace_variables_in_template`: for each configured (key, value), in
      order, every occurrence of the key is replaced when the key occurs. */
  function ReplaceVariables(template: string, vars: seq<(string, string)>): string
    decreases |vars|
  {
    if vars == [] then template
    else
      var (k, v) := vars[0];
      var t := if Contains(template, k) then Replace(template, k, v) else template;
      ReplaceVariables(t, vars[1..])
  }

  /** Reference: replacing every key in order, with no occurrence test. */
  function ReplaceEach(template: string, vars: seq<(string, string)>): string
    decreases |vars|
  {
    if vars == [] then template else ReplaceEach(Replace(template, vars[0].0, vars[0].1), vars[1..])
  }

  // ---------------------------------------------------------------------------
  // Credentials
  // ---------------------------------------------------------------------------

  const EnvPrefix := "env."

  /** A configured credential: a value that names an environment variable
      (`env.` anywhere, in any case) is looked up there, otherwise it is
      taken as it is. Only the lower-case `env.` is removed from the name. */
  function ResolveCredential(configured: string, env: map<string, string>): Result<string>
  {
    if Contains(ToLower(Strip(configured)), EnvPrefix) then
      var name := Replace(Strip(configured), EnvPrefix, "");
      if name in env then Ok(env[name])
      else Err(AssertionError("Environment variable \"" + name + "\" does not exist. "
                              + "Please configure it with the confluence credentials"))
    else Ok(configured)
  }

  /** The user and password the manager authenticates with: both arguments
      when both are given, otherwise both resolved from the configuration,
      the user first. */
  function ResolveCredentials(user: Option<string>, password: Option<string>,
                              configUser: string, configPassword: string,
                              env: map<string, string>): Result<(string, string)>
  {
    if user.Some? && password.Some? then Ok((user.value, password.value))
    else
      var u :- ResolveCredential(configUser, env);
      var p :- ResolveCredential(configPassword, env);
      Ok((u, p))
  }

  // ---------------------------------------------------------------------------
  // Create or update
  // ---------------------------------------------------------------------------

  /** What `generate_page` does with the server. */
  datatype Plan =
    | CreatePage
    | UpdatePage(version: string)

  /** The link `base_url + permanent_link` can be built: the permanent link
      is always text, and `+` joins it only to a text base URL. */
  predicate LinkIsText(existing: ConfluenceApi.Page)
  {
    existing.baseUrl.Some? && existing.baseUrl.value.JStr?
  }

  /** Update the existing page, with the next version number, only when it
      exists and overwriting was asked for; create a page otherwise.
      `existing` is the page the server returns for the configured title and
      space, read only on the update path. That path first builds the page's
      link for a debug message, which raises `TypeError` when the response
      carried no text `_links.base`, and only then reads the version. */
  function GeneratePlan(pageExists: bool, overwrite: bool, existing: ConfluenceApi.Page): Result<Plan>
  {
    if pageExists && overwrite then
      if !LinkIsText(existing) then Err(TypeError)
      else
        var v :- ConfluenceApi.NextPageVersion(existing.version);
        Ok(UpdatePage(v))
    else Ok(CreatePage)
  }

  // ---------------------------------------------------------------------------
  // Properties
  // ---------------------------------------------------------------------------

  /** The occurrence test is redundant: filling the variables is replacing
      every key in order, each replacement acting on the text produced by the
      ones before it. */
  lemma {:induction false} ReplaceVariablesIsEach(template: string, vars: seq<(string, string)>)
    ensures ReplaceVariables(template, vars) == ReplaceEach(template, vars)
    decreases |vars|
  {
    if vars != [] {
      var (k, v) := vars[0];
      if !Contains(template, k) {
        assert k != [];
        ReplaceAbsent(template, k, v);
      }
      ReplaceVariablesIsEach(Replace(template, k, v), vars[1..]);
    }
  }

  /** A template in which no configured key occurs is left as it is. */
  lemma {:induction false} ReplaceVariablesNoKey(template: string, vars: seq<(string, string)>)
    requires forall i :: 0 <= i < |vars| ==> !Contains(template, vars[i].0)
    ensures ReplaceVariables(template, vars) == template
    decreases |vars|
  {
    if vars != [] {
      ReplaceVariablesNoKey(template, vars[1..]);
    }
  }

  /** User and password given together always win over the configuration. */
  lemma CredentialsGivenWin(user: string, password: string, configUser: string, configPassword: string,
                            env: map<string, string>)
    ensures ResolveCredentials(Some(user), Some(password), configUser, configPassword, env) == Ok((user, password))
  {
  }

  /** With only one of them given, both come from the configuration; the
      user is resolved first, so its error is the one raised. */
  lemma CredentialsFromConfig(user: Option<string>, password: Option<string>,
                              configUser: string, configPassword: string, env: map<string, string>)
    requires user.None? || password.None?
    ensures var r := ResolveCredentials(user, password, configUser, configPassword, env);
      var u := ResolveCredential(configUser, env);
      var p := ResolveCredential(configPassword, env);
      r == if u.Err? then Err(u.error) else if p.Err? then Err(p.error) else Ok((u.value, p.value))
  {
  }

  /** A value that does not mention `env.` (in any case) is the credential itself, untouched. */
  lemma CredentialPlain(configured: string, env: map<string, string>)
    requires !Contains(ToLower(Strip(configured)), EnvPrefix)
    ensures ResolveCredential(configured, env) == Ok(configured)
  {
  }

  /** The text of an environment reference, `env.` followed by the variable name. */
  lemma EnvReferenceShape(prefix: string, name: string)
    requires |prefix| == 4 && ToLower(prefix) == EnvPrefix
    requires name == [] || !IsSpace(name[|name| - 1])
    ensures Strip(prefix + name) == prefix + name
    ensures Contains(ToLower(Strip(prefix + name)), EnvPrefix)
  {
    var t := prefix + name;
    assert !IsSpace(t[0]) by {
      assert Lower(t[0]) == 'e';
    }
    assert t[|t| - 1] == if name == [] then prefix[3] else name[|name| - 1];
    assert !IsSpace(prefix[3]) by {
      assert Lower(prefix[3]) == '.';
    }
    StripUnpadded(t);
    assert ToLower(t)[..4] == EnvPrefix;
  }

  /** Both spellings of the prefix lower to `env.`. */
  lemma EnvPrefixLowered()
    ensures ToLower(EnvPrefix) == EnvPrefix && ToLower("ENV.") == EnvPrefix
  {
    assert ToLower(EnvPrefix)[0] == 'e';
  }

  /** A value made of a four-character prefix spelling `env.` in any case,
      then a name, is an environment reference; the key looked up is the
      value with every lower-case `env.` removed. */
  lemma CredentialReference(prefix: string, name: string, env: map<string, string>)
    requires |prefix| == 4 && ToLower(prefix) == EnvPrefix
    requires name == [] || !IsSpace(name[|name| - 1])
    ensures var key := Replace(prefix + name, EnvPrefix, "");
      var r := ResolveCredential(prefix + name, env);
      (key in env ==> r == Ok(env[key])) && (key !in env ==> r.Err? && r.error.AssertionError?)
  {
    EnvReferenceShape(prefix, name);
    ResolveNamed(prefix + name, env, Replace(prefix + name, EnvPrefix, ""));
  }

  /** `env.NAME` is looked up as `NAME`; a missing variable raises `AssertionError`. */
  lemma CredentialFromEnv(name: string, env: map<string, string>)
    requires !Contains(name, EnvPrefix) && (name == [] || !IsSpace(name[|name| - 1]))
    ensures var r := ResolveCredential(EnvPrefix + name, env);
      (name in env ==> r == Ok(env[name])) && (name !in env ==> r.Err? && r.error.AssertionError?)
  {
    EnvPrefixLowered();
    CredentialReference(EnvPrefix, name, env);
    EnvPrefixRemoved(name);
  }

  /** The test for `env.` ignores case but its removal does not: `ENV.NAME`
      is looked up under the name `ENV.NAME` itself. */
  lemma CredentialUpperCaseEnv(name: string, env: map<string, string>)
    requires !Contains(name, EnvPrefix) && (name == [] || !IsSpace(name[|name| - 1]))
    ensures var r := ResolveCredential("ENV." + name, env);
      ("ENV." + name in env ==> r == Ok(env["ENV." + name])) && ("ENV." + name !in env ==> r.Err?)
  {
    EnvPrefixLowered();
    CredentialReference("ENV.", name, env);
    UpperPrefixAbsent(name);
    ReplaceAbsent("ENV." + name, EnvPrefix, "");
  }

  /** Removing `env.` from `env.NAME` leaves `NAME` when it holds no other `env.`. */
  lemma EnvPrefixRemoved(name: string)
    requires !Contains(name, EnvPrefix)
    ensures Replace(EnvPrefix + name, EnvPrefix, "") == name
  {
    ReplaceAtStart(EnvPrefix, name, "");
    ReplaceAbsent(name, EnvPrefix, "");
  }

  /** A reference to the variable `name` resolves to its value, or fails. */
  lemma ResolveNamed(configured: string, env: map<string, string>, name: string)
    requires Contains(ToLower(Strip(configured)), EnvPrefix)
    requires Replace(Strip(configured), EnvPrefix, "") == name
    ensures name in env ==> ResolveCredential(configured, env) == Ok(env[name])
    ensures name !in env ==> ResolveCredential(configured, env).Err? && ResolveCredential(configured, env).error.AssertionError?
  {
  }

  /** `env.` does not occur in `ENV.` followed by a text without it. */
  lemma UpperPrefixAbsent(name: string)
    requires !Contains(name, EnvPrefix)
    ensures !Contains("ENV." + name, EnvPrefix)
  {
    var t := "ENV." + name;
    ContainsIffOccurs(t, EnvPrefix);
    ContainsIffOccurs(name, EnvPrefix);
    forall i | 0 <= i
      ensures !OccursAt(t, EnvPrefix, i)
    {
      if i < 4 && i + 4 <= |t| {
        assert t[i..i + 4][0] == t[i];
      } else if 4 <= i && i + 4 <= |t| {
        assert t[i..i + 4] == name[i - 4..i];
        assert !OccursAt(name, EnvPrefix, i - 4);
      }
    }
  }

  /** The page is updated exactly when it exists and overwriting is asked
      for; the new version is the current one plus one, whether the server
      sent the version as a number or as its decimal text. */
  lemma GeneratePlanSpec(pageExists: bool, overwrite: bool, existing: ConfluenceApi.Page, current: int)
    ensures !(pageExists && overwrite) ==> GeneratePlan(pageExists, overwrite, existing) == Ok(CreatePage)
    ensures (pageExists && overwrite && LinkIsText(existing) &&
      ConfluenceApi.PyStr(existing.version) == Some(IntToString(current))) ==>
      GeneratePlan(pageExists, overwrite, existing) == Ok(UpdatePage(IntToString(current + 1)))
  {
    NextVersionOf(current);
  }

  /** Creating never fails. Updating fails with `TypeError` when the page
      has no text base URL, and otherwise with `ValueError` exactly when its
      version is not read back as an integer. */
  lemma GeneratePlanErrors(pageExists: bool, overwrite: bool, existing: ConfluenceApi.Page)
    ensures GeneratePlan(pageExists, overwrite, existing).Err? <==>
      pageExists && overwrite && (!LinkIsText(existing) || ConfluenceApi.NextPageVersion(existing.version).Err?)
    ensures pageExists && overwrite && !LinkIsText(existing) ==>
      GeneratePlan(pageExists, overwrite, existing) == Err(TypeError)
    ensures LinkIsText(existing) && GeneratePlan(pageExists, overwrite, existing).Err? ==>
      GeneratePlan(pageExists, overwrite, existing).error.ValueError?
  {
  }

  /** A page read from a response without `_links` has no base URL, so it
      can be created but never updated. */
  lemma GeneratePlanWithoutBase(top: ConfluenceApi.Json)
    requires top.JObj? && "_links" !in top.fields && ConfluenceApi.ParsePage(top).Ok?
    ensures GeneratePlan(true, true, ConfluenceApi.ParsePage(top).value) == Err(TypeError)
  {
  }
}

=== FILE: page_manager_facts.dfy ===
/**
 * What the page manager's URL helpers accept and what they extract: the URL
 * pattern matches exactly at `http://` and `https://`, the descriptive error
 * is raised exactly when neither occurs, and for a URL made of scheme, host,
 * optional port and path, the path, space, title and page id come out as the
 * pieces they were made of.
 */
module PageManagerFacts {
  import opened PyTypes
  import opened Text
  import opened Patterns
  import opened PageManager

  // ---------------------------------------------------------------------------
  // Where the URL pattern matches
  // ---------------------------------------------------------------------------

  /** The URL pattern after its leading `http`. */
  const AfterHttp: seq<Item> := [Opt('s')] + (Chars("://") + UrlTail)

  /** A URL scheme starts at `q`. */
  predicate SchemeAt(s: string, q: int)
  {
    OccursAt(s, "http://", q) || OccursAt(s, "https://", q)
  }

  /** Any fit of the URL pattern starts with a scheme. */
  lemma {:induction false} UrlFitsScheme(s: string, b: seq<nat>)
    requires Fits(s, UrlPattern, b)
    ensures SchemeAt(s, b[0])
  {
    var q := b[0];
    FitsCharsSplit(s, "http", AfterHttp, b);
    var c := b[4..];
    assert AfterHttp[0] == Opt('s') && AfterHttp[1..] == Chars("://") + UrlTail;
    assert ItemFits(s, Opt('s'), c[0], c[1]) && Fits(s, Chars("://") + UrlTail, c[1..]);
    FitsCharsSplit(s, "://", UrlTail, c[1..]);
    SchemeOfParts(s, q, c[1]);
  }

  /** `http`, an optional `s`, then `://`: a scheme. */
  lemma SchemeOfParts(s: string, q: nat, m: nat)
    requires OccursAt(s, "http", q) && OccursAt(s, "://", m)
    requires m == q + 4 || (m == q + 5 && s[q + 4] == 's')
    ensures SchemeAt(s, q)
  {
    if m == q + 5 {
      assert s[q + 4..q + 5] == "s";
      OccursThen(s, "http", "s", q);
      OccursThen(s, "http" + "s", "://", q);
      assert "http" + "s" + "://" == "https://";
    } else {
      OccursThen(s, "http", "://", q);
      assert "http" + "://" == "http://";
    }
  }

  /** Behind a scheme the pattern fits with every later part empty. */
  lemma {:induction false} SchemeFits(s: string, q: nat, l: nat)
    requires l == 4 || l == 5
    requires OccursAt(s, "http", q) && OccursAt(s, "://", q + l) && (l == 5 ==> s[q + 4] == 's')
    ensures var e := q + l + 3;
      Fits(s, UrlPattern, Range(q, 4) + ([q + 4] + (Range(q + l, 3) + [e, e, e, e, e])))
  {
    var e := q + l + 3;
    var t: seq<nat> := [e, e, e, e, e];
    forall i | 0 <= i < 4
      ensures ItemFits(s, UrlTail[i], t[i], t[i + 1])
    {
    }
    FitsIffEach(s, UrlTail, t);
    FitsCharsThen(s, "://", UrlTail, t);
    var t2 := Range(q + l, 3) + t;
    assert t2[0] == q + l;
    assert ItemFits(s, Opt('s'), q + 4, q + l) by {
      if l == 5 {
        assert s[q + 4] == 's';
      }
    }
    FitsCons(s, Opt('s'), Chars("://") + UrlTail, q + 4, t2);
    FitsCharsThen(s, "http", AfterHttp, [q + 4] + t2);
  }

  /** Wherever a scheme starts, the URL pattern matches. */
  lemma SchemeMatches(s: string, q: nat)
    requires q <= |s| && SchemeAt(s, q)
    ensures MatchAt(s, q, UrlPattern).Some?
  {
    var l := if OccursAt(s, "https://", q) then 5 else 4;
    assert s[q..q + 4] == s[q..q + l + 3][..4];
    assert s[q + l..q + l + 3] == s[q..q + l + 3][l..];
    SchemeFits(s, q, l);
    var e := q + l + 3;
    MatchAtPreferred(s, q, UrlPattern, Range(q, 4) + ([q + 4] + (Range(q + l, 3) + [e, e, e, e, e])));
  }

  /** The URL pattern matches at `q` exactly when a scheme starts there:
      every part after `://` may be empty. */
  lemma UrlMatchIff(s: string, q: nat)
    requires q <= |s|
    ensures MatchAt(s, q, UrlPattern).Some? <==> SchemeAt(s, q)
  {
    if MatchAt(s, q, UrlPattern).Some? {
      MatchAtFits(s, q, UrlPattern);
      UrlFitsScheme(s, MatchAt(s, q, UrlPattern).value);
    }
    if SchemeAt(s, q) {
      SchemeMatches(s, q);
    }
  }

  /** `is_url` holds exactly for texts that start with `http://` or `https://`. */
  lemma IsUrlIff(url: string)
    ensures IsUrl(url) <==> StartsWith(url, "http://") || StartsWith(url, "https://")
  {
    UrlMatchIff(url, 0);
  }

  /** The URL pattern is found somewhere exactly when `http://` or
      `https://` occurs somewhere. */
  lemma {:induction false} UrlSearchIff(url: string)
    ensures Search(url, UrlPattern, 0).None? <==> !Contains(url, "http://") && !Contains(url, "https://")
  {
    SearchNone(url, UrlPattern, 0);
    ContainsIffOccurs(url, "http://");
    ContainsIffOccurs(url, "https://");
    if Contains(url, "http://") {
      var q :| OccursAt(url, "http://", q);
      UrlMatchIff(url, q);
    }
    if Contains(url, "https://") {
      var q :| OccursAt(url, "https://", q);
      UrlMatchIff(url, q);
    }
    if Search(url, UrlPattern, 0).Some? {
      var q := Search(url, UrlPattern, 0).value[0];
      UrlMatchIff(url, q);
    }
  }

  /** The helpers raise their own descriptive error exactly when the text
      holds no scheme at all; a scheme that occurs only later in the text
      gives `AttributeError`, and a text that starts with one gives a path. */
  lemma UrlDataErrors(url: string, error: PyError)
    requires error.GenericException?
    ensures UrlData(url, error) == Err(error) <==> !Contains(url, "http://") && !Contains(url, "https://")
    ensures UrlData(url, error) == Err(AttributeError) <==>
      (Contains(url, "http://") || Contains(url, "https://")) && !IsUrl(url)
    ensures UrlData(url, error).Ok? <==> IsUrl(url)
  {
    UrlSearchIff(url);
    if IsUrl(url) {
      assert Search(url, UrlPattern, 0).Some?;
    }
  }

  // ---------------------------------------------------------------------------
  // What the URL pattern extracts
  // ---------------------------------------------------------------------------

  /** `http` or `https`. */
  function Scheme(secure: bool): string
  {
    if secure then "https" else "http"
  }

  /** A run of host characters `[-\w_.]`. */
  predicate HostText(host: string)
  {
    forall k :: 0 <= k < |host| ==> InClass(UrlHostChar, host[k])
  }

  /** No line break. */
  predicate OneLine(s: string)
  {
    forall k :: 0 <= k < |s| ==> s[k] != '\n'
  }

  /** `url` read as scheme (`l` characters), `://`, a host of `h` characters,
      `c` colons and `p` port digits, then the path up to the end; each run
      stops where the next character cannot extend it. */
  predicate UrlShape(url: string, l: nat, h: nat, c: nat, p: nat)
  {
    (l == 4 || l == 5) && c <= 1 && p <= 5 && l + 3 + h + c + p <= |url| &&
    OccursAt(url, "http", 0) && OccursAt(url, "://", l) && (l == 5 ==> url[4] == 's') &&
    var hEnd, pEnd := l + 3 + h, l + 3 + h + c + p;
    (forall k :: l + 3 <= k < hEnd ==> InClass(UrlHostChar, url[k])) &&
    (hEnd == |url| || !InClass(UrlHostChar, url[hEnd])) &&
    (c == 1 ==> url[hEnd] == ':') && (c == 0 ==> hEnd == |url| || url[hEnd] != ':') &&
    (forall k :: hEnd + c <= k < pEnd ==> IsDigit(url[k])) &&
    (p == 5 || pEnd == |url| || !IsDigit(url[pEnd])) &&
    (forall k :: pEnd <= k < |url| ==> url[k] != '\n')
  }

  /** Host, colon, port and path, each as long as it goes. */
  lemma {:induction false} UrlTailGreedy(url: string, l: nat, h: nat, c: nat, p: nat)
    requires UrlShape(url, l, h, c, p)
    ensures GreedyFits(url, UrlTail, [l + 3, l + 3 + h, l + 3 + h + c, l + 3 + h + c + p, |url|])
  {
    var b: seq<nat> := [l + 3, l + 3 + h, l + 3 + h + c, l + 3 + h + c + p, |url|];
    forall i | 0 <= i < 4
      ensures ItemFits(url, UrlTail[i], b[i], b[i + 1])
      ensures UrlTail[i].Run? ==> Maximal(url, UrlTail[i], b[i], b[i + 1])
    {
    }
    assert GreedyEach(url, UrlTail, b);
    GreedyIffEach(url, UrlTail, b);
  }

  /** The cut points of the URL pattern on such a URL. */
  function UrlCuts(url: string, l: nat, h: nat, c: nat, p: nat): seq<nat>
  {
    Range(0, 4) + ([4] + (Range(l, 3) + [l + 3, l + 3 + h, l + 3 + h + c, l + 3 + h + c + p, |url|]))
  }

  /** The URL pattern matches such a URL at the start, greedily. */
  lemma {:induction false} UrlShapeMatch(url: string, l: nat, h: nat, c: nat, p: nat)
    requires UrlShape(url, l, h, c, p)
    ensures MatchAt(url, 0, UrlPattern) == Some(UrlCuts(url, l, h, c, p))
  {
    var t2 := Range(l, 3) + [l + 3, l + 3 + h, l + 3 + h + c, l + 3 + h + c + p, |url|];
    AfterHttpGreedy(url, l, h, c, p);
    GreedyFitsChars(url, "http", AfterHttp, [4] + t2);
    GreedyMatch(url, 0, UrlPattern, UrlCuts(url, l, h, c, p));
  }

  /** Everything after `http`, each part as long as it goes. */
  lemma {:induction false} AfterHttpGreedy(url: string, l: nat, h: nat, c: nat, p: nat)
    requires UrlShape(url, l, h, c, p)
    ensures OccursAt(url, "http", 0)
    ensures GreedyFits(url, AfterHttp, [4] + (Range(l, 3) + [l + 3, l + 3 + h, l + 3 + h + c, l + 3 + h + c + p, |url|]))
  {
    var t: seq<nat> := [l + 3, l + 3 + h, l + 3 + h + c, l + 3 + h + c + p, |url|];
    UrlTailGreedy(url, l, h, c, p);
    GreedyFitsChars(url, "://", UrlTail, t);
    var t2 := Range(l, 3) + t;
    assert t2[0] == l;
    assert AfterHttp[1..] == Chars("://") + UrlTail;
    assert ([4] + t2)[1..] == t2;
    assert url[l] == ':';
    GreedyStep(url, AfterHttp, [4] + t2);
  }

  /** On such a URL the helpers' path is everything after the port. */
  lemma {:induction false} UrlShapeData(url: string, l: nat, h: nat, c: nat, p: nat, error: PyError)
    requires UrlShape(url, l, h, c, p)
    ensures UrlData(url, error) == Ok(url[l + 3 + h + c + p..])
  {
    var b := UrlCuts(url, l, h, c, p);
    UrlShapeMatch(url, l, h, c, p);
    UrlCutsPath(url, l, h, c, p);
    MatchAtFits(url, 0, UrlPattern);
    FitsMonotone(url, UrlPattern, b);
    assert Search(url, UrlPattern, 0).Some?;
    assert UrlData(url, error) == Ok(Group(url, b, 11, 12));
    assert Group(url, b, 11, 12) == url[l + 3 + h + c + p..];
  }

  /** Where the path group sits among the cut points. */
  lemma UrlCutsPath(url: string, l: nat, h: nat, c: nat, p: nat)
    ensures var b := UrlCuts(url, l, h, c, p);
      |b| == 13 && b[11] == l + 3 + h + c + p && b[12] == |url|
  {
  }

  /** The URL shape, from the pieces the URL is cut into. */
  lemma {:induction false} UrlShapeOfPieces(url: string, scheme: string, host: string, port: string, data: string)
    requires scheme == "http" || scheme == "https"
    requires HostText(host) && OneLine(data)
    requires port == [] || (port[0] == ':' && |port| <= 6 && AllDigits(port[1..]))
    requires data != [] ==> !InClass(UrlHostChar, data[0]) && data[0] != ':'
    requires |url| == |scheme| + 3 + |host| + |port| + |data|
    requires url[..|scheme|] == scheme && url[|scheme|..|scheme| + 3] == "://"
    requires url[|scheme| + 3..|scheme| + 3 + |host|] == host
    requires url[|scheme| + 3 + |host|..|scheme| + 3 + |host| + |port|] == port
    requires url[|scheme| + 3 + |host| + |port|..] == data
    ensures UrlShape(url, |scheme|, |host|, if port == [] then 0 else 1, if port == [] then 0 else |port| - 1)
  {
    var l, h := |scheme|, |host|;
    SchemePieces(url, scheme);
    ClassSlice(url, l + 3, l + 3 + h, host, UrlHostChar);
    PortDataPieces(url, l + 3 + h, port, data);
  }

  /** The scheme and `://` at the start of a URL. */
  lemma SchemePieces(url: string, scheme: string)
    requires scheme == "http" || scheme == "https"
    requires |scheme| + 3 <= |url| && url[..|scheme|] == scheme && url[|scheme|..|scheme| + 3] == "://"
    ensures OccursAt(url, "http", 0) && OccursAt(url, "://", |scheme|) && (|scheme| == 5 ==> url[4] == 's')
  {
    assert url[..4] == scheme[..4];
    if |scheme| == 5 {
      assert url[4] == scheme[4];
    }
  }

  /** What follows the host: an optional `:` with up to five digits, then a
      one-line path that starts with neither a host character nor `:`. */
  lemma PortDataPieces(url: string, at: nat, port: string, data: string)
    requires OneLine(data)
    requires port == [] || (port[0] == ':' && |port| <= 6 && AllDigits(port[1..]))
    requires data != [] ==> !InClass(UrlHostChar, data[0]) && data[0] != ':'
    requires at + |port| + |data| == |url|
    requires url[at..at + |port|] == port && url[at + |port|..] == data
    ensures var c, p := (if port == [] then 0 else 1), (if port == [] then 0 else |port| - 1);
      var pEnd := at + c + p;
      c <= 1 && p <= 5 &&
      (at == |url| || !InClass(UrlHostChar, url[at])) &&
      (c == 1 ==> url[at] == ':') && (c == 0 ==> at == |url| || url[at] != ':') &&
      (forall k :: at + c <= k < pEnd ==> IsDigit(url[k])) &&
      (p == 5 || pEnd == |url| || !IsDigit(url[pEnd])) &&
      (forall k :: pEnd <= k < |url| ==> url[k] != '\n')
  {
    var c, p := if port == [] then 0 else 1, if port == [] then 0 else |port| - 1;
    if port != [] {
      assert url[at + 1..at + |port|] == port[1..];
      ClassSlice(url, at + 1, at + |port|, port[1..], Digit);
      assert url[at] == port[0];
    } else if data != [] {
      assert url[at] == data[0];
    }
    ClassSlice(url, at + |port|, |url|, data, NotNewline);
    if data != [] {
      assert url[at + c + p] == data[0];
    }
  }

  /** A URL written as scheme, `://`, host, an optional `:` with at most
      five digits, and a one-line path: the helpers' path is that path. */
  lemma {:induction false} UrlDataOf(secure: bool, host: string, port: string, data: string, error: PyError)
    requires HostText(host) && OneLine(data)
    requires port == [] || (port[0] == ':' && |port| <= 6 && AllDigits(port[1..]))
    requires data != [] ==> !InClass(UrlHostChar, data[0]) && data[0] != ':'
    ensures UrlData(Scheme(secure) + "://" + host + port + data, error) == Ok(data)
  {
    var url := Scheme(secure) + "://" + host + port + data;
    var l := |Scheme(secure)|;
    Pieces(Scheme(secure), "://", host, port, data);
    UrlShapeOfPieces(url, Scheme(secure), host, port, data);
    var c, p := if port == [] then 0 else 1, if port == [] then 0 else |port| - 1;
    UrlShapeData(url, l, |host|, c, p, error);
    assert url[l + 3 + |host| + c + p..] == data;
  }

  // ---------------------------------------------------------------------------
  // Page id
  // ---------------------------------------------------------------------------

  /** Where `$` matches last: before a final line break, or at the end. */
  function EndOf(s: string): (e: nat)
    ensures AtEndAnchor(s, e)
    ensures e == |s| || e == |s| - 1
  {
    if s != [] && s[|s| - 1] == '\n' then |s| - 1 else |s|
  }

  /** `s` is one line up to `pageId=` at `i`, and nothing but one or more
      digits follows up to its end (a final line break aside). */
  predicate IdEnding(s: string, i: int)
  {
    0 <= i && i + 7 < EndOf(s) && OccursAt(s, "pageId=", i) &&
    (forall k :: 0 <= k < i ==> s[k] != '\n') &&
    (forall k :: i + 7 <= k < EndOf(s) ==> IsDigit(s[k]))
  }

  /** The id pattern after its leading `.*`. */
  const IdTail: seq<Item> := [Plus(Digit), EndAnchor]

  /** Any fit of the id pattern from the start marks a page-id ending, with
      the id group running from behind `pageId=` to the end. */
  lemma {:induction false} IdFitsEnding(s: string, b: seq<nat>)
    requires Fits(s, IdPattern, b) && b[0] == 0
    ensures IdEnding(s, b[1]) && b[8] == b[1] + 7 && b[9] == EndOf(s)
  {
    assert IdPattern[0] == Star(NotNewline) && IdPattern[1..] == Chars("pageId=") + IdTail;
    assert ItemFits(s, Star(NotNewline), 0, b[1]);
    var c := b[1..];
    assert Fits(s, Chars("pageId=") + IdTail, c);
    FitsCharsSplit(s, "pageId=", IdTail, c);
    var d := c[7..];
    assert d == b[8..];
    assert ItemFits(s, Plus(Digit), d[0], d[1]) && Fits(s, [EndAnchor], d[1..]);
    assert ItemFits(s, EndAnchor, d[1], d[2]);
    if d[1] == |s| && s != [] && s[|s| - 1] == '\n' {
      assert false;
    }
  }

  /** A page-id ending is a fit of the id pattern. */
  lemma {:induction false} EndingFits(s: string, i: nat)
    requires IdEnding(s, i)
    ensures var e := EndOf(s); Fits(s, IdPattern, [0] + (Range(i, 7) + [i + 7, e, e]))
  {
    var e := EndOf(s);
    var t: seq<nat> := [i + 7, e, e];
    forall k | 0 <= k < 2
      ensures ItemFits(s, IdTail[k], t[k], t[k + 1])
    {
    }
    FitsIffEach(s, IdTail, t);
    FitsCharsThen(s, "pageId=", IdTail, t);
    var t2 := Range(i, 7) + t;
    assert t2[0] == i;
    FitsCons(s, Star(NotNewline), Chars("pageId=") + IdTail, 0, t2);
  }

  /** Behind a page-id ending, `pageId=` can only occur again at the very
      end: its `=` is not a digit. */
  lemma LaterPageIdAtEnd(s: string, i: int, j: int)
    requires IdEnding(s, i) && i < j && OccursAt(s, "pageId=", j)
    ensures EndOf(s) <= j + 6
  {
    assert s[j + 6] == s[j..j + 7][6];
  }

  /** A text has at most one page-id ending. */
  lemma IdEndingUnique(s: string, i: int, j: int)
    requires IdEnding(s, i) && IdEnding(s, j)
    ensures i == j
  {
    if i < j {
      LaterPageIdAtEnd(s, i, j);
    } else if j < i {
      LaterPageIdAtEnd(s, j, i);
    }
  }

  /** `is_id_in_url` holds exactly for texts that end in `pageId=` and one
      or more digits, with no line break before. */
  lemma {:induction false} IsIdInUrlIff(url: string)
    ensures IsIdInUrl(url) <==> exists i :: IdEnding(url, i)
  {
    if IsIdInUrl(url) {
      MatchAtFits(url, 0, IdPattern);
      IdFitsEnding(url, MatchAt(url, 0, IdPattern).value);
    }
    if exists i :: IdEnding(url, i) {
      var i :| IdEnding(url, i);
      var e := EndOf(url);
      EndingFits(url, i);
      MatchAtPreferred(url, 0, IdPattern, [0] + (Range(i, 7) + [i + 7, e, e]));
    }
  }

  /** On a page-id ending the id group is the digit run behind `pageId=`. */
  lemma {:induction false} IdGroupOf(data: string, i: nat)
    requires IdEnding(data, i)
    ensures MatchAt(data, 0, IdPattern).Some?
    ensures var b := MatchAt(data, 0, IdPattern).value;
      Monotone(b) && Last(b) <= |data| && Group(data, b, 8, 9) == data[i + 7..EndOf(data)]
  {
    IsIdInUrlIff(data);
    var b := MatchAt(data, 0, IdPattern).value;
    MatchAtFits(data, 0, IdPattern);
    FitsMonotone(data, IdPattern, b);
    IdFitsEnding(data, b);
    IdEndingUnique(data, i, b[1]);
  }

  /** A path ending in `pageId=` and digits is one line with that ending. */
  lemma {:induction false} IdPathShape(path: string, digits: string)
    requires OneLine(path) && digits != [] && AllDigits(digits)
    ensures var data := path + "pageId=" + digits;
      OneLine(data) && IdEnding(data, |path|) && EndOf(data) == |data| && data[|path| + 7..] == digits
  {
    var data := path + "pageId=" + digits;
    Pieces(path, "pageId=", digits, "", "");
    assert data + "" + "" == data;
    var n := |path|;
    assert data[|data| - 1] == digits[|digits| - 1];
    ClassSlice(data, 0, n, path, NotNewline);
    ClassSlice(data, n + 7, |data|, digits, Digit);
    forall k | n <= k < n + 7
      ensures data[k] != '\n'
    {
      assert data[k] == data[n..n + 7][k - n];
    }
  }

  /** For a URL `SCHEME://HOST[:PORT]PATHpageId=DIGITS` whose path starts
      with a character that ends the host, the page id is the digits. */
  lemma {:induction false} IdOf(secure: bool, host: string, port: string, path: string, digits: string)
    requires HostText(host) && OneLine(path) && digits != [] && AllDigits(digits)
    requires port == [] || (port[0] == ':' && |port| <= 6 && AllDigits(port[1..]))
    requires path != [] && !InClass(UrlHostChar, path[0]) && path[0] != ':'
    ensures GetIdFromUrl(Scheme(secure) + "://" + host + port + (path + "pageId=" + digits)) == Ok(digits)
  {
    var data := path + "pageId=" + digits;
    var url := Scheme(secure) + "://" + host + port + data;
    IdPathShape(path, digits);
    assert data[0] == path[0];
    UrlDataOf(secure, host, port, data, GenericException("pageId not found in URL: \"" + url + "\""));
    IdGroupOf(data, |path|);
    var b := MatchAt(data, 0, IdPattern).value;
    assert GetIdFromUrl(url) == Ok(Group(data, b, 8, 9));
    assert data[|path| + 7..|data|] == digits;
  }

  /** For a URL whose path has no page-id ending the id lookup fails with
      `AttributeError`. */
  lemma {:induction false} IdMissing(secure: bool, host: string, port: string, data: string)
    requires HostText(host) && OneLine(data)
    requires port == [] || (port[0] == ':' && |port| <= 6 && AllDigits(port[1..]))
    requires data != [] ==> !InClass(UrlHostChar, data[0]) && data[0] != ':'
    requires forall i :: !IdEnding(data, i)
    ensures GetIdFromUrl(Scheme(secure) + "://" + host + port + data) == Err(AttributeError)
  {
    var url := Scheme(secure) + "://" + host + port + data;
    UrlDataOf(secure, host, port, data, GenericException("pageId not found in URL: \"" + url + "\""));
    IsIdInUrlIff(data);
  }

  /** The id lookup raises its own error exactly when no scheme occurs, and
      succeeds only on texts that start with one. */
  lemma GetIdFromUrlErrors(url: string)
    ensures GetIdFromUrl(url) == Err(GenericException("pageId not found in URL: \"" + url + "\"")) <==>
      !Contains(url, "http://") && !Contains(url, "https://")
    ensures GetIdFromUrl(url).Ok? ==> IsUrl(url)
  {
    UrlDataErrors(url, GenericException("pageId not found in URL: \"" + url + "\""));
  }

  // ---------------------------------------------------------------------------
  // Space and title
  // ---------------------------------------------------------------------------

  /** A run of space-key characters `[-\w_?~]`. */
  predicate SpaceKeyText(key: string)
  {
    forall k :: 0 <= k < |key| ==> InClass(SpaceKeyChar, key[k])
  }

  /** `d` read as `/display/`, a space key of `n` characters, `/`, and a
      one-line title. */
  predicate DisplayShape(d: string, n: nat)
  {
    10 + n <= |d| && OccursAt(d, "/display/", 0) &&
    (forall k :: 9 <= k < 9 + n ==> InClass(SpaceKeyChar, d[k])) && d[9 + n] == '/' &&
    (forall k :: 10 + n <= k < |d| ==> d[k] != '\n')
  }

  /** Space key, slash and title, each as long as it goes. */
  lemma {:induction false} DisplayTailGreedy(d: string, n: nat)
    requires DisplayShape(d, n)
    ensures GreedyFits(d, DisplayTail, [9, 9 + n, 10 + n, |d|])
  {
    var b: seq<nat> := [9, 9 + n, 10 + n, |d|];
    forall i | 0 <= i < 3
      ensures ItemFits(d, DisplayTail[i], b[i], b[i + 1])
      ensures DisplayTail[i].Run? ==> Maximal(d, DisplayTail[i], b[i], b[i + 1])
    {
    }
    assert GreedyEach(d, DisplayTail, b);
    GreedyIffEach(d, DisplayTail, b);
  }

  /** Where the two groups sit among the cut points. */
  lemma DisplayCutsAt(d: string, n: nat)
    ensures var b := Range(0, 9) + [9, 9 + n, 10 + n, |d|];
      |b| == 13 && b[9] == 9 && b[10] == 9 + n && b[11] == 10 + n && b[12] == |d|
  {
  }

  /** On such a path the display pattern's groups are the key and the title. */
  lemma {:induction false} DisplayShapeGroups(d: string, n: nat)
    requires DisplayShape(d, n)
    ensures DisplayGroups(d) == Ok((d[9..9 + n], d[10 + n..]))
  {
    var t: seq<nat> := [9, 9 + n, 10 + n, |d|];
    var b := Range(0, 9) + t;
    DisplayTailGreedy(d, n);
    GreedyFitsChars(d, "/display/", DisplayTail, t);
    GreedyMatch(d, 0, DisplayPattern, b);
    DisplayCutsAt(d, n);
    MatchAtFits(d, 0, DisplayPattern);
    FitsMonotone(d, DisplayPattern, b);
    assert DisplayGroups(d) == Ok((Group(d, b, 9, 10), Group(d, b, 11, 12)));
    assert Group(d, b, 11, 12) == d[10 + n..];
  }

  /** `/display/KEY/TITLE` yields the key and the title. */
  lemma {:induction false} DisplayGroupsOf(key: string, title: string)
    requires SpaceKeyText(key) && OneLine(title)
    ensures DisplayGroups("/display/" + key + "/" + title) == Ok((key, title))
  {
    var d := "/display/" + key + "/" + title;
    Pieces("/display/", key, "/", title, "");
    assert d + "" == d;
    var n := |key|;
    assert d[..9] == "/display/";
    ClassSlice(d, 9, 9 + n, key, SpaceKeyChar);
    assert d[9 + n] == d[9 + n..10 + n][0];
    ClassSlice(d, 10 + n, |d|, title, NotNewline);
    assert DisplayShape(d, n);
    DisplayShapeGroups(d, n);
  }

  /** A path `/display/KEY/TITLE` holds no line break when the title holds none. */
  lemma DisplayOneLine(key: string, title: string)
    requires SpaceKeyText(key) && OneLine(title)
    ensures OneLine("/display/" + key + "/" + title)
  {
    var d := "/display/" + key + "/" + title;
    Pieces("/display/", key, "/", title, "");
    assert d + "" == d;
    forall k | 0 <= k < |d|
      ensures d[k] != '\n'
    {
      if k < 9 {
        assert d[k] == d[..9][k];
      } else if k < 9 + |key| {
        assert d[k] == d[9..9 + |key|][k - 9];
      } else if k > 9 + |key| {
        assert d[k] == d[10 + |key|..][k - 10 - |key|];
      }
    }
  }

  /** For a page URL `SCHEME://HOST[:PORT]/display/KEY/TITLE` the space is
      the key and the title is the title, with every `+` turned into a
      space when asked for. */
  lemma {:induction false} SpaceAndTitleOf(secure: bool, host: string, port: string, key: string, title: string)
    requires HostText(host) && SpaceKeyText(key) && OneLine(title)
    requires port == [] || (port[0] == ':' && |port| <= 6 && AllDigits(port[1..]))
    ensures var url := Scheme(secure) + "://" + host + port + ("/display/" + key + "/" + title);
      GetSpaceFromUrl(url) == Ok(key) &&
      GetPageTitleFromUrl(url, false) == Ok(title) &&
      GetPageTitleFromUrl(url, true) == Ok(Replace(title, "+", " "))
  {
    var data := "/display/" + key + "/" + title;
    var url := Scheme(secure) + "://" + host + port + data;
    DisplayOneLine(key, title);
    assert data[0] == '/';
    UrlDataOf(secure, host, port, data, GenericException("Confluence space not found in URL: \"" + url + "\""));
    UrlDataOf(secure, host, port, data, GenericException("Confluence page title not found in URL: \"" + url + "\""));
    DisplayGroupsOf(key, title);
  }

  // ---------------------------------------------------------------------------
  // The documented examples
  // ---------------------------------------------------------------------------

  /** The server of the documented examples. */
  const ExampleServer := "http://buic-confluence.conti.de:8090"

  /** The server's host and port have the shape the URL pattern expects. */
  lemma ExampleHostPort()
    ensures HostText("buic-confluence.conti.de") && ":8090"[0] == ':' && AllDigits(":8090"[1..])
  {
    assert ":8090"[1..] == "8090";
  }

  /** The server is scheme, host and port. */
  lemma ExampleServerShape()
    ensures ExampleServer == Scheme(false) + "://" + "buic-confluence.conti.de" + ":8090"
    ensures HostText("buic-confluence.conti.de") && ":8090"[0] == ':' && AllDigits(":8090"[1..])
  {
    ExampleHostPort();
    ExampleServerHead();
  }

  lemma ExampleServerHead()
    ensures Scheme(false) + "://" + "buic-confluence.conti.de" == "http://buic-confluence.conti.de"
  {
    assert Scheme(false) + "://" == "http://";
  }

  /** The keys and titles of the documented examples. */
  lemma ExamplePaths()
    ensures SpaceKeyText("IIC") && OneLine("I+IC")
    ensures SpaceKeyText("~uidj5418") && OneLine("My+Page+1")
    ensures "/display/" + "IIC" + "/" + "I+IC" == "/display/IIC/I+IC"
    ensures "/display/" + "~uidj5418" + "/" + "My+Page+1" == "/display/~uidj5418/My+Page+1"
  {
  }

  /** The space of the documented example `.../display/IIC/I+IC` is `IIC`. */
  lemma SpaceExample()
    ensures GetSpaceFromUrl(ExampleServer + "/display/IIC/I+IC") == Ok("IIC")
  {
    ExampleServerShape();
    ExamplePaths();
    SpaceAndTitleOf(false, "buic-confluence.conti.de", ":8090", "IIC", "I+IC");
  }

  lemma SpacedTail1()
    ensures Replace("+1", "+", " ") == " 1"
  {
    assert Replace("1", "+", " ") == "1";
  }

  lemma SpacedTail2()
    ensures Replace("Page+1", "+", " ") == "Page 1"
  {
    SpacedTail1();
    assert Replace("e+1", "+", " ") == "e 1";
    assert Replace("ge+1", "+", " ") == "ge 1";
    assert Replace("age+1", "+", " ") == "age 1";
  }

  lemma SpacedTail3()
    ensures Replace("y+Page+1", "+", " ") == "y Page 1"
  {
    SpacedTail2();
    assert Replace("+Page+1", "+", " ") == " Page 1";
  }

  /** The formatted title of the documented example. */
  lemma ExampleTitleSpaced()
    ensures Replace("My+Page+1", "+", " ") == "My Page 1"
  {
    SpacedTail3();
  }

  /** The title of the documented example `.../display/~uidj5418/My+Page+1`
      is `My Page 1` when formatted and `My+Page+1` otherwise. */
  lemma TitleExample()
    ensures GetPageTitleFromUrl(ExampleServer + "/display/~uidj5418/My+Page+1", true) == Ok("My Page 1")
    ensures GetPageTitleFromUrl(ExampleServer + "/display/~uidj5418/My+Page+1", false) == Ok("My+Page+1")
  {
    ExampleServerShape();
    ExamplePaths();
    ExampleTitleSpaced();
    SpaceAndTitleOf(false, "buic-confluence.conti.de", ":8090", "~uidj5418", "My+Page+1");
  }

  /** The id of the documented example `.../viewpage.action?pageId=102948555`. */
  lemma IdExample()
    ensures GetIdFromUrl(ExampleServer + "/pages/viewpage.action?pageId=102948555") == Ok("102948555")
  {
    ExampleServerShape();
    assert "/pages/viewpage.action?" + "pageId=" + "102948555" == "/pages/viewpage.action?pageId=102948555";
    assert OneLine("/pages/viewpage.action?") && AllDigits("102948555");
    IdOf(false, "buic-confluence.conti.de", ":8090", "/pages/viewpage.action?", "102948555");
  }
}

=== FILE: patterns.dfy ===
/**
 * The fixed regular expressions of the program are concatenations of
 * literal characters, greedy repeats of one character class (`\s+`, `\w*`,
 * `\(?`, `\d{0,5}`, `.*`) and the end anchor `$`. For that shape Python's
 * backtracking `re` engine takes each repeat as long as it can and gives
 * characters back one at a time, from the most recent repeat outwards, until
 * the rest of the pattern fits. `MatchAt` does exactly that, and
 * `MatchAtPreferred` states the result declaratively: of all the ways to cut
 * the text into one piece per item, the match is the one whose cut points are
 * lexicographically greatest.
 *
 * A match is reported as its cut points `b`: item `i` covers `s[b[i]..b[i+1]]`,
 * so a capture group around items `i..j-1` is `s[b[i]..b[j]]`.
 */
module Patterns {
  import opened PyTypes
  import opened Text

  /** The character classes used by the program's patterns. */
  datatype Class =
    | Space          // \s
    | Word           // \w
    | Digit          // \d
    | NotNewline     // .
    | Exactly(c: char)
    | UrlHostChar    // [-\w_.]
    | SpaceKeyChar   // [-\w_?~]

  predicate InClass(cls: Class, c: char)
  {
    match cls
    case Space => IsSpace(c)
    case Word => IsWord(c)
    case Digit => IsDigit(c)
    case NotNewline => c != '\n'
    case Exactly(d) => c == d
    case UrlHostChar => c == '-' || IsWord(c) || c == '_' || c == '.'
    case SpaceKeyChar => c == '-' || IsWord(c) || c == '_' || c == '?' || c == '~'
  }

  datatype Bound = Unbounded | AtMost(n: nat)

  predicate WithinBound(n: nat, hi: Bound)
  {
    hi.Unbounded? || n <= hi.n
  }

  function Clamp(n: nat, hi: Bound): (r: nat)
    ensures r <= n && WithinBound(r, hi)
    ensures forall m: nat :: m <= n && WithinBound(m, hi) ==> m <= r
  {
    if hi.AtMost? && hi.n < n then hi.n else n
  }

  /** One element of a pattern: a literal character, a greedy repeat
      `cls{lo,hi}`, or the end anchor `$`. */
  datatype Item = Lit(c: char) | Run(cls: Class, lo: nat, hi: Bound) | EndAnchor

  /** `cls*` */
  function Star(cls: Class): Item { Run(cls, 0, Unbounded) }

  /** `cls+` */
  function Plus(cls: Class): Item { Run(cls, 1, Unbounded) }

  /** `c?` */
  function Opt(c: char): Item { Run(Exactly(c), 0, AtMost(1)) }

  /** The literal text `w`, one item per character. */
  function Chars(w: string): (r: seq<Item>)
    ensures |r| == |w|
    ensures forall i :: 0 <= i < |w| ==> r[i] == Lit(w[i])
  {
    seq(|w|, i requires 0 <= i < |w| => Lit(w[i]))
  }

  /** Length of the longest run of `cls` characters starting at `pos`. */
  function RunLength(s: string, pos: nat, cls: Class): (n: nat)
    requires pos <= |s|
    ensures pos + n <= |s|
    ensures forall i {:trigger InClass(cls, s[i])} :: pos <= i < pos + n ==> InClass(cls, s[i])
    ensures pos + n == |s| || !InClass(cls, s[pos + n])
    decreases |s| - pos
  {
    if pos < |s| && InClass(cls, s[pos]) then 1 + RunLength(s, pos + 1, cls) else 0
  }

  /** `$` without MULTILINE: the end of the text, or just before a final newline. */
  predicate AtEndAnchor(s: string, i: nat)
  {
    i == |s| || (i == |s| - 1 && s[i] == '\n')
  }

  // ---------------------------------------------------------------------------
  // Declarative meaning of a match
  // ---------------------------------------------------------------------------

  /** Item `it` matches exactly `s[i..j]`. */
  predicate ItemFits(s: string, it: Item, i: nat, j: nat)
  {
    i <= j <= |s| &&
    match it
    case Lit(c) => j == i + 1 && s[i] == c
    case Run(cls, lo, hi) =>
      lo <= j - i && WithinBound(j - i, hi) && forall k :: i <= k < j ==> InClass(cls, s[k])
    case EndAnchor => j == i && AtEndAnchor(s, i)
  }

  /** The cut points `b` split `s[b[0]..]` into one piece per item, each
      piece matching its item. */
  predicate Fits(s: string, items: seq<Item>, b: seq<nat>)
    decreases |items|
  {
    |b| == |items| + 1 && b[0] <= |s| &&
    (items == [] || (ItemFits(s, items[0], b[0], b[1]) && Fits(s, items[1..], b[1..])))
  }

  predicate Monotone(b: seq<nat>)
  {
    forall i, j :: 0 <= i <= j < |b| ==> b[i] <= b[j]
  }

  function Last(b: seq<nat>): nat
    requires |b| > 0
  {
    b[|b| - 1]
  }

  /** Lexicographic order on cut-point sequences of equal length. */
  predicate LexGe(a: seq<nat>, b: seq<nat>)
    requires |a| == |b|
  {
    a == [] || a[0] > b[0] || (a[0] == b[0] && LexGe(a[1..], b[1..]))
  }

  // ---------------------------------------------------------------------------
  // The backtracking matcher
  // ---------------------------------------------------------------------------

  /** `re.match` of `items` against `s` at position `pos`. */
  function MatchAt(s: string, pos: nat, items: seq<Item>): (r: Option<seq<nat>>)
    requires pos <= |s|
    ensures r.Some? ==> |r.value| == |items| + 1 && r.value[0] == pos
    ensures r.Some? ==> pos <= Last(r.value) <= |s|
    ensures r.Some? && items != [] && items[0].Lit? ==> Last(r.value) > pos
    decreases |items|, 1, 0
  {
    if items == [] then Some([pos])
    else
      match items[0]
      case Lit(c) =>
        if pos < |s| && s[pos] == c then
          match MatchAt(s, pos + 1, items[1..])
          case Some(t) => Some([pos] + t)
          case None => None
        else None
      case EndAnchor =>
        if AtEndAnchor(s, pos) then
          match MatchAt(s, pos, items[1..])
          case Some(t) => Some([pos] + t)
          case None => None
        else None
      case Run(cls, lo, hi) =>
        TryRun(s, pos, items, Clamp(RunLength(s, pos, cls), hi))
  }

  /** Try the leading repeat with `k` characters, then fewer, down to its minimum. */
  function TryRun(s: string, pos: nat, items: seq<Item>, k: nat): (r: Option<seq<nat>>)
    requires items != [] && items[0].Run?
    requires pos + k <= |s| && WithinBound(k, items[0].hi)
    requires forall i :: pos <= i < pos + k ==> InClass(items[0].cls, s[i])
    ensures r.Some? ==> |r.value| == |items| + 1 && r.value[0] == pos && r.value[1] <= pos + k
    ensures r.Some? ==> pos <= Last(r.value) <= |s|
    decreases |items|, 0, k
  {
    if k < items[0].lo then None
    else
      match MatchAt(s, pos + k, items[1..])
      case Some(t) => Some([pos] + t)
      case None => if k == 0 then None else TryRun(s, pos, items, k - 1)
  }

  /** What the engine reports is a way of fitting the pattern. */
  lemma {:induction false} MatchAtFits(s: string, pos: nat, items: seq<Item>)
    requires pos <= |s| && MatchAt(s, pos, items).Some?
    ensures Fits(s, items, MatchAt(s, pos, items).value)
    decreases |items|, 1, 0
  {
    var b := MatchAt(s, pos, items).value;
    if items != [] {
      match items[0]
      case Lit(c) =>
        MatchAtFits(s, pos + 1, items[1..]);
        assert b[1..] == MatchAt(s, pos + 1, items[1..]).value;
      case EndAnchor =>
        MatchAtFits(s, pos, items[1..]);
        assert b[1..] == MatchAt(s, pos, items[1..]).value;
      case Run(cls, lo, hi) =>
        TryRunFits(s, pos, items, Clamp(RunLength(s, pos, cls), hi));
    }
  }

  lemma {:induction false} TryRunFits(s: string, pos: nat, items: seq<Item>, k: nat)
    requires items != [] && items[0].Run?
    requires pos + k <= |s| && WithinBound(k, items[0].hi)
    requires forall i :: pos <= i < pos + k ==> InClass(items[0].cls, s[i])
    requires TryRun(s, pos, items, k).Some?
    ensures Fits(s, items, TryRun(s, pos, items, k).value)
    decreases |items|, 0, k
  {
    var b := TryRun(s, pos, items, k).value;
    match MatchAt(s, pos + k, items[1..])
    case Some(t) =>
      MatchAtFits(s, pos + k, items[1..]);
      assert b[1..] == t;
    case None =>
      TryRunFits(s, pos, items, k - 1);
  }

  /** Any run of class characters is at most as long as the longest one. */
  lemma RunLengthIsLongest(s: string, pos: nat, cls: Class, n: nat)
    requires pos + n <= |s|
    requires forall i :: pos <= i < pos + n ==> InClass(cls, s[i])
    ensures n <= RunLength(s, pos, cls)
  {
  }

  /** The match the engine reports is the lexicographically greatest way of
      fitting the pattern at `pos`; in particular it reports a match whenever
      some fit exists. */
  lemma {:induction false} MatchAtPreferred(s: string, pos: nat, items: seq<Item>, b: seq<nat>)
    requires pos <= |s| && Fits(s, items, b) && b[0] == pos
    ensures MatchAt(s, pos, items).Some?
    ensures LexGe(MatchAt(s, pos, items).value, b)
    decreases |items|, 1, 0
  {
    if items != [] {
      match items[0]
      case Lit(c) =>
        MatchAtPreferred(s, pos + 1, items[1..], b[1..]);
      case EndAnchor =>
        MatchAtPreferred(s, pos, items[1..], b[1..]);
      case Run(cls, lo, hi) =>
        var k := Clamp(RunLength(s, pos, cls), hi);
        RunLengthIsLongest(s, pos, cls, b[1] - pos);
        TryRunPreferred(s, pos, items, k, b);
    }
  }

  lemma {:induction false} TryRunPreferred(s: string, pos: nat, items: seq<Item>, k: nat, b: seq<nat>)
    requires items != [] && items[0].Run?
    requires pos + k <= |s| && WithinBound(k, items[0].hi)
    requires forall i :: pos <= i < pos + k ==> InClass(items[0].cls, s[i])
    requires Fits(s, items, b) && b[0] == pos && b[1] <= pos + k
    ensures TryRun(s, pos, items, k).Some?
    ensures LexGe(TryRun(s, pos, items, k).value, b)
    decreases |items|, 0, k
  {
    assert k >= items[0].lo;
    if b[1] == pos + k {
      MatchAtPreferred(s, pos + k, items[1..], b[1..]);
      var t := MatchAt(s, pos + k, items[1..]).value;
      assert ([pos] + t)[1..] == t;
    } else {
      match MatchAt(s, pos + k, items[1..])
      case Some(t) =>
        assert ([pos] + t)[1..] == t;
      case None =>
        TryRunPreferred(s, pos, items, k - 1, b);
    }
  }

  /** Cut points of a fit never go backwards and stay within the text. */
  lemma {:induction false} FitsMonotone(s: string, items: seq<Item>, b: seq<nat>)
    requires Fits(s, items, b)
    ensures Monotone(b) && Last(b) <= |s|
    decreases |items|
  {
    if items != [] {
      FitsMonotone(s, items[1..], b[1..]);
      forall i, j | 0 <= i <= j < |b|
        ensures b[i] <= b[j]
      {
        if i > 0 {
          assert b[i] == b[1..][i - 1] && b[j] == b[1..][j - 1];
        } else if j > 0 {
          assert b[j] == b[1..][j - 1];
          assert b[1..][0] <= b[1..][j - 1];
        }
      }
      assert Last(b) == Last(b[1..]);
    }
  }

  /** The text of the capture group around items `i..j-1` of a match. */
  function Group(s: string, b: seq<nat>, i: nat, j: nat): string
    requires i <= j < |b| && Monotone(b) && Last(b) <= |s|
  {
    s[b[i]..b[j]]
  }

  /** No match means no way to fit the pattern at `pos`. */
  lemma NoMatchNoFit(s: string, pos: nat, items: seq<Item>, b: seq<nat>)
    requires pos <= |s| && MatchAt(s, pos, items).None?
    ensures !(Fits(s, items, b) && b[0] == pos)
  {
    if Fits(s, items, b) && b[0] == pos {
      MatchAtPreferred(s, pos, items, b);
    }
  }

  // ---------------------------------------------------------------------------
  // When taking every repeat as long as possible already fits
  // ---------------------------------------------------------------------------

  /** The repeat `it` over `s[i..j]` cannot be extended: the text ends there,
      the next character is outside the class, or the bound is reached. */
  predicate Maximal(s: string, it: Item, i: nat, j: nat)
    requires it.Run?
  {
    j >= |s| || !InClass(it.cls, s[j]) || (it.hi.AtMost? && j - i >= it.hi.n)
  }

  /** Each repeat in `b` is as long as the text and its bound allow. */
  predicate GreedyFits(s: string, items: seq<Item>, b: seq<nat>)
    decreases |items|
  {
    |b| == |items| + 1 && b[0] <= |s| &&
    (items == [] ||
      (ItemFits(s, items[0], b[0], b[1]) &&
       (items[0].Run? ==> Maximal(s, items[0], b[0], b[1])) &&
       GreedyFits(s, items[1..], b[1..])))
  }

  /** A repeat that cannot be extended is exactly as long as the one the
      engine tries first. */
  lemma MaximalIsFirstTry(s: string, it: Item, i: nat, j: nat)
    requires it.Run? && ItemFits(s, it, i, j) && Maximal(s, it, i, j)
    ensures j - i == Clamp(RunLength(s, i, it.cls), it.hi)
  {
    RunLengthIsLongest(s, i, it.cls, j - i);
  }

  /** The engine's first try at a repeat taken as far as it can go succeeds
      when the rest of the pattern matches after it. */
  lemma GreedyRunFirst(s: string, items: seq<Item>, b: seq<nat>)
    requires items != [] && items[0].Run? && |b| == |items| + 1
    requires ItemFits(s, items[0], b[0], b[1]) && Maximal(s, items[0], b[0], b[1])
    requires MatchAt(s, b[1], items[1..]) == Some(b[1..])
    ensures MatchAt(s, b[0], items) == Some(b)
  {
    var k := b[1] - b[0];
    MaximalIsFirstTry(s, items[0], b[0], b[1]);
    assert [b[0]] + b[1..] == b;
    assert TryRun(s, b[0], items, k) == Some(b);
  }

  /** When every repeat taken as long as it can go leaves a fit, the engine
      needs no backtracking and reports exactly those cut points. */
  lemma {:induction false} GreedyWins(s: string, items: seq<Item>, b: seq<nat>)
    requires GreedyFits(s, items, b)
    ensures MatchAt(s, b[0], items) == Some(b)
    decreases |items|
  {
    if items == [] {
      assert b == [b[0]];
    } else {
      GreedyWins(s, items[1..], b[1..]);
      assert [b[0]] + b[1..] == b;
      if items[0].Run? {
        GreedyRunFirst(s, items, b);
      }
    }
  }

  /** A greedy fit of a prefix followed by a match of the rest is the match of
      the whole: the engine never backtracks into the prefix. */
  lemma {:induction false} GreedyPrefix(s: string, a: seq<Item>, c: seq<Item>, b1: seq<nat>, b2: seq<nat>)
    requires GreedyFits(s, a, b1) && b1[|a|] <= |s| && MatchAt(s, b1[|a|], c) == Some(b2)
    ensures MatchAt(s, b1[0], a + c) == Some(b1[..|a|] + b2)
    decreases |a|
  {
    var b := b1[..|a|] + b2;
    if a == [] {
      assert a + c == c && b == b2;
    } else {
      GreedyPrefix(s, a[1..], c, b1[1..], b2);
      PrefixCuts(a, c, b1, b2);
      if a[0].Run? {
        GreedyRunFirst(s, a + c, b);
      }
    }
  }

  /** How the items and cut points of `a + c` split after their first entry. */
  lemma PrefixCuts(a: seq<Item>, c: seq<Item>, b1: seq<nat>, b2: seq<nat>)
    requires a != [] && |b1| == |a| + 1 && b2 != [] && b2[0] == b1[|a|]
    ensures (a + c)[0] == a[0] && (a + c)[1..] == a[1..] + c
    ensures var b := b1[..|a|] + b2;
      b[0] == b1[0] && b[1] == b1[1] && b[1..] == b1[1..][..|a| - 1] + b2 && [b[0]] + b[1..] == b
  {
    var b := b1[..|a|] + b2;
    assert b[1..] == b1[1..][..|a| - 1] + b2;
  }

  /** One more item in front of a greedy fit, taken as far as it goes. */
  lemma GreedyStep(s: string, items: seq<Item>, b: seq<nat>)
    requires items != [] && |b| == |items| + 1
    requires ItemFits(s, items[0], b[0], b[1])
    requires items[0].Run? ==> Maximal(s, items[0], b[0], b[1])
    requires GreedyFits(s, items[1..], b[1..])
    ensures GreedyFits(s, items, b)
  {
  }

  /** The end of the text fits the empty pattern. */
  lemma GreedyEnd(s: string, items: seq<Item>, b: seq<nat>)
    requires items == [] && |b| == 1 && b[0] <= |s|
    ensures GreedyFits(s, items, b)
  {
  }

  /** Greedy fits of two patterns that meet make a greedy fit of both in turn. */
  lemma {:induction false} GreedyAppend(s: string, a: seq<Item>, c: seq<Item>, b1: seq<nat>, b2: seq<nat>)
    requires GreedyFits(s, a, b1) && GreedyFits(s, c, b2) && b1[|a|] == b2[0]
    ensures GreedyFits(s, a + c, b1[..|a|] + b2)
    decreases |a|
  {
    if a != [] {
      GreedyAppend(s, a[1..], c, b1[1..], b2);
      assert (a + c)[1..] == a[1..] + c;
      assert (b1[..|a|] + b2)[1..] == b1[1..][..|a| - 1] + b2;
    } else {
      assert a + c == c;
      assert b1[..0] + b2 == b2;
    }
  }

  /** `Fits`, item by item. */
  predicate FitsEach(s: string, items: seq<Item>, b: seq<nat>)
  {
    |b| == |items| + 1 && b[0] <= |s| &&
    forall i :: 0 <= i < |items| ==> ItemFits(s, items[i], b[i], b[i + 1])
  }

  /** `GreedyFits`, item by item. */
  predicate GreedyEach(s: string, items: seq<Item>, b: seq<nat>)
  {
    FitsEach(s, items, b) &&
    forall i :: 0 <= i < |items| && items[i].Run? ==> Maximal(s, items[i], b[i], b[i + 1])
  }

  lemma {:induction false} GreedyIffEach(s: string, items: seq<Item>, b: seq<nat>)
    ensures GreedyFits(s, items, b) <==> GreedyEach(s, items, b)
    decreases |items|
  {
    FitsIffEach(s, items, b);
    if items != [] && |b| == |items| + 1 {
      GreedyIffEach(s, items[1..], b[1..]);
      FitsIffEach(s, items[1..], b[1..]);
      if GreedyEach(s, items, b) {
        assert GreedyEach(s, items[1..], b[1..]) by {
          forall i | 0 <= i < |items| - 1 && items[1..][i].Run?
            ensures Maximal(s, items[1..][i], b[1..][i], b[1..][i + 1])
          {
            assert items[i + 1].Run?;
          }
        }
      }
      if GreedyFits(s, items, b) {
        forall i | 0 <= i < |items| && items[i].Run?
          ensures Maximal(s, items[i], b[i], b[i + 1])
        {
          if i > 0 {
            assert items[1..][i - 1].Run?;
          }
        }
      }
    }
  }

  lemma {:induction false} FitsIffEach(s: string, items: seq<Item>, b: seq<nat>)
    ensures Fits(s, items, b) <==> FitsEach(s, items, b)
    decreases |items|
  {
    if items != [] && |b| == |items| + 1 {
      FitsIffEach(s, items[1..], b[1..]);
      if FitsEach(s, items, b) {
        assert FitsEach(s, items[1..], b[1..]) by {
          forall i | 0 <= i < |items| - 1
            ensures ItemFits(s, items[1..][i], b[1..][i], b[1..][i + 1])
          {
            assert ItemFits(s, items[i + 1], b[i + 1], b[i + 2]);
          }
        }
      }
      if Fits(s, items, b) {
        forall i | 0 <= i < |items|
          ensures ItemFits(s, items[i], b[i], b[i + 1])
        {
          if i > 0 {
            assert ItemFits(s, items[1..][i - 1], b[1..][i - 1], b[1..][i]);
          }
        }
      }
    }
  }

  /** Of two sequences in lexicographic order that agree before `k`, the
      first is not smaller at `k`. */
  lemma {:induction false} LexGeAt(a: seq<nat>, b: seq<nat>, k: nat)
    requires |a| == |b| && k < |a| && LexGe(a, b)
    requires forall i :: 0 <= i < k ==> a[i] == b[i]
    ensures a[k] >= b[k]
    decreases k
  {
    if k > 0 {
      assert a[0] == b[0];
      assert LexGe(a[1..], b[1..]);
      forall i | 0 <= i < k - 1
        ensures a[1..][i] == b[1..][i]
      {
        assert a[i + 1] == b[i + 1];
      }
      LexGeAt(a[1..], b[1..], k - 1);
    }
  }

  /** `GreedyWins` for a match at a given position. */
  lemma GreedyMatch(s: string, pos: nat, items: seq<Item>, b: seq<nat>)
    requires GreedyFits(s, items, b) && b[0] == pos
    ensures MatchAt(s, pos, items) == Some(b)
  {
    GreedyWins(s, items, b);
  }

  // ---------------------------------------------------------------------------
  // Searching, findall and sub
  // ---------------------------------------------------------------------------

  /** `re.search` from `pos`: the match at the leftmost position that has one. */
  function Search(s: string, items: seq<Item>, pos: nat): (r: Option<seq<nat>>)
    requires pos <= |s|
    ensures r.Some? ==> |r.value| == |items| + 1 && pos <= r.value[0] <= |s|
    ensures r.Some? ==> MatchAt(s, r.value[0], items) == r
    decreases |s| - pos
  {
    match MatchAt(s, pos, items)
    case Some(b) => Some(b)
    case None => if pos == |s| then None else Search(s, items, pos + 1)
  }

  /** Patterns that begin with a literal character never match the empty text. */
  predicate StartsWithLit(items: seq<Item>)
  {
    items != [] && items[0].Lit?
  }

  /** `re.findall` from `pos`: successive leftmost matches, each search
      resuming where the previous match ended. */
  function FindAll(s: string, items: seq<Item>, pos: nat): (ms: seq<seq<nat>>)
    requires pos <= |s| && StartsWithLit(items)
    ensures forall i :: 0 <= i < |ms| ==> |ms[i]| == |items| + 1
    ensures forall i :: 0 <= i < |ms| ==> pos <= ms[i][0] < Last(ms[i]) <= |s|
    ensures forall i :: 0 <= i < |ms| - 1 ==> Last(ms[i]) <= ms[i + 1][0]
    decreases |s| - pos
  {
    match Search(s, items, pos)
    case None => []
    case Some(b) => [b] + FindAll(s, items, Last(b))
  }

  /** Each match `findall` reports is the engine's match at its start. */
  lemma {:induction false} FindAllMatches(s: string, items: seq<Item>, pos: nat, i: nat)
    requires pos <= |s| && StartsWithLit(items) && i < |FindAll(s, items, pos)|
    ensures var m := FindAll(s, items, pos)[i];
      MatchAt(s, m[0], items) == Some(m) && Fits(s, items, m)
    decreases |s| - pos
  {
    var b := Search(s, items, pos).value;
    if i > 0 {
      FindAllMatches(s, items, Last(b), i - 1);
    } else {
      MatchAtFits(s, b[0], items);
    }
  }

  /** `re.sub(pattern, '', s[pos..])`: the text with every match deleted. */
  function DeleteAll(s: string, items: seq<Item>, pos: nat): string
    requires pos <= |s| && StartsWithLit(items)
    decreases |s| - pos
  {
    match Search(s, items, pos)
    case None => s[pos..]
    case Some(b) => s[pos..b[0]] + DeleteAll(s, items, Last(b))
  }

  /** `re.search` reports nothing exactly when the pattern matches nowhere from `pos` on. */
  lemma {:induction false} SearchNone(s: string, items: seq<Item>, pos: nat)
    requires pos <= |s|
    ensures Search(s, items, pos).None? <==> forall q :: pos <= q <= |s| ==> MatchAt(s, q, items).None?
    decreases |s| - pos
  {
    if MatchAt(s, pos, items).Some? {
      assert Search(s, items, pos) == MatchAt(s, pos, items);
      assert !(forall q :: pos <= q <= |s| ==> MatchAt(s, q, items).None?) by {
        assert pos <= pos <= |s| && !MatchAt(s, pos, items).None?;
      }
    } else if pos < |s| {
      SearchNone(s, items, pos + 1);
      assert Search(s, items, pos) == Search(s, items, pos + 1);
      if Search(s, items, pos).None? {
        forall q | pos <= q <= |s|
          ensures MatchAt(s, q, items).None?
        {
          if q > pos {
            assert pos + 1 <= q <= |s|;
          }
        }
      } else {
        var q :| pos + 1 <= q <= |s| && MatchAt(s, q, items).Some?;
        assert pos <= q <= |s|;
      }
    } else {
      forall q | pos <= q <= |s|
        ensures MatchAt(s, q, items).None?
      {
        assert q == pos;
      }
    }
  }

  /** Every position before the one `re.search` reports has no match. */
  lemma {:induction false} SearchFirst(s: string, items: seq<Item>, pos: nat)
    requires pos <= |s| && Search(s, items, pos).Some?
    ensures forall q :: pos <= q < Search(s, items, pos).value[0] ==> MatchAt(s, q, items).None?
    decreases |s| - pos
  {
    if MatchAt(s, pos, items).None? {
      assert pos < |s|;
      SearchFirst(s, items, pos + 1);
      var e := Search(s, items, pos + 1).value[0];
      assert Search(s, items, pos) == Search(s, items, pos + 1);
      forall q | pos <= q < e
        ensures MatchAt(s, q, items).None?
      {
        if q > pos {
          assert pos + 1 <= q < e;
        }
      }
    }
  }

  /** `re.search` reports the leftmost position where the pattern matches,
      and reports nothing only when it matches nowhere from `pos` on. */
  lemma SearchLeftmost(s: string, items: seq<Item>, pos: nat)
    requires pos <= |s|
    ensures Search(s, items, pos).None? <==> forall q :: pos <= q <= |s| ==> MatchAt(s, q, items).None?
    ensures Search(s, items, pos).Some? ==>
      forall q :: pos <= q < Search(s, items, pos).value[0] ==> MatchAt(s, q, items).None?
  {
    SearchNone(s, items, pos);
    if Search(s, items, pos).Some? {
      SearchFirst(s, items, pos);
    }
  }

  /** `re.search` settles on a position where the pattern matches when it
      matches nowhere before it. */
  lemma SearchFinds(s: string, items: seq<Item>, pos: nat, q: nat)
    requires pos <= q <= |s| && MatchAt(s, q, items).Some?
    requires forall q' :: pos <= q' < q ==> MatchAt(s, q', items).None?
    ensures Search(s, items, pos) == MatchAt(s, q, items)
  {
    SearchNone(s, items, pos);
    var q0: int := q;
    assert pos <= q0 <= |s| && MatchAt(s, q0, items).Some?;
    SearchFirst(s, items, pos);
    var v := Search(s, items, pos).value;
    assert v[0] <= q by {
      assert pos <= q && MatchAt(s, q, items).Some?;
    }
  }

  /** `findall` finds nothing exactly when the pattern matches nowhere; otherwise
      its first match is the one `re.search` reports. */
  lemma FindAllFirst(s: string, items: seq<Item>, pos: nat)
    requires pos <= |s| && StartsWithLit(items)
    ensures FindAll(s, items, pos) == [] <==> Search(s, items, pos).None?
    ensures FindAll(s, items, pos) != [] ==> FindAll(s, items, pos)[0] == Search(s, items, pos).value
  {
  }

  /** A fit of a pattern that starts with literal text lies where that text occurs. */
  lemma FitsCharsPrefix(s: string, w: string, rest: seq<Item>, b: seq<nat>)
    requires Fits(s, Chars(w) + rest, b)
    ensures OccursAt(s, w, b[0])
  {
    FitsAppend(s, Chars(w), rest, b);
    FitsChars(s, w, b[..|w| + 1]);
  }

  /** A fit of literal text followed by more items: the text where the fit
      starts, then a fit of the rest right after it. */
  lemma FitsCharsSplit(s: string, w: string, rest: seq<Item>, b: seq<nat>)
    requires Fits(s, Chars(w) + rest, b)
    ensures OccursAt(s, w, b[0]) && b[|w|] == b[0] + |w| && Fits(s, rest, b[|w|..])
  {
    FitsAppend(s, Chars(w), rest, b);
    FitsChars(s, w, b[..|w| + 1]);
  }

  /** A pattern that starts with text absent from `s` matches nowhere in it:
      `findall` is empty and `sub` deletes nothing. */
  lemma NoOccurrenceNoMatch(s: string, w: string, rest: seq<Item>, pos: nat)
    requires w != [] && pos <= |s| && !Contains(s, w)
    ensures StartsWithLit(Chars(w) + rest)
    ensures FindAll(s, Chars(w) + rest, pos) == []
    ensures DeleteAll(s, Chars(w) + rest, pos) == s[pos..]
  {
    var items := Chars(w) + rest;
    assert items[0] == Lit(w[0]);
    ContainsIffOccurs(s, w);
    forall q | pos <= q <= |s|
      ensures MatchAt(s, q, items).None?
    {
      if MatchAt(s, q, items).Some? {
        MatchAtFits(s, q, items);
        FitsCharsPrefix(s, w, rest, MatchAt(s, q, items).value);
      }
    }
    DeleteAllNoMatch(s, items, pos);
  }

  /** Total length of the matched pieces. */
  function MatchedLength(ms: seq<seq<nat>>): int
    requires forall i :: 0 <= i < |ms| ==> |ms[i]| > 0
  {
    if ms == [] then 0 else Last(ms[0]) - ms[0][0] + MatchedLength(ms[1..])
  }

  /** Deleting the matches removes exactly the text `findall` reports. */
  lemma {:induction false} DeleteAllLength(s: string, items: seq<Item>, pos: nat)
    requires pos <= |s| && StartsWithLit(items)
    ensures |DeleteAll(s, items, pos)| + MatchedLength(FindAll(s, items, pos)) == |s| - pos
    decreases |s| - pos
  {
    match Search(s, items, pos)
    case None =>
    case Some(b) =>
      DeleteAllLength(s, items, Last(b));
      var ms := FindAll(s, items, pos);
      assert ms[1..] == FindAll(s, items, Last(b));
  }

  /** With nothing to delete the text is returned as it is. */
  lemma DeleteAllNoMatch(s: string, items: seq<Item>, pos: nat)
    requires pos <= |s| && StartsWithLit(items)
    requires forall q :: pos <= q <= |s| ==> MatchAt(s, q, items).None?
    ensures DeleteAll(s, items, pos) == s[pos..]
    ensures FindAll(s, items, pos) == []
  {
  }

  // ---------------------------------------------------------------------------
  // Fitting concatenated patterns
  // ---------------------------------------------------------------------------

  /** A fit of `A + B` is a fit of `A` followed by a fit of `B` sharing the cut point between them. */
  lemma {:induction false} FitsAppend(s: string, a: seq<Item>, c: seq<Item>, b: seq<nat>)
    requires |b| == |a| + |c| + 1
    ensures Fits(s, a + c, b) <==> Fits(s, a, b[..|a| + 1]) && Fits(s, c, b[|a|..])
    decreases |a|
  {
    if a != [] {
      assert (a + c)[1..] == a[1..] + c;
      FitsAppend(s, a[1..], c, b[1..]);
      assert b[1..][..|a|] == b[..|a| + 1][1..];
      assert b[1..][|a| - 1..] == b[|a|..];
    } else {
      assert a + c == c;
    }
  }

  /** The literal items fit exactly where the text occurs, one character each. */
  lemma {:induction false} FitsChars(s: string, w: string, b: seq<nat>)
    requires |b| == |w| + 1
    ensures Fits(s, Chars(w), b) <==>
      OccursAt(s, w, b[0]) && forall i :: 0 <= i < |b| ==> b[i] == b[0] + i
    decreases |w|
  {
    if w != [] {
      assert Chars(w)[1..] == Chars(w[1..]);
      FitsChars(s, w[1..], b[1..]);
      if OccursAt(s, w, b[0]) {
        assert s[b[0] + 1..b[0] + |w|] == w[1..];
      }
      if Fits(s, Chars(w), b) {
        assert s[b[0]..b[0] + |w|] == [s[b[0]]] + s[b[0] + 1..b[0] + |w|];
      }
    }
  }

  /** Cut points of `n` consecutive positions starting at `p`. */
  function Range(p: nat, n: nat): (r: seq<nat>)
    ensures |r| == n && forall i :: 0 <= i < n ==> r[i] == p + i
  {
    seq(n, i requires 0 <= i < n => p + i)
  }

  /** Literal text greedily fits wherever it occurs (it has no repeats). */
  lemma GreedyFitsChars(s: string, w: string, rest: seq<Item>, t: seq<nat>)
    requires |t| >= 1 && t[0] >= |w| && OccursAt(s, w, t[0] - |w|)
    requires GreedyFits(s, rest, t)
    ensures GreedyFits(s, Chars(w) + rest, Range(t[0] - |w|, |w|) + t)
  {
    var p := t[0] - |w|;
    var b1 := Range(p, |w| + 1);
    FitsChars(s, w, b1);
    FitsIffEach(s, Chars(w), b1);
    GreedyIffEach(s, Chars(w), b1);
    GreedyAppend(s, Chars(w), rest, b1, t);
    assert b1[..|w|] == Range(p, |w|);
  }

  /** Literal text fits wherever it occurs, ahead of any fit of the rest. */
  lemma FitsCharsThen(s: string, w: string, rest: seq<Item>, t: seq<nat>)
    requires |t| >= 1 && t[0] >= |w| && OccursAt(s, w, t[0] - |w|)
    requires Fits(s, rest, t)
    ensures Fits(s, Chars(w) + rest, Range(t[0] - |w|, |w|) + t)
  {
    var p := t[0] - |w|;
    var b1 := Range(p, |w| + 1);
    FitsChars(s, w, b1);
    FitsJoin(s, Chars(w), rest, b1, t);
    assert b1[..|w|] == Range(p, |w|);
  }

  /** One item fitting ahead of a fit of the rest. */
  lemma FitsCons(s: string, it: Item, rest: seq<Item>, i: nat, t: seq<nat>)
    requires |t| >= 1 && ItemFits(s, it, i, t[0]) && Fits(s, rest, t)
    ensures Fits(s, [it] + rest, [i] + t)
  {
    assert ([it] + rest)[1..] == rest;
    assert ([i] + t)[1..] == t;
  }

  /** A slice whose characters all belong to a class puts them there in the whole text. */
  lemma ClassSlice(s: string, i: nat, j: nat, x: string, cls: Class)
    requires i <= j <= |s| && s[i..j] == x
    requires forall k :: 0 <= k < |x| ==> InClass(cls, x[k])
    ensures forall k :: i <= k < j ==> InClass(cls, s[k])
  {
    forall k | i <= k < j
      ensures InClass(cls, s[k])
    {
      assert s[k] == x[k - i];
    }
  }

  /** A fit of `A` and a fit of `C` that starts where it ends make a fit of `A + C`. */
  lemma FitsJoin(s: string, a: seq<Item>, c: seq<Item>, b1: seq<nat>, b2: seq<nat>)
    requires Fits(s, a, b1) && Fits(s, c, b2) && Last(b1) == b2[0]
    ensures Fits(s, a + c, b1[..|a|] + b2)
  {
    var b := b1[..|a|] + b2;
    assert b[..|a| + 1] == b1;
    assert b[|a|..] == b2;
    FitsAppend(s, a, c, b);
  }
}

=== FILE: pytypes.dfy ===
/**
 * Python-level outcomes shared by every module: `None` as an `Option`, and the
 * exceptions the modelled code raises as a `Result`.
 */
module PyTypes {

  /** A Python value that may be `None`. */
  datatype Option<+T> = None | Some(value: T)
  {
    /** The value, or `d` when this is `None`. */
    function GetOr(d: T): T
    {
      match this
      case Some(v) => v
      case None => d
    }
  }

  /** The exception classes the modelled code raises (or lets escape). */
  datatype PyError =
    | ValueError(message: string)
    | IndexError(message: string)
    | KeyError
    | TypeError
    | AttributeError
    | AssertionError(message: string)
    | HttpNotFoundError
    | GenericException(message: string)

  /** Either a value or the exception that was raised instead. */
  datatype Result<+T> = Ok(value: T) | Err(error: PyError)
  {
    predicate IsFailure()
    {
      Err?
    }

    /** The exception, passed on unchanged to the caller. */
    function PropagateFailure<U>(): Result<U>
      requires Err?
    {
      Err(error)
    }

    function Extract(): T
      requires Ok?
    {
      value
    }
  }
}

=== FILE: text.dfy ===
/**
 * The Python string operations the modelled code relies on, with ASCII
 * letters and digits and the white space `int()` skips: the character
 * classes `\s`, `\w` and `\d`, `in`, `startswith`,
 * `endswith`, `split(sep)`, `sep.join(...)`, `replace`, `strip`, `lower`,
 * and the decimal conversions `int(...)` / `str(...)`.
 */
module Text {
  import opened PyTypes

  // ---------------------------------------------------------------------------
  // Character classes (ASCII)
  // ---------------------------------------------------------------------------

  /** White space: space, tab, newline, carriage return, form feed and
      vertical tab, the characters `int()` skips. Python's `\s` and
      `strip()` also take U+001C to U+001F and the Unicode spaces. */
  predicate IsSpace(c: char)
  {
    c == ' ' || c == '\t' || c == '\n' || c == '\r' || c == '\U{000C}' || c == '\U{000B}'
  }

  predicate IsDigit(c: char)
  {
    '0' <= c <= '9'
  }

  /** `\w`: letters, digits and the underscore. */
  predicate IsWord(c: char)
  {
    ('a' <= c <= 'z') || ('A' <= c <= 'Z') || IsDigit(c) || c == '_'
  }

  /** `str.lower` on one ASCII character. */
  function Lower(c: char): char
  {
    if 'A' <= c <= 'Z' then (c as int - 'A' as int + 'a' as int) as char else c
  }

  function ToLower(s: string): (r: string)
    ensures |r| == |s|
    ensures forall i :: 0 <= i < |s| ==> r[i] == Lower(s[i])
  {
    seq(|s|, i requires 0 <= i < |s| => Lower(s[i]))
  }

  // ---------------------------------------------------------------------------
  // Prefixes, suffixes and containment
  // ---------------------------------------------------------------------------

  /** `s.startswith(p)` */
  predicate StartsWith(s: string, p: string)
  {
    |p| <= |s| && s[..|p|] == p
  }

  /** `s.endswith(p)` */
  predicate EndsWith(s: string, p: string)
  {
    |p| <= |s| && s[|s| - |p|..] == p
  }

  /** `sub` occurs in `s` starting at index `i`. */
  predicate OccursAt(s: string, sub: string, i: int)
  {
    0 <= i && i + |sub| <= |s| && s[i..i + |sub|] == sub
  }

  /** `sub in s`, scanning from the left. */
  predicate Contains(s: string, sub: string)
    decreases |s|
  {
    StartsWith(s, sub) || (|s| > 0 && Contains(s[1..], sub))
  }

  /** Containment means an occurrence at some index. */
  lemma {:induction false} ContainsIffOccurs(s: string, sub: string)
    ensures Contains(s, sub) <==> exists i :: OccursAt(s, sub, i)
    decreases |s|
  {
    if StartsWith(s, sub) {
      assert OccursAt(s, sub, 0);
    } else if |s| > 0 {
      ContainsIffOccurs(s[1..], sub);
      if Contains(s[1..], sub) {
        var i :| OccursAt(s[1..], sub, i);
        assert s[1..][i..i + |sub|] == s[i + 1..i + 1 + |sub|];
        assert OccursAt(s, sub, i + 1);
      } else {
        forall i | OccursAt(s, sub, i) && i > 0
          ensures OccursAt(s[1..], sub, i - 1)
        {
          assert s[1..][i - 1..i - 1 + |sub|] == s[i..i + |sub|];
        }
        assert !OccursAt(s, sub, 0);
      }
    } else {
      assert |sub| > 0;
      assert !exists i :: OccursAt(s, sub, i);
    }
  }

  // ---------------------------------------------------------------------------
  // split / join / replace
  // ---------------------------------------------------------------------------

  /** `s.split(sep)` for a non-empty separator: the pieces between the
      non-overlapping, left-to-right occurrences of `sep`. */
  function SplitOn(s: string, sep: string): (parts: seq<string>)
    requires sep != []
    ensures |parts| >= 1
    decreases |s|
  {
    if |s| < |sep| then [s]
    else if StartsWith(s, sep) then [[]] + SplitOn(s[|sep|..], sep)
    else
      var rest := SplitOn(s[1..], sep);
      [[s[0]] + rest[0]] + rest[1..]
  }

  /** `sep.join(parts)` */
  function Join(parts: seq<string>, sep: string): string
  {
    if parts == [] then []
    else if |parts| == 1 then parts[0]
    else parts[0] + sep + Join(parts[1..], sep)
  }

  /** `"".join(parts)` */
  function Concat(parts: seq<string>): string
  {
    if parts == [] then [] else parts[0] + Concat(parts[1..])
  }

  /** `rep` before every character of `s` and once at the end: what
      `s.replace("", rep)` produces. */
  function Interleave(s: string, rep: string): (r: string)
    ensures |r| == |s| + (|s| + 1) * |rep|
  {
    if s == [] then rep else rep + [s[0]] + Interleave(s[1..], rep)
  }

  /** `s.replace(pat, rep)`: every non-overlapping occurrence of `pat`,
      found left to right, is replaced by `rep`. */
  function Replace(s: string, pat: string, rep: string): string
    decreases |s|
  {
    if pat == [] then Interleave(s, rep)
    else if |s| < |pat| then s
    else if StartsWith(s, pat) then rep + Replace(s[|pat|..], pat, rep)
    else [s[0]] + Replace(s[1..], pat, rep)
  }

  /** `Join` on a list of at least two parts: the first part, the separator, the rest joined. */
  lemma JoinStep(x: string, rest: seq<string>, sep: string)
    requires rest != []
    ensures Join([x] + rest, sep) == x + sep + Join(rest, sep)
  {
    assert ([x] + rest)[1..] == rest;
  }

  lemma JoinConsFirst(c: char, parts: seq<string>, sep: string)
    requires |parts| >= 1
    ensures Join([[c] + parts[0]] + parts[1..], sep) == [c] + Join(parts, sep)
  {
    var q := [[c] + parts[0]] + parts[1..];
    if |parts| > 1 {
      assert q[1..] == parts[1..];
    }
  }

  /** Splitting on a separator and joining the pieces with the same
      separator gives back the original text. */
  lemma {:induction false} JoinSplitOn(s: string, sep: string)
    requires sep != []
    ensures Join(SplitOn(s, sep), sep) == s
    decreases |s|
  {
    if |s| < |sep| {
    } else if StartsWith(s, sep) {
      var rest := SplitOn(s[|sep|..], sep);
      JoinSplitOn(s[|sep|..], sep);
      assert ([[]] + rest)[1..] == rest;
      assert s == sep + s[|sep|..];
    } else {
      var rest := SplitOn(s[1..], sep);
      JoinSplitOn(s[1..], sep);
      JoinConsFirst(s[0], rest, sep);
      assert s == [s[0]] + s[1..];
    }
  }

  /** `s.replace(pat, rep) == rep.join(s.split(pat))` for a non-empty `pat`. */
  lemma {:induction false} ReplaceIsSplitJoin(s: string, pat: string, rep: string)
    requires pat != []
    ensures Replace(s, pat, rep) == Join(SplitOn(s, pat), rep)
    decreases |s|
  {
    if |s| < |pat| {
    } else if StartsWith(s, pat) {
      var rest := SplitOn(s[|pat|..], pat);
      ReplaceIsSplitJoin(s[|pat|..], pat, rep);
      assert SplitOn(s, pat) == [[]] + rest;
      JoinStep([], rest, rep);
    } else {
      var rest := SplitOn(s[1..], pat);
      ReplaceIsSplitJoin(s[1..], pat, rep);
      JoinConsFirst(s[0], rest, rep);
    }
  }

  /** Replacing a text that does not occur leaves the string unchanged. */
  lemma {:induction false} ReplaceAbsent(s: string, pat: string, rep: string)
    requires pat != [] && !Contains(s, pat)
    ensures Replace(s, pat, rep) == s
    decreases |s|
  {
    if |s| >= |pat| {
      ReplaceAbsent(s[1..], pat, rep);
      assert s == [s[0]] + s[1..];
    }
  }

  /** Replacing a text by itself leaves the string unchanged. */
  lemma ReplaceSelf(s: string, pat: string)
    requires pat != []
    ensures Replace(s, pat, pat) == s
  {
    ReplaceIsSplitJoin(s, pat, pat);
    JoinSplitOn(s, pat);
  }

  /** Replacing the whole text gives the replacement. */
  lemma ReplaceWhole(pat: string, rep: string)
    requires pat != []
    ensures Replace(pat, pat, rep) == rep
  {
    assert pat[|pat|..] == [];
  }

  /** An occurrence at the very start is replaced, then the rest is processed. */
  lemma ReplaceAtStart(pat: string, rest: string, rep: string)
    requires pat != []
    ensures Replace(pat + rest, pat, rep) == rep + Replace(rest, pat, rep)
  {
    assert (pat + rest)[..|pat|] == pat;
    assert (pat + rest)[|pat|..] == rest;
  }

  /** Each piece of a text glued from five pieces sits at its own offset. */
  lemma Pieces(a: string, b: string, c: string, d: string, e: string)
    ensures var s := a + b + c + d + e;
      var i, j, k := |a|, |a| + |b|, |a| + |b| + |c|;
      s[..i] == a && s[i..j] == b && s[j..k] == c && s[k..k + |d|] == d && s[k + |d|..] == e
  {
    var s := a + b + c + d + e;
    assert s == a + (b + (c + (d + e)));
  }

  /** A text holding a character that `s` lacks does not occur in `s`. */
  lemma AbsentByChar(s: string, pat: string, c: char)
    requires c in pat && c !in s
    ensures !Contains(s, pat)
  {
    ContainsIffOccurs(s, pat);
    var k :| 0 <= k < |pat| && pat[k] == c;
    forall i | 0 <= i
      ensures !OccursAt(s, pat, i)
    {
      if i + |pat| <= |s| {
        assert s[i..i + |pat|][k] == s[i + k] && s[i + k] in s;
      }
    }
  }

  /** Every piece followed by `t`, all concatenated: `"".join(p + t for p in parts)`. */
  function ConcatEach(parts: seq<string>, t: string): string
  {
    if parts == [] then [] else parts[0] + t + ConcatEach(parts[1..], t)
  }

  /** Terminating every piece with `t` is joining them with `t` and adding one more `t`. */
  lemma {:induction false} ConcatEachIsJoin(parts: seq<string>, t: string)
    requires parts != []
    ensures ConcatEach(parts, t) == Join(parts, t) + t
  {
    if |parts| > 1 {
      ConcatEachIsJoin(parts[1..], t);
    }
  }

  /** The first piece of `s.split(sep)` is the text before the first
      occurrence of `sep`, or all of `s` when there is none. */
  lemma {:induction false} SplitOnFirst(s: string, sep: string)
    requires sep != []
    ensures var h := SplitOn(s, sep)[0];
      StartsWith(s, h) && !Contains(h, sep) && (h == s || OccursAt(s, sep, |h|))
    decreases |s|
  {
    var h := SplitOn(s, sep)[0];
    if |s| < |sep| {
      assert !StartsWith(s, sep);
      ContainsIffOccurs(s, sep);
    } else if StartsWith(s, sep) {
      assert h == [];
      assert !StartsWith(h, sep);
    } else {
      var h' := SplitOn(s[1..], sep)[0];
      SplitOnFirst(s[1..], sep);
      assert h == [s[0]] + h';
      SplitOnFirstStep(s, sep, h');
    }
  }

  /** One character that does not start `sep`, put in front of a first
      piece, keeps it a first piece. */
  lemma SplitOnFirstStep(s: string, sep: string, h': string)
    requires sep != [] && s != [] && !StartsWith(s, sep)
    requires StartsWith(s[1..], h') && !Contains(h', sep) && (h' == s[1..] || OccursAt(s[1..], sep, |h'|))
    ensures var h := [s[0]] + h';
      StartsWith(s, h) && !Contains(h, sep) && (h == s || OccursAt(s, sep, |h|))
  {
    var h := [s[0]] + h';
    assert s[..|h|] == [s[0]] + s[1..][..|h'|];
    if h' != s[1..] {
      SliceOfTail(s, |h'|, |h'| + |sep|);
    }
    if |sep| <= |h| {
      assert h[..|sep|] == s[..|sep|];
    }
    assert h[1..] == h';
  }

  /** A slice of the tail `s[1..]` is the slice of `s` one further on. */
  lemma SliceOfTail(s: string, i: nat, j: nat)
    requires s != [] && i <= j <= |s| - 1
    ensures s[1..][i..j] == s[i + 1..j + 1]
  {
  }

  /** An occurrence inside a slice is an occurrence in the whole text. */
  lemma OccursInSlice(s: string, i: nat, j: nat, sub: string, q: nat)
    requires i <= j <= |s| && OccursAt(s[i..j], sub, q)
    ensures OccursAt(s, sub, i + q)
  {
    forall k | 0 <= k < |sub|
      ensures s[i + q + k] == sub[k]
    {
      assert s[i..j][q..q + |sub|][k] == sub[k];
    }
    assert s[i + q..i + q + |sub|] == sub;
  }

  /** Two texts occurring one right after the other make their concatenation occur. */
  lemma OccursThen(s: string, a: string, b: string, q: nat)
    requires OccursAt(s, a, q) && OccursAt(s, b, q + |a|)
    ensures OccursAt(s, a + b, q)
  {
    assert s[q..q + |a| + |b|] == s[q..q + |a|] + s[q + |a|..q + |a| + |b|];
  }

  /** A text absent from `s` is absent from every slice of `s`. */
  lemma AbsentFromSlice(s: string, i: nat, j: nat, sub: string)
    requires i <= j <= |s| && !Contains(s, sub)
    ensures !Contains(s[i..j], sub)
  {
    ContainsIffOccurs(s, sub);
    ContainsIffOccurs(s[i..j], sub);
    if Contains(s[i..j], sub) {
      var q :| OccursAt(s[i..j], sub, q);
      OccursInSlice(s, i, j, sub, q);
    }
  }

  // ---------------------------------------------------------------------------
  // strip
  // ---------------------------------------------------------------------------

  /** `s.lstrip()` */
  function StripLeft(s: string): (r: string)
    ensures EndsWith(s, r)
    ensures r == [] || !IsSpace(r[0])
    ensures forall i :: 0 <= i < |s| - |r| ==> IsSpace(s[i])
    decreases |s|
  {
    if |s| > 0 && IsSpace(s[0]) then StripLeft(s[1..]) else s
  }

  /** `s.rstrip()` */
  function StripRight(s: string): (r: string)
    ensures StartsWith(s, r)
    ensures r == [] || !IsSpace(r[|r| - 1])
    ensures forall i :: |r| <= i < |s| ==> IsSpace(s[i])
    decreases |s|
  {
    if |s| > 0 && IsSpace(s[|s| - 1]) then StripRight(s[..|s| - 1]) else s
  }

  /** `s.strip()` */
  function Strip(s: string): string
  {
    StripRight(StripLeft(s))
  }

  /** `strip` removes only whitespace, and only at the two ends:
      `s` is a run of whitespace, then the stripped text, then whitespace. */
  lemma StripSpec(s: string)
    ensures var r := Strip(s); var i := |s| - |StripLeft(s)|;
      0 <= i && i + |r| <= |s| && s[i..i + |r|] == r
        && (forall k :: 0 <= k < i ==> IsSpace(s[k]))
        && (forall k :: i + |r| <= k < |s| ==> IsSpace(s[k]))
        && (r == [] || (!IsSpace(r[0]) && !IsSpace(r[|r| - 1])))
  {
    var l := StripLeft(s);
    var r := StripRight(l);
    assert Strip(s) == r;
    StripPieces(s, l, r);
    StripBothEnds(s);
  }

  /** The stripped text neither starts nor ends with whitespace. */
  lemma StripBothEnds(s: string)
    ensures var r := Strip(s); r == [] || (!IsSpace(r[0]) && !IsSpace(r[|r| - 1]))
  {
    var l := StripLeft(s);
    var r := StripRight(l);
    if r != [] {
      assert r[0] == l[0];
    }
  }

  /** A suffix `l` of `s` after blanks, and a prefix `r` of `l` before
      blanks: `r` sits in `s` right after the leading blanks, and only
      blanks follow it. */
  lemma StripPieces(s: string, l: string, r: string)
    requires EndsWith(s, l) && StartsWith(l, r)
    requires forall k :: |r| <= k < |l| ==> IsSpace(l[k])
    ensures var i := |s| - |l|;
      i + |r| <= |s| && s[i..i + |r|] == r && forall k :: i + |r| <= k < |s| ==> IsSpace(s[k])
  {
    var i := |s| - |l|;
    assert s[i..] == l;
    assert s[i..i + |r|] == s[i..][..|r|];
    forall k | i + |r| <= k < |s|
      ensures IsSpace(s[k])
    {
      assert s[k] == l[k - i];
    }
  }

  /** Stripping twice is stripping once. */
  lemma StripIdempotent(s: string)
    ensures Strip(Strip(s)) == Strip(s)
  {
    StripSpec(s);
    if Strip(s) != [] {
      StripUnpadded(Strip(s));
    }
  }

  // ---------------------------------------------------------------------------
  // Decimal numbers: str(n) and int(s)
  // ---------------------------------------------------------------------------

  function DigitChar(d: nat): char
    requires d < 10
  {
    ('0' as int + d) as char
  }

  function DigitValue(c: char): nat
    requires IsDigit(c)
  {
    c as int - '0' as int
  }

  predicate AllDigits(s: string)
  {
    forall i :: 0 <= i < |s| ==> IsDigit(s[i])
  }

  /** The value of a run of decimal digits (leading zeros allowed). */
  function DigitsValue(ds: string): nat
    requires AllDigits(ds)
  {
    if ds == [] then 0 else DigitsValue(ds[..|ds| - 1]) * 10 + DigitValue(ds[|ds| - 1])
  }

  /** `str(n)` for a natural number: the shortest decimal spelling. */
  function NatToString(n: nat): (r: string)
    ensures |r| >= 1 && AllDigits(r)
  {
    if n < 10 then [DigitChar(n)] else NatToString(n / 10) + [DigitChar(n % 10)]
  }

  /** `str(i)` for an integer. */
  function IntToString(i: int): string
  {
    if i < 0 then "-" + NatToString(-i) else NatToString(i)
  }

  /** `int(s)`: surrounding whitespace, an optional sign, then one or more
      decimal digits; anything else raises `ValueError`. */
  function ParseInt(s: string): Option<int>
  {
    var t := Strip(s);
    if |t| >= 1 && (t[0] == '-' || t[0] == '+') then
      var ds := t[1..];
      if ds != [] && AllDigits(ds) then
        Some(if t[0] == '-' then -(DigitsValue(ds) as int) else DigitsValue(ds))
      else None
    else if t != [] && AllDigits(t) then Some(DigitsValue(t))
    else None
  }

  lemma {:induction false} NatToStringValue(n: nat)
    ensures DigitsValue(NatToString(n)) == n
  {
    if n >= 10 {
      NatToStringValue(n / 10);
      var r := NatToString(n);
      assert r[..|r| - 1] == NatToString(n / 10);
    }
  }

  lemma StripUnpadded(t: string)
    requires t != [] && !IsSpace(t[0]) && !IsSpace(t[|t| - 1])
    ensures Strip(t) == t
  {
  }

  /** `int(str(i)) == i` */
  lemma ParseIntToString(i: int)
    ensures ParseInt(IntToString(i)) == Some(i)
  {
    if i < 0 {
      ParseIntNegative(IntToString(i), -i);
    } else {
      ParseIntDigits(IntToString(i), i);
    }
  }

  /** `int` of the digits of `n` is `n`. */
  lemma ParseIntDigits(t: string, n: nat)
    requires t == NatToString(n)
    ensures ParseInt(t) == Some(n)
  {
    NatToStringValue(n);
    assert IsDigit(t[0]) && IsDigit(t[|t| - 1]);
    StripUnpadded(t);
  }

  /** `int` of a minus sign and the digits of `n` is `-n`. */
  lemma ParseIntNegative(t: string, n: nat)
    requires t == "-" + NatToString(n)
    ensures ParseInt(t) == Some(-(n as int))
  {
    var ds := NatToString(n);
    NatToStringValue(n);
    assert t[0] == '-' && t[1..] == ds && t[|t| - 1] == ds[|ds| - 1];
    assert IsDigit(ds[|ds| - 1]);
    StripUnpadded(t);
  }

  /** A text that starts with a capital letter and ends with a letter, such
      as `True`, `False` or `None`, is not an integer. */
  lemma ParseIntRefusesWord(t: string)
    requires t != [] && 'A' <= t[0] <= 'Z' && 'a' <= t[|t| - 1] <= 'z'
    ensures ParseInt(t).None?
  {
    StripUnpadded(t);
    assert !IsDigit(t[0]);
  }

  /** `str(int(v) + 1)`: the decimal text of the successor, or `ValueError`
      when `v` is not a decimal integer. */
  function NextVersion(v: string): (r: Result<string>)
    ensures r.Ok? <==> ParseInt(v).Some?
    ensures r.Ok? ==> ParseInt(r.value) == Some(ParseInt(v).value + 1)
  {
    match ParseInt(v)
    case None => Err(ValueError("invalid literal for int() with base 10"))
    case Some(n) =>
      ParseIntToString(n + 1);
      Ok(IntToString(n + 1))
  }

  /** The successor of the text of `n` is the text of `n + 1`. */
  lemma NextVersionOf(n: int)
    ensures NextVersion(IntToString(n)) == Ok(IntToString(n + 1))
  {
    ParseIntToString(n);
  }
}
